=== FILE: README.md ===
# Course-material generation in automator-ro, modelled in Dafny

automator-ro generates the materials of a training course with a text-generation model. The course's
owner then reviews each material. This project models the core of that workflow as pure functions
over an immutable database value (`Records.Store`: courses, generation pipelines, material rows) and
proves properties of those functions. The core consists of:

- **The course form** (`CourseBuilder`). It holds the form's typed fields and defaults. A submission
  makes three inserts, in order: a draft course, a pending pipeline of eight steps, and one pending
  material row per step of the fixed plan: agenda (1), objectives (2), slides, trainer_notes,
  exercises, manual, tests and resources (8). Each failed insert stops the submission.
- **The generation function** (`Generation`), the `generate-course-materials` edge function. It
  checks the request and reads the course and the active generation steps. It marks the pipeline
  running and the course generating. Then, for every step in order, it:
  - records the step's progress;
  - marks the step's material rows generating;
  - renders the prompt template (six course placeholders, then the placeholders of dependencies
    generated earlier in the run);
  - calls the model;
  - stores the text as completed, or marks the rows failed and goes on with the next step.

  A failed step does not stop the loop. At the end the function marks the pipeline and the course
  completed, whatever the steps' outcomes; there is no approval gate inside it. Dependency content
  is substituted in full, and only the six course placeholders `subject`, `duration`, `level`,
  `environment`, `tone` and `language` are filled in. The error path re-reads the request body,
  which was already consumed, so it recovers no course id and never marks the pipeline failed
  (`Generation.CatchPathWritesNothing`). The model is an oracle parameter: the reply to the `i`-th
  step's prompt.
- **The course page** (`MaterialsViewer`). It covers:
  - the page's data load;
  - the three review writes on a material row (save an edit, approve, reject);
  - starting generation;
  - the predicates that decide which controls are shown: can start, in progress, current and next
    material, can proceed.
- **The material editor** (`MaterialEditor`). It covers:
  - the text the editor opens with;
  - which actions it offers;
  - the version history: it loads at most five rows, newest first, and a save numbers its new
    version `loaded + 1`.
- **The export function** (`Export`), the `export-material` edge function. A `slides` material
  becomes a deck: one slide per section split at Markdown headings, or a single fallback slide. Any
  other material becomes a document: a title paragraph, then one paragraph per line. The file is
  uploaded to `exports/<course>/<material><ext>` and its path and public URL are recorded on the row.

Shared modules:

- `Text`: JavaScript string operations on `seq<char>`. These are literal global replace, `split`,
  `join`, `trim` and `substring`.
- `Query`: the query-builder operations the code uses. These are filter, order, limit, `.single()`,
  `.update().eq()` and `Array.prototype.find`.
- `Wrappers`: `Option`.

The model rests on these choices:

- Database writes made with `await supabase...update()` whose error the code ignores always take
  effect.
- The active-steps query is given already filtered and ordered. Its error is a parameter.
- Identifiers the database generates are parameters.

## Model

| member | source | states |
|---|---|---|
| `Generation.Handle` | supabase/functions/generate-course-materials/index.ts:29-288 | A preflight answers 200 and writes nothing. Any non-200 answer is an error and leaves the database unchanged. An error answer comes exactly when preparation refused the request, and it is a 500 carrying that refusal's failure; the only statuses are 200 and 500. Success carries the fixed success message and one outcome per active step. |
| `Generation.Prepare` | supabase/functions/generate-course-materials/index.ts:35-67 | The request is refused exactly when the body is not JSON, the course id is falsy, the model key is falsy, the id does not match exactly one course, or the steps query fails. Otherwise it yields that course, which is a row of the table. |
| `Generation.MissingCourseIdRefused` | supabase/functions/generate-course-materials/index.ts:37-39 | A body without a truthy course id gets a 500 whose message is "Course ID is required". Nothing is written. |
| `Generation.MissingKeyRefused` | supabase/functions/generate-course-materials/index.ts:43-47 | Without the model key the answer is a 500 whose message is "Gemini API key not configured". Nothing is written. |
| `Generation.CatchPath` | supabase/functions/generate-course-materials/index.ts:248-287 | The error answer is a 500 with the error. The failed-status writes happen exactly when the re-read body has a truthy course id. |
| `Generation.CatchPathWritesNothing` | supabase/functions/generate-course-materials/index.ts:35-35 | The body was already consumed at line 35, so the error path never writes. It would write the failed statuses if the body could be read again. |
| `Generation.RenderCourseFields` | supabase/functions/generate-course-materials/index.ts:113-121 | The six course placeholders are replaced in a fixed order. (Its properties are the lemmas below.) |
| `Generation.NoPlaceholderUnchanged` | supabase/functions/generate-course-materials/index.ts:116-121 | A template with no course placeholder renders to itself. |
| `Generation.SubjectReplacedEverywhere` | supabase/functions/generate-course-materials/index.ts:116-116 | Every occurrence of `{subject}` is replaced by the course subject, not just the first. |
| `Generation.ReplaceEachAbsent` | supabase/functions/generate-course-materials/index.ts:116-121 | Replacements whose patterns do not occur leave the text unchanged. |
| `Generation.ReplaceEachKeepsToken` | supabase/functions/generate-course-materials/index.ts:116-121 | A brace token that is not one of the replaced patterns passes through the replacements intact. |
| `Generation.SubstituteDepsKeepsToken` | supabase/functions/generate-course-materials/index.ts:124-129 | The dependency loop keeps any token that is not the placeholder of an available dependency. |
| `Generation.SubstituteDepsNoneAvailable` | supabase/functions/generate-course-materials/index.ts:124-129 | When no dependency has been generated with non-empty text, the prompt is unchanged. |
| `Generation.AvailableDependencyFilled` | supabase/functions/generate-course-materials/index.ts:124-129 | The placeholder of a dependency generated earlier with non-empty text is replaced by that text, whatever other dependencies the step lists. |
| `Generation.SubstituteDepsBraceFree` | supabase/functions/generate-course-materials/index.ts:124-129 | A prompt without braces is left unchanged by the dependency loop. |
| `Generation.UnknownTokenVerbatim` | supabase/functions/generate-course-materials/index.ts:113-129 | An unresolved placeholder (for instance `{title}`) is left verbatim by the whole rendering. |
| `Generation.PendingDependencyVerbatim` | supabase/functions/generate-course-materials/index.ts:124-129 | A dependency not yet generated in this run keeps its `{name_content}` placeholder. |
| `Generation.DepTokenIsToken` | supabase/functions/generate-course-materials/index.ts:126-126 | A plain dependency name gives a well-formed brace placeholder. |
| `Generation.DepTokenInjective` | supabase/functions/generate-course-materials/index.ts:126-126 | Distinct dependency names give distinct placeholders. |
| `Generation.Progress` | supabase/functions/generate-course-materials/index.ts:91-91 | `Math.round(100 k / n)`: the result is within one half of `100 k / n`, with halves rounded up. |
| `Generation.ProgressBounds` | supabase/functions/generate-course-materials/index.ts:91-91 | Progress lies in 0..100. It is 100 at the last step, and at least 1 when there are at most 200 steps. |
| `Generation.ProgressMonotone` | supabase/functions/generate-course-materials/index.ts:89-91 | Later steps never report less progress. |
| `Generation.ProgressCanBeZero` | supabase/functions/generate-course-materials/index.ts:91-91 | With 201 steps the first step reports 0 percent. |
| `Generation.ProgressOfEightSteps` | supabase/functions/generate-course-materials/index.ts:91-91 | The eight steps report 13, 25, 38, 50, 63, 75, 88 and 100. |
| `Generation.ReadReply` | supabase/functions/generate-course-materials/index.ts:172-188 | A reply succeeds exactly when it is a parsed payload whose first candidate has content and whose first part has text. The outcome's text is that text. |
| `Generation.Attempt` | supabase/functions/generate-course-materials/index.ts:124-188 | A step whose dependencies are null fails before the model is called. Otherwise its outcome is the model's reply to its own rendered prompt. |
| `Generation.BeginStep` | supabase/functions/generate-course-materials/index.ts:97-110 | The course's pipelines move to the step's order and progress; the step's rows change only their status, to `generating`. No other row and no course changes. |
| `Generation.FinishStep` | supabase/functions/generate-course-materials/index.ts:191-215 | The step's rows become completed with the text exactly on success, and failed with their content kept otherwise. No other row, pipeline or course changes. |
| `Generation.StepRun` | supabase/functions/generate-course-materials/index.ts:95-216 | One iteration appends exactly its own attempt's outcome. It changes no course and no table's size, and `generatedContent` stays `$`-free. |
| `Generation.StepRunWrites` | supabase/functions/generate-course-materials/index.ts:95-216 | What one iteration writes. The step's rows end completed with the text exactly when the attempt succeeded, and failed otherwise with their content kept. No other material row changes. The course's pipelines record the step's order and progress. |
| `Generation.BeginStepMarksGenerating` | supabase/functions/generate-course-materials/index.ts:105-110 | Between the step's two writes, its rows are `generating`. |
| `Generation.Run` | supabase/functions/generate-course-materials/index.ts:87-217 | After `j` iterations there are `j` outcomes. The courses are unchanged, and every value in `generatedContent` is `$`-free. |
| `Generation.RunGeneratedSound` | supabase/functions/generate-course-materials/index.ts:186-186 | Every entry of `generatedContent` is the text of an earlier successful step, stored under that step's name. |
| `Generation.RunGeneratedComplete` | supabase/functions/generate-course-materials/index.ts:186-186 | Conversely, a step that succeeded leaves its text in `generatedContent` under its name until a later step of the same name runs. |
| `Generation.RunRecorded` | supabase/functions/generate-course-materials/index.ts:186-186 | `generatedContent` after `j` iterations is the steps' outcomes recorded in order under their names. |
| `Generation.RunLeavesOtherRows` | supabase/functions/generate-course-materials/index.ts:106-110 | A row of another course, or of a type no step has reached, is never written. |
| `Generation.RunPipelines` | supabase/functions/generate-course-materials/index.ts:97-103 | Other courses' pipelines are untouched. This course's pipeline shows the latest step's order and its progress. |
| `Generation.OutcomeStable` | supabase/functions/generate-course-materials/index.ts:89-217 | A step's outcome is never revised by a later iteration. |
| `Generation.RowStableAfter` | supabase/functions/generate-course-materials/index.ts:191-212 | A row no later step selects keeps the value its last step gave it. |
| `Generation.MaterialKeysStable` | supabase/functions/generate-course-materials/index.ts:106-212 | Steps write only `status` and `content`. Every other column of a row is kept. |
| `Generation.LastStepDecides` | supabase/functions/generate-course-materials/index.ts:186-212 | The last step for a material type decides that type's row. The row is completed with the text exactly when the step succeeded, and failed exactly when it failed. |
| `Generation.SuccessCompletesCourse` | supabase/functions/generate-course-materials/index.ts:219-231 | After a successful request the course is `completed`. Its pipelines are `completed` at 100 percent and at the last step's order, or step 1 with no steps. Nothing else changes. |
| `Generation.SuccessMaterialRows` | supabase/functions/generate-course-materials/index.ts:89-217 | A successful request leaves untouched rows as they were. Each row of a produced type is decided by the last step of that type. |
| `Generation.MarkStarted` | supabase/functions/generate-course-materials/index.ts:70-82 | The course's pipelines become running at step 1 and the course generating. Nothing else changes. |
| `Generation.MarkFinished` | supabase/functions/generate-course-materials/index.ts:219-231 | The course's pipelines become completed at 100 percent and the course completed. Nothing else changes. |
| `Generation.MarkFailed` | supabase/functions/generate-course-materials/index.ts:259-270 | The writes the error path would make for a recovered id: the course's pipelines failed with the error's message, the course failed. Nothing else changes. |
| `Generation.RereadBody` | supabase/functions/generate-course-materials/index.ts:253-253 | Reading the consumed body again yields no truthy course id. |
| `Generation.Interrupted` | supabase/functions/generate-course-materials/index.ts:69-231 | The database part-way through a run, as the page can find it when the answer is lost. A preflight or a refused request leaves it as it was. |
| `Generation.InterruptedAfterAllSteps` | supabase/functions/generate-course-materials/index.ts:219-231 | Once every step has run, it is the database the handler leaves. |
| `Generation.InterruptedStatus` | supabase/functions/generate-course-materials/index.ts:69-231 | Under way, the course is generating and its pipelines running; after the last step both are completed. Row keys and `waiting_for_approval` are kept. |
| `CourseBuilder.LevelOf` | src/components/CourseBuilder.tsx:18-18 | Reading a level back gives the option whose text it is. |
| `CourseBuilder.EnvironmentOf` | src/components/CourseBuilder.tsx:19-19 | Reading an environment back gives the option whose text it is. |
| `CourseBuilder.ToneOf` | src/components/CourseBuilder.tsx:20-20 | Reading a tone back gives the option whose text it is. |
| `CourseBuilder.LanguageOf` | src/components/CourseBuilder.tsx:21-21 | Reading a language back gives the option whose text it is. |
| `CourseBuilder.SetText` | src/components/CourseBuilder.tsx:39-41 | Changing a text field sets that field and nothing else. |
| `CourseBuilder.NewCourse` | src/components/CourseBuilder.tsx:50-58 | The course row is a draft of the user. The form it was created from can be read back from it. |
| `CourseBuilder.FormOf` | src/components/CourseBuilder.tsx:52-56 | A form read back from a row agrees with all of the row's columns: title, description, subject, duration and the four options. It exists exactly when all four option texts are known. |
| `CourseBuilder.NewPipeline` | src/components/CourseBuilder.tsx:63-71 | The pipeline is pending, at step 1 of 8, at 0 percent. |
| `CourseBuilder.NewMaterial` | src/components/CourseBuilder.tsx:90-96 | A material row is pending, with no content, for its plan entry. |
| `CourseBuilder.NewMaterials` | src/components/CourseBuilder.tsx:87-97 | One row per plan entry, in plan order. |
| `CourseBuilder.PlanIsWellFormed` | src/components/CourseBuilder.tsx:76-85 | The plan has eight entries, ordered 1 to 8, with distinct material types. |
| `CourseBuilder.NewMaterialsMatchPipeline` | src/components/CourseBuilder.tsx:62-97 | The rows created match the pipeline: `total_steps` rows, orders 1..8, all pending, distinct types. |
| `CourseBuilder.Submit` | src/components/CourseBuilder.tsx:43-130 | Without a user, nothing happens. A failed insert keeps the form and everything written before it. Success creates all three, reports the course id and resets the form. |
| `CourseBuilder.SubmitCreatesInitialState` | src/components/CourseBuilder.tsx:43-118 | After success: one new draft course in the chosen language, one new pending pipeline at step 1, and exactly eight pending material rows with orders 1..8. |
| `MaterialsViewer.LoadData` | src/components/MaterialsViewer.tsx:120-157 | Loading ends either way. When all three reads succeed and both `.single()` reads find one row, the page shows that course, that pipeline and the course's materials sorted by step order. Otherwise nothing but the loading flag changes. |
| `MaterialsViewer.SaveEdit` | src/components/MaterialsViewer.tsx:214-221 | The edit becomes `approved_content`, stamped with the time. The other columns are kept. |
| `MaterialsViewer.Approve` | src/components/MaterialsViewer.tsx:228-234 | The row becomes approved. Nothing else changes. |
| `MaterialsViewer.Reject` | src/components/MaterialsViewer.tsx:242-249 | The row becomes rejected and pending. Nothing else changes. |
| `MaterialsViewer.UpdateMaterial` | src/components/MaterialsViewer.tsx:215-221 | The rows with the given id are updated. Every other row and table is unchanged. |
| `MaterialsViewer.ReviewMaterial` | src/components/MaterialsViewer.tsx:214-255 | A failed write changes nothing. A successful write updates the row and the page is what a load of the new database gives. Approve and reject also close the editor. |
| `MaterialsViewer.SaveBecomesEffective` | src/components/MaterialsViewer.tsx:214-226 | A saved non-empty edit becomes the text the editor treats as current. An empty one falls back to the generated content. |
| `MaterialsViewer.ReviewEndsReview` | src/components/MaterialsViewer.tsx:228-255 | After approve or reject, neither is offered again for that row. |
| `MaterialsViewer.RejectionSurvivesGeneration` | src/components/MaterialsViewer.tsx:242-249 | A rejected row stays rejected through a whole generation run. |
| `MaterialsViewer.StartGeneration` | src/components/MaterialsViewer.tsx:189-212 | The started flag stays raised exactly when the function's answer arrived and was 200. A request that never arrived writes nothing; a lost answer leaves the database the run had reached. |
| `MaterialsViewer.StartGenerationGate` | src/components/MaterialsViewer.tsx:270-270 | After an answered 200 the start button is gone. Otherwise, before any reload, it is back exactly when the page shows a draft course. |
| `MaterialsViewer.LostAnswerShowsRun` | src/components/MaterialsViewer.tsx:189-212 | After a lost answer the flag is down, yet the reload shows a course that is no longer a draft, so the start button stays away; while steps remain the run shows as in progress. |
| `MaterialsViewer.ReloadSeesStatus` | src/components/MaterialsViewer.tsx:120-157 | A reload after writes that keep row keys finds the one course and the one pipeline in their new statuses. |
| `MaterialsViewer.CurrentMaterial` | src/components/MaterialsViewer.tsx:272-272 | There is a current material exactly when a loaded row has the pipeline's current material id, and it is such a row. |
| `MaterialsViewer.NextMaterial` | src/components/MaterialsViewer.tsx:273-273 | There is a next material exactly when a loaded row has the next step order, and it is such a row. |
| `MaterialsViewer.CanProceedExactly` | src/components/MaterialsViewer.tsx:274-274 | Proceeding needs an approved current material and a loaded row one step further on. At step 8 of 8 there is none. |
| `MaterialsViewer.FreshRowsSelected` | src/components/MaterialsViewer.tsx:123-145 | For a course just created, the page's three queries select exactly the rows its submission inserted. |
| `MaterialsViewer.FreshCourseView` | src/components/MaterialsViewer.tsx:270-274 | A freshly created course can be started and is not in progress. It has no current material, the agenda at step 1 is next, and there is no proceeding. |
| `MaterialEditor.EffectiveContent` | src/components/MaterialEditor.tsx:225-225 | Edited text takes precedence over generated text when it is non-empty. |
| `MaterialEditor.InitialEditText` | src/components/MaterialEditor.tsx:69-79 | With generated content the editor opens on the effective content; otherwise it opens on the empty text. |
| `MaterialEditor.AvailableActions` | src/components/MaterialEditor.tsx:214-261 | Each action is offered exactly under its condition. Editing needs a row not generating. Save needs an idle editor and changed text. Approve/reject needs content pending review. Next needs permission and no run going. |
| `MaterialEditor.OpenedEditorState` | src/components/MaterialEditor.tsx:69-79 | An editor just opened on generated content has nothing to save. |
| `MaterialEditor.NewestFirst` | src/components/MaterialEditor.tsx:87-87 | The order is a permutation, with version numbers non-increasing. |
| `MaterialEditor.LoadVersions` | src/components/MaterialEditor.tsx:81-94 | The newest `min(count, 5)` versions of the material, highest first. A failed query shows none. |
| `MaterialEditor.LoadedBelong` | src/components/MaterialEditor.tsx:83-86 | Every loaded version is a row of the material. |
| `MaterialEditor.LoadedAreNewest` | src/components/MaterialEditor.tsx:87-88 | No version left out is newer than a loaded one. |
| `MaterialEditor.HandleSave` | src/components/MaterialEditor.tsx:96-126 | The version row is inserted only after a successful save, numbered `loaded + 1`. |
| `MaterialEditor.NextNumberFromTable` | src/components/MaterialEditor.tsx:107-107 | The next version number is `min(count, 5) + 1`. |
| `MaterialEditor.SaveOnce` | src/components/MaterialEditor.tsx:96-115 | A save followed by the reload adds exactly one version of the material. |
| `MaterialEditor.SaveOnceIsHandleSave` | src/components/MaterialEditor.tsx:96-115 | That save is `handleSave` with both writes succeeding, numbered from the versions a load of the table shows. |
| `MaterialEditor.PrefixKept` | src/components/MaterialEditor.tsx:102-108 | Saves only append to the version table. |
| `MaterialEditor.SaveNumbering` | src/components/MaterialEditor.tsx:107-115 | The `k`-th further save is numbered `min(n + k, 5) + 1`, so numbers never exceed six. |
| `MaterialEditor.VersionNumbersRepeat` | src/components/MaterialEditor.tsx:107-107 | From five versions on, two saves in a row both insert version six. |
| `Export.HeadingBreak` | supabase/functions/export-material/index.ts:51-51 | A match of `\n#+\s+` starts exactly where a newline, one or more `#` and white space do. It takes the whole run of `#` and the whole run of white space after it. |
| `Export.SplitHeadings` | supabase/functions/export-material/index.ts:51-51 | The split has at least one piece, and the first piece is a prefix of the text. |
| `Export.SplitHeadingsPiecesFree` | supabase/functions/export-material/index.ts:51-51 | Every heading break is split on: no piece contains one. |
| `Export.HeadingBreaks` | supabase/functions/export-material/index.ts:51-51 | The texts the split cuts out each start with a newline and are at least three characters long. |
| `Export.SplitHeadingsRebuild` | supabase/functions/export-material/index.ts:51-51 | For any text, the pieces with the cut-out breaks put back between them give the whole text, and there is one piece more than breaks. |
| `Export.Sections` | supabase/functions/export-material/index.ts:51-51 | Exactly the non-empty pieces of the split are kept, in their order and with repeats: one section per non-empty piece, placed by how many non-empty pieces come before it. |
| `Export.SplitAtHeading` | supabase/functions/export-material/index.ts:51-51 | A section followed by a `# ` heading splits off exactly at the heading. |
| `Export.SplitAtHeadingEnd` | supabase/functions/export-material/index.ts:51-51 | A section without heading lines is a single piece. |
| `Export.SplitHeadingsRoundTrip` | supabase/functions/export-material/index.ts:51-51 | Non-empty sections without heading lines, joined with `\n# `, split back into exactly those pieces. |
| `Export.SectionsRoundTrip` | supabase/functions/export-material/index.ts:51-51 | Such a join is read back, after empty pieces are dropped, as the same sections. |
| `Export.LeadingHeadingKept` | supabase/functions/export-material/index.ts:51-51 | A heading at the very start is not a split point: its `#` stays in the first section. |
| `Export.SectionSlide` | supabase/functions/export-material/index.ts:58-66 | The title is trimmed. The body is present only when non-empty, and is at most 2000 characters. |
| `Export.SlideFromFirstLine` | supabase/functions/export-material/index.ts:60-65 | The title is the trimmed first line. The body is the rest after the first newline, trimmed and cut to 2000. |
| `Export.OneLineSlide` | supabase/functions/export-material/index.ts:60-65 | A one-line section is a title slide without a body. |
| `Export.FallbackSlide` | supabase/functions/export-material/index.ts:52-56 | The title is the material's title or "Slides". The body is the first 2000 characters of the content, or of "No content". |
| `Export.Slides` | supabase/functions/export-material/index.ts:51-67 | One slide per section, in order, or only the fallback slide when there is no section. |
| `Export.EmptyContentSlides` | supabase/functions/export-material/index.ts:52-56 | Empty content gives a single slide saying "No content". |
| `Export.DocumentParagraphs` | supabase/functions/export-material/index.ts:72-79 | The document opens with a title paragraph ("Document" when there is no title), then only body paragraphs. |
| `Export.LineCount` | supabase/functions/export-material/index.ts:72-73 | Splitting at newlines gives one line more than there are newlines. |
| `Export.DocumentKeepsContent` | supabase/functions/export-material/index.ts:72-79 | There are newline count + 2 paragraphs, and the body paragraphs joined by newlines give back the content. |
| `Export.Extension` | supabase/functions/export-material/index.ts:42-43 | `.pptx` exactly for slides, `.docx` for everything else. |
| `Export.Render` | supabase/functions/export-material/index.ts:42-84 | A deck exactly for slides. |
| `Export.UploadPath` | supabase/functions/export-material/index.ts:93-93 | The path is the course id, `/`, the material id and the extension. |
| `Export.UploadPathInjective` | supabase/functions/export-material/index.ts:93-93 | When course ids hold no `/`, two materials share a path only if they share course, id and kind of file. |
| `Export.MaybeSingle` | supabase/functions/export-material/index.ts:36-36 | No row gives null, one row gives that row, and more rows give an error. |
| `Export.Lookup` | supabase/functions/export-material/index.ts:32-40 | A material is found exactly when one row has the id, and it is that row. |
| `Export.HandleExport` | supabase/functions/export-material/index.ts:18-118 | A preflight answers 200. A body that is not JSON answers 500. A JSON body without a truthy material id answers 400, and only that does. With an id, the answer is 200 exactly when the lookup succeeds, finds the one row and the upload succeeds; otherwise it is 500 and writes nothing. A 200 has uploaded a file and returns its URL. |
| `Export.MissingIdReadsNothing` | supabase/functions/export-material/index.ts:25-30 | Without a material id the answer is 400 "Missing materialId", whatever the database holds, with no write. |
| `Export.ExportSuccess` | supabase/functions/export-material/index.ts:93-111 | A success uploads `<course>/<id><ext>` and records `exports/<path>` and the public URL on that row alone. |
| `Text.Trim` | supabase/functions/export-material/index.ts:61-62 | `trim` removes only white space at both ends and leaves neither end white space. |
| `Text.TrimIdempotent` | supabase/functions/export-material/index.ts:61-62 | Trimming twice is trimming once. |
| `Text.Prefix` | supabase/functions/export-material/index.ts:64-64 | `substring(0, n)` is a prefix of length `min(len, n)`. |
| `Text.ReplaceAllIsSplitJoin` | supabase/functions/generate-course-materials/index.ts:116-121 | Global literal replacement is the same as splitting on the pattern and joining with the replacement. |
| `Text.ReplaceAll` | supabase/functions/generate-course-materials/index.ts:116-127 | Replacing with `$`-free text brings no `$` in. A replacement as long as the pattern keeps the length. |
| `Text.SplitJoinRoundTrip` | supabase/functions/export-material/index.ts:60-62 | Joining the pieces of a split with the separator gives back the text. |
| `Text.JoinSplitRoundTrip` | supabase/functions/generate-course-materials/index.ts:116-121 | Splitting a join of pattern-free pieces gives back the pieces. |
| `Query.SortBy` | src/components/MaterialsViewer.tsx:136-136 | `.order`: a sorted permutation of the rows. |
| `Query.Find` | src/components/MaterialsViewer.tsx:272-273 | `find` finds something exactly when some element matches, and then it is the first match. |
| `Query.Single` | src/components/MaterialsViewer.tsx:127-127 | `.single()` gives a row exactly when there is exactly one. |

## Left out

- I/O and the runtime are not modelled: HTTP serving, CORS headers, logging, toasts, React
  rendering and the loading spinner. The model keeps what they decide: status codes, bodies and the
  database afterwards.
- The realtime subscription of the course page (MaterialsViewer.tsx:91-118) only re-runs the load.
  Each reload is `MaterialsViewer.LoadData`, called as its own operation.
- The model's request settings (temperature, safety settings, output limit) are not modelled. They
  do not affect the handler's logic; the oracle stands for the model.
- The docx and pptx libraries are not modelled: a deck is its slides, a document its paragraphs.
  Bucket creation, whose error is ignored, is also left out.
- `Text.ReplaceAll`: replacement strings containing `$` are excluded. JavaScript would read `$&`,
  `$1` and the like as patterns. The handler requires `$`-free fields of the requested course
  and `$`-free model text; other courses in the database may hold anything.
- Dependency names must be letters, digits or `_` and must not be an inherited object property.
  Other names would be read as regular-expression syntax or would hit `Object.prototype`.
- `Generation.ProgressBounds`: the bound "at least 1 percent" is proved only for up to 200 steps,
  because with 201 steps the first step rounds to 0 (`Generation.ProgressCanBeZero`). Floating-point
  rounding of `(i + 1) / n * 100` is modelled as exact rational rounding.
- `Generation.FailureMessage`: the text of the two database errors (the course lookup at
  index.ts:58 and the steps query at index.ts:67) is a parameter: `Env.notSingleError` for the
  course lookup, the `StepsError` message for the steps query. Both are read the same way at
  index.ts:263 and :278; the model does not fix which text the client library supplies there (its
  message, or "Unknown error" for a value that is not an `Error`).
- The result of each awaited database write whose error the code ignores is not modelled; the write
  always takes effect. The order of rows the database returns for unordered queries is a parameter.
- The column default of `approval_status` is not in this code. New rows take
  `Records.DefaultApproval` (pending).
- `CourseBuilder.NewPipeline`: the insert at CourseBuilder.tsx:63-71 does not set `error_message`,
  `current_material_id` or `waiting_for_approval`. Their column defaults are not in this code; the
  model takes none, none and false, and `MaterialsViewer.FreshCourseView` relies on them.
- `MaterialEditor.LoadVersions`: the query orders by `version_number` only (MaterialEditor.tsx:87-88),
  so which of several rows with the same number come first, and which are cut by `.limit(5)`, is
  left to the database. The model breaks such ties by its own sort over the table order. Numbers do
  repeat (`MaterialEditor.VersionNumbersRepeat`).
- `MaterialsViewer.LoadData`: likewise, the order of materials with equal `step_order`
  (MaterialsViewer.tsx:136) is left to the database; the model fixes it by its own sort.
- `Export.HandleExport`: building the file with `pptx.write` (index.ts:68) or
  `Packer.toUint8Array` (index.ts:83) is taken never to fail. In the code a throw there answers 500
  "Export failed" like the other failures; the 200 clause assumes it does not happen.
- `MaterialEditor.SaveOnce` and `MaterialEditor.SaveAll`: the reload after a save is not awaited
  (MaterialEditor.tsx:115), and the button is enabled again in `finally` (MaterialEditor.tsx:123-124).
  The model assumes each reload finishes before the next save starts; a save made sooner would
  number its version from the stale list.
- The browser's `required` form fields and the button disabled while loading are not modelled:
  they only gate user input.
- Strings are sequences of characters. UTF-16 code units, and therefore `substring` on surrogate
  pairs, are not modelled.
- `generateNextMaterial` (MaterialsViewer.tsx:257-268) sends `continueGeneration: true`. The
  function never reads it, so the next-material request is modelled as the same request as
  `MaterialsViewer.StartRequest`.
- `loadVersion` (MaterialEditor.tsx:162-164) only replaces the edit text. `MaterialEditor.AvailableActions`
  already takes any edit text.

=== FILE: course_builder.dfy ===
/**
 * The course creation form: its typed fields and defaults, and the three
 * inserts a submission makes, in order: a draft course, a pending pipeline
 * of eight steps and one pending material row per step of the fixed plan.
 * Each insert that fails stops the submission before the next one.
 *
 * Identifiers the database generates (the course id and the material row
 * ids) are parameters, as is the outcome of each insert.
 */
module CourseBuilder {
  import opened Wrappers
  import opened Records

  // ---------------------------------------------------------------------------
  // The form

  datatype Level = Beginner | Intermediate | Advanced
  datatype Environment = Academic | Corporate
  datatype Tone = Formal | Casual | Professional | Friendly
  datatype Language = En | Ro

  function LevelText(l: Level): string {
    match l
    case Beginner => "beginner"
    case Intermediate => "intermediate"
    case Advanced => "advanced"
  }

  function EnvironmentText(e: Environment): string {
    match e
    case Academic => "academic"
    case Corporate => "corporate"
  }

  function ToneText(t: Tone): string {
    match t
    case Formal => "formal"
    case Casual => "casual"
    case Professional => "professional"
    case Friendly => "friendly"
  }

  function LanguageText(l: Language): string {
    match l
    case En => "en"
    case Ro => "ro"
  }

  /** Reading a stored level back; text no option of the form produces has no level. */
  function LevelOf(s: string): (r: Option<Level>)
    ensures r.Some? ==> LevelText(r.value) == s
  {
    if s == "beginner" then Some(Beginner)
    else if s == "intermediate" then Some(Intermediate)
    else if s == "advanced" then Some(Advanced)
    else None
  }

  function EnvironmentOf(s: string): (r: Option<Environment>)
    ensures r.Some? ==> EnvironmentText(r.value) == s
  {
    if s == "academic" then Some(Academic)
    else if s == "corporate" then Some(Corporate)
    else None
  }

  function ToneOf(s: string): (r: Option<Tone>)
    ensures r.Some? ==> ToneText(r.value) == s
  {
    if s == "formal" then Some(Formal)
    else if s == "casual" then Some(Casual)
    else if s == "professional" then Some(Professional)
    else if s == "friendly" then Some(Friendly)
    else None
  }

  function LanguageOf(s: string): (r: Option<Language>)
    ensures r.Some? ==> LanguageText(r.value) == s
  {
    if s == "en" then Some(En)
    else if s == "ro" then Some(Ro)
    else None
  }

  /** `CourseFormData`. */
  datatype Form = Form(
    title: string,
    description: string,
    subject: string,
    duration: string,
    level: Level,
    environment: Environment,
    tone: Tone,
    language: Language)

  /** The form's initial value, and the value it is reset to after a successful submission. */
  const DefaultForm := Form("", "", "", "", Beginner, Corporate, Professional, En)

  /** `handleInputChange` for the free-text fields; the selects can only set one of their options. */
  datatype TextField = Title | Description | Subject | Duration

  function SetText(f: Form, field: TextField, value: string): (r: Form)
    ensures field == Title ==> r == f.(title := value)
    ensures field == Description ==> r == f.(description := value)
    ensures field == Subject ==> r == f.(subject := value)
    ensures field == Duration ==> r == f.(duration := value)
  {
    match field
    case Title => f.(title := value)
    case Description => f.(description := value)
    case Subject => f.(subject := value)
    case Duration => f.(duration := value)
  }

  // ---------------------------------------------------------------------------
  // The rows a submission creates

  /** The course row: the form's fields, the owner and status draft. */
  function NewCourse(id: string, userId: string, f: Form): (c: Course)
    ensures c.id == id && c.userId == userId && c.status == CourseStatus.Draft
    ensures c.language == "en" || c.language == "ro"
    ensures FormOf(c) == Some(f)
  {
    Course(id, userId, f.title, f.description, f.subject, f.duration,
           LevelText(f.level), EnvironmentText(f.environment), ToneText(f.tone), LanguageText(f.language),
           CourseStatus.Draft)
  }

  /** The form a course row was created from, when its enumerated columns hold form options. */
  function FormOf(c: Course): (r: Option<Form>)
    ensures r.Some? ==> && LevelText(r.value.level) == c.level
                        && EnvironmentText(r.value.environment) == c.environment
                        && ToneText(r.value.tone) == c.tone
                        && LanguageText(r.value.language) == c.language
                        && r.value.title == c.title && r.value.subject == c.subject
                        && r.value.description == c.description && r.value.duration == c.duration
    ensures r.None? <==> LevelOf(c.level).None? || EnvironmentOf(c.environment).None? || ToneOf(c.tone).None? || LanguageOf(c.language).None?
  {
    match (LevelOf(c.level), EnvironmentOf(c.environment), ToneOf(c.tone), LanguageOf(c.language))
    case (Some(l), Some(e), Some(t), Some(g)) => Some(Form(c.title, c.description, c.subject, c.duration, l, e, t, g))
    case _ => None
  }

  /** The number of steps the pipeline is created with. */
  const TotalSteps := 8

  /** The pipeline row: pending, at step 1 of 8, 0 percent. */
  function NewPipeline(courseId: string): (p: Pipeline)
    ensures p.courseId == courseId && p.status == PipelineStatus.Pending
    ensures p.currentStep == 1 && p.totalSteps == 8 && p.progressPercent == 0
  {
    Pipeline(courseId, 1, TotalSteps, 0, PipelineStatus.Pending, None, None, false)
  }

  /** One entry of the fixed material plan. */
  datatype PlannedMaterial = PlannedMaterial(materialType: string, order: int, title: string)

  const MaterialPlan: seq<PlannedMaterial> := [
    PlannedMaterial("agenda", 1, "Course Agenda"),
    PlannedMaterial("objectives", 2, "Learning Objectives"),
    PlannedMaterial("slides", 3, "Presentation Slides"),
    PlannedMaterial("trainer_notes", 4, "Trainer Notes"),
    PlannedMaterial("exercises", 5, "Practical Exercises"),
    PlannedMaterial("manual", 6, "Participant Manual"),
    PlannedMaterial("tests", 7, "Tests & Quizzes"),
    PlannedMaterial("resources", 8, "Additional Resources")
  ]

  /** A pending material row for one plan entry; the other columns take their defaults. */
  function NewMaterial(id: string, courseId: string, e: PlannedMaterial): (m: Material)
    ensures m.courseId == courseId && m.materialType == e.materialType
    ensures m.stepOrder == e.order && m.title == e.title
    ensures m.status == MaterialStatus.Pending && m.approval == DefaultApproval
    ensures m.content.None? && m.approvedContent.None?
  {
    Material(id, courseId, e.materialType, e.order, e.title, None, None, DefaultApproval,
             MaterialStatus.Pending, None, None, None)
  }

  /** The material rows of one insert, in plan order; `ids(k)` is the id the database gives row `k`. */
  function NewMaterials(courseId: string, ids: nat -> string): (ms: seq<Material>)
    ensures |ms| == |MaterialPlan|
    ensures forall k :: 0 <= k < |ms| ==> ms[k] == NewMaterial(ids(k), courseId, MaterialPlan[k])
  {
    seq(|MaterialPlan|, (k: int) requires 0 <= k < |MaterialPlan| => NewMaterial(ids(k), courseId, MaterialPlan[k]))
  }

  /** The plan has eight entries, ordered 1 to 8, with pairwise distinct material types. */
  lemma PlanIsWellFormed()
    ensures |MaterialPlan| == 8
    ensures forall k :: 0 <= k < |MaterialPlan| ==> MaterialPlan[k].order == k + 1
    ensures forall k, l :: 0 <= k < l < |MaterialPlan| ==> MaterialPlan[k].materialType != MaterialPlan[l].materialType
  {
  }

  /**
   * The materials insert creates exactly one pending row per step of the
   * pipeline: as many rows as `total_steps`, orders 1..8, distinct types,
   * all belonging to the new course.
   */
  lemma NewMaterialsMatchPipeline(courseId: string, ids: nat -> string)
    ensures var ms, p := NewMaterials(courseId, ids), NewPipeline(courseId);
            && |ms| == p.totalSteps
            && (forall k :: 0 <= k < |ms| ==> ms[k].stepOrder == k + 1 && ms[k].courseId == courseId)
            && (forall k :: 0 <= k < |ms| ==> ms[k].status == MaterialStatus.Pending)
            && (forall k, l :: 0 <= k < l < |ms| ==> ms[k].materialType != ms[l].materialType)
  {
    PlanIsWellFormed();
  }

  // ---------------------------------------------------------------------------
  // Submission

  /** Whether each of the three inserts succeeds; they are separate requests. */
  datatype Inserts = Inserts(courseOk: bool, pipelineOk: bool, materialsOk: bool)

  /** The database after a submission, the form it leaves, and the id handed to `onCourseCreated`. */
  datatype Submission = Submission(store: Store, form: Form, created: Option<string>)

  /** `handleSubmit`: nothing without a signed-in user; each failed insert ends the submission. */
  function Submit(user: Option<string>, f: Form, store: Store, courseId: string, ids: nat -> string, db: Inserts): (r: Submission)
    // nothing is written, and the form is kept, unless every insert succeeds ...
    ensures r.created.None? ==> r.form == f
    ensures user.None? || !db.courseOk ==> r == Submission(store, f, None)
    // ... except the inserts that came before the failing one
    ensures user.Some? && db.courseOk && !db.pipelineOk ==>
              r.store == store.(courses := store.courses + [NewCourse(courseId, user.value, f)])
    ensures user.Some? && db.courseOk && db.pipelineOk && !db.materialsOk ==>
              r.store == store.(courses := store.courses + [NewCourse(courseId, user.value, f)],
                                pipelines := store.pipelines + [NewPipeline(courseId)])
    // success creates all three, reports the id and resets the form
    ensures r.created.Some? <==> user.Some? && db.courseOk && db.pipelineOk && db.materialsOk
    ensures r.created.Some? ==>
              && r.created.value == courseId
              && r.form == DefaultForm
              && r.store == Store(store.courses + [NewCourse(courseId, user.value, f)],
                                  store.pipelines + [NewPipeline(courseId)],
                                  store.materials + NewMaterials(courseId, ids))
  {
    if user.None? || !db.courseOk then Submission(store, f, None)
    else
      var withCourse := store.(courses := store.courses + [NewCourse(courseId, user.value, f)]);
      if !db.pipelineOk then Submission(withCourse, f, None)
      else
        var withPipeline := withCourse.(pipelines := withCourse.pipelines + [NewPipeline(courseId)]);
        if !db.materialsOk then Submission(withPipeline, f, None)
        else Submission(withPipeline.(materials := withPipeline.materials + NewMaterials(courseId, ids)), DefaultForm, Some(courseId))
  }

  /**
   * After a successful submission the new course is a draft in the chosen
   * language, its one new pipeline is pending at step 1 of 8, and exactly
   * eight new material rows are pending, with orders 1..8 and distinct types.
   */
  lemma SubmitCreatesInitialState(user: Option<string>, f: Form, store: Store, courseId: string, ids: nat -> string, db: Inserts)
    requires Submit(user, f, store, courseId, ids, db).created.Some?
    ensures var s := Submit(user, f, store, courseId, ids, db).store;
            var c, p, ms := s.courses[|s.courses| - 1], s.pipelines[|s.pipelines| - 1], s.materials[|store.materials|..];
            && |s.courses| == |store.courses| + 1 && |s.pipelines| == |store.pipelines| + 1
            && c.id == courseId && c.status == CourseStatus.Draft && c.language == LanguageText(f.language)
            && p.courseId == courseId && p.status == PipelineStatus.Pending
            && p.currentStep == 1 && p.progressPercent == 0
            && |ms| == p.totalSteps == 8
            && (forall k :: 0 <= k < |ms| ==> ms[k].courseId == courseId && ms[k].stepOrder == k + 1)
            && (forall k :: 0 <= k < |ms| ==> ms[k].status == MaterialStatus.Pending)
            && (forall k, l :: 0 <= k < l < |ms| ==> ms[k].materialType != ms[l].materialType)
  {
    var s := Submit(user, f, store, courseId, ids, db).store;
    assert s.materials[|store.materials|..] == NewMaterials(courseId, ids);
    NewMaterialsMatchPipeline(courseId, ids);
  }
}

=== FILE: export.dfy ===
/**
 * The `export-material` edge function: one material is rendered as a slide
 * deck (material type `slides`) or as a document (every other type), the
 * file is uploaded to the `exports` bucket under `<course id>/<material
 * id><extension>`, and the material row records the stored path and the
 * public download URL.
 *
 * The rendering libraries are not modelled: a deck is its list of slides
 * (title and optional body text), a document its list of paragraphs.
 */
module Export {
  import opened Wrappers
  import opened Text
  import opened Query
  import opened Records

  // ---------------------------------------------------------------------------
  // Splitting slide content into sections

  predicate IsHash(c: char) {
    c == '#'
  }

  /** The length of the run of characters satisfying `p` at the start of `s`. */
  function RunLength(s: string, p: char -> bool): (n: nat)
    ensures n <= |s|
    ensures forall k :: 0 <= k < n ==> p(s[k])
    ensures n < |s| ==> !p(s[n])
    decreases |s|
  {
    if |s| == 0 || !p(s[0]) then 0 else 1 + RunLength(s[1..], p)
  }

  /** `s` starts with a newline, `h >= 1` hashes and a white-space character. */
  predicate StartsBreak(s: string, h: nat) {
    && 1 <= h && h + 1 < |s| && s[0] == '\n'
    && (forall k :: 1 <= k <= h ==> s[k] == '#')
    && IsSpace(s[h + 1])
  }

  /**
   * The first `n` characters of `s` are a newline, a run of `h` hashes that
   * the white space after it ends, and the whole run of white space that
   * follows.
   */
  predicate HashesThenSpaces(s: string, h: nat, n: nat) {
    && StartsBreak(s, h) && h + 1 < n <= |s|
    && (forall k :: h + 1 <= k < n ==> IsSpace(s[k]))
    && (n < |s| ==> !IsSpace(s[n]))
  }

  /**
   * The length of a match of `/\n#+\s+/` at the start of `s`, if one starts
   * there. Both runs are greedy, and since `#` is not white space neither can
   * give characters back, so a match is always the newline, the whole run of
   * `#` and the whole run of white space after it.
   */
  function HeadingBreak(s: string): (r: Option<nat>)
    ensures r.Some? ==> 3 <= r.value <= |s|
    // a match starts exactly where a newline, one or more `#` and white space do
    ensures r.Some? <==> exists h :: StartsBreak(s, h)
    // and it takes the whole run of `#` and the whole run of white space after it
    ensures forall h :: StartsBreak(s, h) ==> r.Some? && HashesThenSpaces(s, h, r.value)
    ensures |s| >= 2 && s[1] != '#' ==> r.None?
  {
    if |s| == 0 || s[0] != '\n' then None
    else
      var h := RunLength(s[1..], IsHash);
      assert forall g :: StartsBreak(s, g) ==> g == h by {
        forall g | StartsBreak(s, g) ensures g == h {
          assert forall k :: 0 <= k < g ==> s[1..][k] == s[k + 1];
        }
      }
      if h == 0 || 1 + h >= |s| || !IsSpace(s[1 + h]) then None
      else
        assert StartsBreak(s, h);
        Some(1 + h + RunLength(s[1 + h..], IsSpace))
  }

  /** `s.split(/\n#+\s+/)`: the pieces between successive leftmost matches. */
  function SplitHeadings(s: string): (r: seq<string>)
    ensures |r| >= 1
    ensures r[0] <= s
    ensures |s| > 0 && s[0] != '\n' ==> |r[0]| > 0
    decreases |s|
  {
    if |s| == 0 then [""]
    else match HeadingBreak(s)
      case Some(n) => [""] + SplitHeadings(s[n..])
      case None =>
        var rest := SplitHeadings(s[1..]);
        [[s[0]] + rest[0]] + rest[1..]
  }

  /** The texts the split cuts out: every match of `/\n#+\s+/`, left to right. */
  function HeadingBreaks(s: string): (r: seq<string>)
    ensures forall k :: 0 <= k < |r| ==> 3 <= |r[k]| && r[k][0] == '\n'
    decreases |s|
  {
    if |s| == 0 then []
    else match HeadingBreak(s)
      case Some(n) =>
        assert s[..n][0] == '\n' by {
          var h :| StartsBreak(s, h);
        }
        [s[..n]] + HeadingBreaks(s[n..])
      case None => HeadingBreaks(s[1..])
  }

  /** `pieces[0] + seps[0] + pieces[1] + …`: pieces put back with a separator between each two. */
  function Interleave(pieces: seq<string>, seps: seq<string>): string
    requires |pieces| == |seps| + 1
    decreases |seps|
  {
    if |seps| == 0 then pieces[0] else pieces[0] + seps[0] + Interleave(pieces[1..], seps[1..])
  }

  /**
   * Nothing of the text is lost by the split: its pieces with the matched
   * breaks put back between them are the whole text.
   */
  lemma {:induction false} SplitHeadingsRebuild(s: string)
    ensures |SplitHeadings(s)| == |HeadingBreaks(s)| + 1
    ensures Interleave(SplitHeadings(s), HeadingBreaks(s)) == s
    decreases |s|
  {
    if |s| > 0 {
      match HeadingBreak(s)
      case Some(n) =>
        SplitHeadingsRebuild(s[n..]);
        SplitAtBreak(s, n);
        RebuildAtBreak(s, n, SplitHeadings(s[n..]), HeadingBreaks(s[n..]));
      case None =>
        SplitHeadingsRebuild(s[1..]);
        assert s == [s[0]] + s[1..];
        SplitHeadingsPastChar(s[0], s[1..]);
        assert HeadingBreaks(s) == HeadingBreaks(s[1..]);
        var t := SplitHeadings(s[1..]);
        assert t == [t[0]] + t[1..];
        InterleaveConsHead(s[0], t[0], t[1..], HeadingBreaks(s[1..]));
    }
  }

  /** The rebuild step at a break: an empty piece, the break, then the rest. */
  lemma RebuildAtBreak(s: string, n: nat, t: seq<string>, b: seq<string>)
    requires 0 < n <= |s| && |t| == |b| + 1 && Interleave(t, b) == s[n..]
    ensures Interleave([""] + t, [s[..n]] + b) == s
  {
    assert ([""] + t)[1..] == t;
    assert ([s[..n]] + b)[1..] == b;
    assert "" + s[..n] == s[..n];
    assert s[..n] + s[n..] == s;
  }

  /** A character put in front of the first piece comes out in front of the whole. */
  lemma InterleaveConsHead(c: char, p: string, rest: seq<string>, seps: seq<string>)
    requires |rest| == |seps|
    ensures Interleave([[c] + p] + rest, seps) == [c] + Interleave([p] + rest, seps)
  {
    if |seps| > 0 {
      assert ([[c] + p] + rest)[1..] == rest;
      assert ([p] + rest)[1..] == rest;
    }
  }

  /** No heading break starts at position `i` of `p`. */
  predicate NoBreakAt(p: string, i: nat)
    requires i <= |p|
  {
    HeadingBreak(p[i..]).None?
  }

  /** No suffix of `p` starts a heading break. */
  predicate BreakFree(p: string) {
    forall i :: 0 <= i < |p| ==> NoBreakAt(p, i)
  }

  /** No piece of the split contains a heading break: each one is cut at the first break after its start. */
  lemma {:induction false} SplitHeadingsPiecesFree(s: string)
    ensures var r := SplitHeadings(s); forall k :: 0 <= k < |r| ==> BreakFree(r[k])
    decreases |s|
  {
    if |s| > 0 {
      match HeadingBreak(s)
      case Some(n) =>
        SplitHeadingsPiecesFree(s[n..]);
        SplitAtBreak(s, n);
        assert BreakFree("");
        AllBreakFreeCons("", SplitHeadings(s[n..]));
      case None =>
        var t := SplitHeadings(s[1..]);
        SplitHeadingsPiecesFree(s[1..]);
        assert s == [s[0]] + s[1..];
        SplitHeadingsPastChar(s[0], s[1..]);
        assert [s[0]] + t[0] <= s;
        PiecesFreeJoined(s[0], t, s);
    }
  }

  /** At a break, the split is an empty piece followed by the pieces after the break. */
  lemma SplitAtBreak(s: string, n: nat)
    requires HeadingBreak(s) == Some(n)
    ensures SplitHeadings(s) == [""] + SplitHeadings(s[n..])
  {
  }

  /** A character that starts no break joins the first of break-free pieces, and they stay break-free. */
  lemma PiecesFreeJoined(c: char, t: seq<string>, s: string)
    requires |t| >= 1 && (forall k :: 0 <= k < |t| ==> BreakFree(t[k]))
    requires [c] + t[0] <= s && HeadingBreak(s).None?
    ensures var r := [[c] + t[0]] + t[1..]; forall k :: 0 <= k < |r| ==> BreakFree(r[k])
  {
    BreakFreeCons(c, t[0], s);
    var r := [[c] + t[0]] + t[1..];
    forall k | 0 <= k < |r| ensures BreakFree(r[k]) {
      if k > 0 { assert r[k] == t[k]; }
    }
  }

  /** Putting a break-free piece before break-free pieces keeps them all break-free. */
  lemma AllBreakFreeCons(x: string, t: seq<string>)
    requires BreakFree(x) && forall k :: 0 <= k < |t| ==> BreakFree(t[k])
    ensures var r := [x] + t; forall k :: 0 <= k < |r| ==> BreakFree(r[k])
  {
    var r := [x] + t;
    forall k | 0 <= k < |r| ensures BreakFree(r[k]) {
      if k > 0 { assert r[k] == t[k - 1]; }
    }
  }

  /** A character that starts no break, put before a break-free piece of what follows, keeps it break-free. */
  lemma BreakFreeCons(c: char, q: string, s: string)
    requires BreakFree(q) && [c] + q <= s && HeadingBreak(s).None?
    ensures BreakFree([c] + q)
  {
    var p := [c] + q;
    forall i | 0 <= i < |p| ensures NoBreakAt(p, i) {
      if i == 0 {
        assert p[0..] == p;
        if HeadingBreak(p).Some? {
          BreakOfPrefix(p, s);
        }
      } else {
        assert p[i..] == q[i - 1..];
        assert NoBreakAt(q, i - 1);
      }
    }
  }

  /** A break at the start of a prefix is a break at the start of the whole string. */
  lemma BreakOfPrefix(p: string, s: string)
    requires p <= s && HeadingBreak(p).Some?
    ensures HeadingBreak(s).Some?
  {
    var h :| StartsBreak(p, h);
    assert StartsBreak(s, h);
  }

  /** `filter(Boolean)` on strings. */
  predicate NonEmpty(s: string) {
    s != ""
  }

  /** Line 51: the non-empty pieces of the content split at headings. */
  function Sections(content: Option<string>): (r: seq<string>)
    ensures forall k :: 0 <= k < |r| ==> r[k] != ""
    ensures forall k :: 0 <= k < |r| ==> r[k] in SplitHeadings(OrElse(content, ""))
    ensures var pieces := SplitHeadings(OrElse(content, ""));
            forall k :: 0 <= k < |pieces| && pieces[k] != "" ==> pieces[k] in r
    // one section per non-empty piece, each at the place its order among them gives
    ensures var pieces := SplitHeadings(OrElse(content, ""));
            && |r| == Count(pieces, NonEmpty)
            && forall k :: 0 <= k < |pieces| && NonEmpty(pieces[k]) ==>
                 Count(pieces[..k], NonEmpty) < |r| && r[Count(pieces[..k], NonEmpty)] == pieces[k]
  {
    var pieces := SplitHeadings(OrElse(content, ""));
    FilterLength(pieces, NonEmpty);
    assert forall k :: 0 <= k < |pieces| && NonEmpty(pieces[k]) ==>
             Count(pieces[..k], NonEmpty) < |Filter(pieces, NonEmpty)| && Filter(pieces, NonEmpty)[Count(pieces[..k], NonEmpty)] == pieces[k] by {
      forall k | 0 <= k < |pieces| && NonEmpty(pieces[k])
        ensures Count(pieces[..k], NonEmpty) < |Filter(pieces, NonEmpty)| && Filter(pieces, NonEmpty)[Count(pieces[..k], NonEmpty)] == pieces[k]
      {
        FilterPosition(pieces, NonEmpty, k);
      }
    }
    Filter(pieces, NonEmpty)
  }

  /** No line of `a` after its first starts with `#`. */
  predicate NoHashLine(a: string) {
    forall i :: 0 <= i < |a| - 1 ==> !(a[i] == '\n' && a[i + 1] == '#')
  }

  /** The heading break this model joins sections with. */
  const HeadingSep := "\n# "

  /** A section followed by a heading splits into that section and what follows the heading. */
  lemma {:induction false} SplitAtHeading(a: string, b: string)
    requires NoHashLine(a)
    requires b == "" || !IsSpace(b[0])
    ensures SplitHeadings(a + HeadingSep + b) == [a] + SplitHeadings(b)
    decreases |a|
  {
    if |a| == 0 {
      assert a + HeadingSep + b == HeadingSep + b;
      HeadingAtStart(b);
    } else {
      var r := a[1..] + HeadingSep + b;
      assert a + HeadingSep + b == [a[0]] + r;
      assert HeadingBreak([a[0]] + r).None? by {
        if |a| >= 2 {
          assert ([a[0]] + r)[1] == a[1];
          assert !(a[0] == '\n' && a[1] == '#');
        } else {
          assert ([a[0]] + r)[1] == '\n';
        }
      }
      assert NoHashLine(a[1..]) by {
        forall i | 0 <= i < |a[1..]| - 1 ensures !(a[1..][i] == '\n' && a[1..][i + 1] == '#') {
          assert a[1..][i] == a[i + 1] && a[1..][i + 1] == a[i + 2];
        }
      }
      SplitAtHeading(a[1..], b);
      SplitHeadingsPastChar(a[0], r);
      assert [a[0]] + a[1..] == a;
    }
  }

  /** A heading at the very start splits off an empty first piece. */
  lemma HeadingAtStart(b: string)
    requires b == "" || !IsSpace(b[0])
    ensures SplitHeadings(HeadingSep + b) == [""] + SplitHeadings(b)
  {
    var s := HeadingSep + b;
    assert s[1..][0] == '#' && s[1..][1] == ' ';
    assert RunLength(s[1..][1..], IsHash) == 0;
    assert RunLength(s[1..], IsHash) == 1;
    assert s[2..] == " " + b;
    assert s[2..][1..] == b;
    assert RunLength(s[2..][1..], IsSpace) == 0;
    assert RunLength(s[2..], IsSpace) == 1;
    assert HeadingBreak(s) == Some(3);
    assert s[3..] == b;
  }

  /** A character that starts no heading break joins the first piece of what follows. */
  lemma SplitHeadingsPastChar(c: char, r: string)
    requires HeadingBreak([c] + r).None?
    ensures SplitHeadings([c] + r) == [[c] + SplitHeadings(r)[0]] + SplitHeadings(r)[1..]
  {
    assert ([c] + r)[1..] == r;
  }

  /** A joined list starts with its first part. */
  lemma {:induction false} JoinStartsWithFirst(parts: seq<string>, sep: string)
    requires |parts| >= 1
    ensures parts[0] <= Join(parts, sep)
  {
    if |parts| > 1 {
      JoinCons(parts[0], parts[1..], sep);
      assert [parts[0]] + parts[1..] == parts;
    }
  }

  /** Sections as this function reads them back when written with `#` headings. */
  predicate WellFormedSections(secs: seq<string>) {
    && (forall k :: 0 <= k < |secs| ==> secs[k] != "" && NoHashLine(secs[k]))
    && (forall k :: 1 <= k < |secs| ==> !IsSpace(secs[k][0]))
  }

  /** Sections joined by `# ` headings split back into the same pieces. */
  lemma {:induction false} SplitHeadingsRoundTrip(secs: seq<string>)
    requires |secs| >= 1 && WellFormedSections(secs)
    ensures SplitHeadings(Join(secs, HeadingSep)) == secs
    decreases |secs|
  {
    if |secs| == 1 {
      SplitAtHeadingEnd(secs[0]);
    } else {
      var rest := secs[1..];
      assert WellFormedSections(rest) by {
        forall k | 1 <= k < |rest| ensures !IsSpace(rest[k][0]) { assert rest[k] == secs[k + 1]; }
      }
      SplitHeadingsRoundTrip(rest);
      JoinCons(secs[0], rest, HeadingSep);
      assert [secs[0]] + rest == secs;
      JoinStartsWithFirst(rest, HeadingSep);
      var tail := Join(rest, HeadingSep);
      assert tail[0] == rest[0][0];
      SplitAtHeading(secs[0], tail);
    }
  }

  /**
   * Sections joined by `# ` headings are read back as the same sections: the
   * splitting inverts writing slides as Markdown headings.
   */
  lemma SectionsRoundTrip(secs: seq<string>)
    requires |secs| >= 1 && WellFormedSections(secs)
    ensures Sections(Some(Join(secs, HeadingSep))) == secs
  {
    var joined := Join(secs, HeadingSep);
    SplitHeadingsRoundTrip(secs);
    assert |joined| > 0 by { JoinStartsWithFirst(secs, HeadingSep); }
    FilterNoneOrAll(SplitHeadings(joined), NonEmpty);
  }

  /** A single section without heading lines splits into itself. */
  lemma {:induction false} SplitAtHeadingEnd(a: string)
    requires NoHashLine(a)
    ensures SplitHeadings(a) == [a]
    decreases |a|
  {
    if |a| > 0 {
      assert HeadingBreak(a).None? by {
        if |a| >= 2 { assert !(a[0] == '\n' && a[1] == '#'); }
      }
      assert NoHashLine(a[1..]) by {
        forall i | 0 <= i < |a[1..]| - 1 ensures !(a[1..][i] == '\n' && a[1..][i + 1] == '#') {
          assert a[1..][i] == a[i + 1] && a[1..][i + 1] == a[i + 2];
        }
      }
      SplitAtHeadingEnd(a[1..]);
      assert [a[0]] + a[1..] == a;
    }
  }

  /** Content that starts with a heading and no newline before it keeps the `#` in its first section. */
  lemma LeadingHeadingKept(content: string)
    requires |content| > 0 && content[0] == '#'
    ensures |Sections(Some(content))| > 0 && Sections(Some(content))[0][0] == '#'
  {
    var pieces := SplitHeadings(content);
    assert pieces[0][0] == '#';
    assert pieces == [pieces[0]] + pieces[1..];
    FilterAppend([pieces[0]], pieces[1..], NonEmpty);
  }

  // ---------------------------------------------------------------------------
  // Slides

  /** The most characters of body text a slide shows. */
  const TextLimit := 2000

  datatype Slide = Slide(title: string, body: Option<string>)

  /** Lines 60-65: the first line, trimmed, is the title; the rest, joined and trimmed, is the body when not empty. */
  function SectionSlide(sec: string): (sl: Slide)
    ensures sl.title == "" || (!IsSpace(sl.title[0]) && !IsSpace(sl.title[|sl.title| - 1]))
    ensures sl.body.Some? ==> 0 < |sl.body.value| <= TextLimit
  {
    var lines := Split(sec, "\n");
    var body := Trim(Join(lines[1..], "\n"));
    Slide(Trim(lines[0]), if body == "" then None else Some(Prefix(body, TextLimit)))
  }

  /** A section's title is its first line and its body everything after the first newline. */
  lemma SlideFromFirstLine(a: string, b: string)
    requires '\n' !in a
    ensures SectionSlide(a + "\n" + b) ==
              Slide(Trim(a), if Trim(b) == "" then None else Some(Prefix(Trim(b), TextLimit)))
  {
    var s := a + "\n" + b;
    forall i | 0 <= i < |a| ensures !OccursAt(s, "\n", i) {
      CharOfOccurrence(s, "\n", i, 0);
      assert s[i] == a[i];
    }
    SplitAtFirst(a, "\n", b);
    SplitJoinRoundTrip(b, "\n");
    assert (([a] + Split(b, "\n"))[1..]) == Split(b, "\n");
  }

  /** A one-line section is a title slide without body. */
  lemma OneLineSlide(a: string)
    requires '\n' !in a
    ensures SectionSlide(a) == Slide(Trim(a), None)
  {
    forall i | OccursAt(a, "\n", i) ensures false {
      CharOfOccurrence(a, "\n", i, 0);
    }
    SplitOfTokenFree(a, "\n");
    assert Trim("") == "";
  }

  /** Lines 52-56: the one slide of content without sections. */
  function FallbackSlide(title: Option<string>, content: Option<string>): (sl: Slide)
    ensures sl.title == OrElse(title, "Slides")
    ensures sl.body.Some? && sl.body.value <= OrElse(content, "No content")
    // the first `TextLimit` characters of the text, or all of a shorter one
    ensures |sl.body.value| == if |OrElse(content, "No content")| <= TextLimit then |OrElse(content, "No content")| else TextLimit
  {
    Slide(OrElse(title, "Slides"), Some(Prefix(OrElse(content, "No content"), TextLimit)))
  }

  /** Lines 51-67: one slide per section, or the fallback slide when there is none. */
  function Slides(title: Option<string>, content: Option<string>): (r: seq<Slide>)
    ensures |r| >= 1
    ensures |Sections(content)| == 0 ==> r == [FallbackSlide(title, content)]
    ensures |Sections(content)| > 0 ==>
              |r| == |Sections(content)| && forall k :: 0 <= k < |r| ==> r[k] == SectionSlide(Sections(content)[k])
  {
    var secs := Sections(content);
    if |secs| == 0 then [FallbackSlide(title, content)]
    else seq(|secs|, (k: int) requires 0 <= k < |secs| => SectionSlide(secs[k]))
  }

  /** Empty content yields the single fallback slide saying "No content". */
  lemma EmptyContentSlides(title: Option<string>, content: Option<string>)
    requires !Truthy(content)
    ensures Slides(title, content) == [Slide(OrElse(title, "Slides"), Some("No content"))]
  {
    assert SplitHeadings("") == [""];
    assert Filter([""], NonEmpty) == [];
  }

  // ---------------------------------------------------------------------------
  // Documents

  datatype Paragraph = Paragraph(text: string, isTitle: bool)

  function LineParagraphs(lines: seq<string>): (ps: seq<Paragraph>)
    ensures |ps| == |lines|
    ensures forall k :: 0 <= k < |ps| ==> ps[k] == Paragraph(lines[k], false)
  {
    seq(|lines|, (k: int) requires 0 <= k < |lines| => Paragraph(lines[k], false))
  }

  /** Lines 72-79: a title paragraph, then one paragraph per line of the content. */
  function DocumentParagraphs(title: Option<string>, content: Option<string>): (ps: seq<Paragraph>)
    ensures |ps| >= 2
    ensures ps[0] == Paragraph(OrElse(title, "Document"), true)
    ensures forall k :: 1 <= k < |ps| ==> !ps[k].isTitle
  {
    [Paragraph(OrElse(title, "Document"), true)] + LineParagraphs(Split(OrElse(content, ""), "\n"))
  }

  /** The number of newlines in `s`. */
  function NewlineCount(s: string): nat {
    multiset(s)['\n']
  }

  /** Splitting at newlines gives one more line than there are newlines. */
  lemma {:induction false} LineCount(s: string)
    ensures |Split(s, "\n")| == NewlineCount(s) + 1
    decreases |s|
  {
    if |s| > 0 {
      assert s == [s[0]] + s[1..];
      assert multiset(s) == multiset{s[0]} + multiset(s[1..]);
      LineCount(s[1..]);
      if "\n" <= s {
        assert s[0] == '\n' && s[|"\n"|..] == s[1..];
      } else {
        assert s[0] != '\n';
      }
    }
  }

  /** The document body paragraphs, read back with newlines, are the content itself. */
  function ParagraphText(ps: seq<Paragraph>): seq<string> {
    seq(|ps|, (k: int) requires 0 <= k < |ps| => ps[k].text)
  }

  /**
   * One title paragraph plus one per line, so the count is the newline count
   * plus two; and the body paragraphs joined with newlines give back the
   * content.
   */
  lemma DocumentKeepsContent(title: Option<string>, content: Option<string>)
    ensures var ps := DocumentParagraphs(title, content);
            && |ps| == NewlineCount(OrElse(content, "")) + 2
            && Join(ParagraphText(ps[1..]), "\n") == OrElse(content, "")
  {
    var text := OrElse(content, "");
    var ps := DocumentParagraphs(title, content);
    LineCount(text);
    assert ParagraphText(ps[1..]) == Split(text, "\n");
    SplitJoinRoundTrip(text, "\n");
  }

  // ---------------------------------------------------------------------------
  // The request handler

  /** The storage bucket the files go to. */
  const Bucket := "exports"

  /** Lines 42-43. */
  function Extension(materialType: string): (e: string)
    ensures e == ".pptx" <==> materialType == "slides"
    ensures e == ".docx" <==> materialType != "slides"
  {
    if materialType == "slides" then ".pptx" else ".docx"
  }

  /** The rendered file: a deck or a document. */
  datatype Rendered = Deck(slides: seq<Slide>) | Document(paragraphs: seq<Paragraph>)

  function Render(m: Material): (d: Rendered)
    ensures d.Deck? <==> m.materialType == "slides"
  {
    if m.materialType == "slides" then Deck(Slides(Some(m.title), m.content))
    else Document(DocumentParagraphs(Some(m.title), m.content))
  }

  /** Line 93: the path inside the bucket. */
  function UploadPath(m: Material): (path: string)
    ensures |path| == |m.courseId| + 1 + |m.id| + 5
    ensures path[..|m.courseId|] == m.courseId && path[|m.courseId|] == '/'
    ensures path[|m.courseId| + 1..|path| - 5] == m.id
    ensures path[|path| - 5..] == if m.materialType == "slides" then ".pptx" else ".docx"
  {
    m.courseId + "/" + m.id + Extension(m.materialType)
  }

  /**
   * Course ids without `/` make the path unique to the row's course, id and
   * kind of file: two materials share a path only if they agree on all three.
   */
  lemma UploadPathInjective(m: Material, n: Material)
    requires '/' !in m.courseId && '/' !in n.courseId
    requires UploadPath(m) == UploadPath(n)
    ensures m.courseId == n.courseId && m.id == n.id
    ensures m.materialType == "slides" <==> n.materialType == "slides"
  {
  }

  datatype ExportRequestBody = ExportJson(materialId: Option<string>) | ExportMalformed
  datatype ExportRequest = ExportRequest(verb: string, body: ExportRequestBody)

  datatype ExportBody = NoBody | DownloadUrl(url: string) | ExportError(message: string)
  datatype ExportResponse = ExportResponse(status: int, body: ExportBody)

  /** An upload to storage: the path in the bucket and the file. */
  datatype Upload = Upload(path: string, file: Rendered)

  datatype ExportResult = ExportResult(response: ExportResponse, store: Store, upload: Option<Upload>)

  /** What storage does, as parameters: whether the upload succeeds and the public URL of a path. */
  datatype Storage = Storage(uploadOk: bool, publicUrl: string -> string)

  /** `.maybeSingle()`: no row is `null`, one row is that row, more rows are an error. */
  function MaybeSingle<T>(rows: seq<T>): (r: Option<Option<T>>)
    ensures r.None? <==> |rows| > 1
    ensures r == Some(None) <==> |rows| == 0
    ensures |rows| == 1 ==> r == Some(Some(rows[0]))
  {
    if |rows| == 0 then Some(None) else if |rows| == 1 then Some(Some(rows[0])) else None
  }

  /** `.eq("id", id)` on `course_materials`. */
  function WithId(id: string): Material -> bool {
    (m: Material) => m.id == id
  }

  /** Lines 32-40: the material by id; none, or more than one, is "Material not found". */
  function Lookup(store: Store, id: string): (r: Option<Material>)
    ensures r.Some? <==> |Filter(store.materials, WithId(id))| == 1
    ensures r.Some? ==> r.value in store.materials && r.value.id == id
  {
    var found := MaybeSingle(Filter(store.materials, WithId(id)));
    if found.Some? && found.value.Some? then found.value else None
  }

  /** The columns a successful export sets: the stored file path, prefixed by the bucket, and the public URL. */
  function RecordExport(path: string, url: string): Material -> Material {
    (x: Material) => x.(filePath := Some(Bucket + "/" + path), downloadUrl := Some(url))
  }

  function Failed(store: Store): ExportResult {
    ExportResult(ExportResponse(500, ExportError("Export failed")), store, None)
  }

  /** The export of one material, from the request to the response. */
  function HandleExport(req: ExportRequest, store: Store, lookupOk: bool, storage: Storage): (r: ExportResult)
    ensures req.verb == "OPTIONS" ==> r == ExportResult(ExportResponse(200, NoBody), store, None)
    // every failure after the body is read answers 500 and writes nothing
    ensures r.response.status == 500 ==> r == Failed(store)
    ensures r.response.status == 200 && req.verb != "OPTIONS" ==> r.upload.Some? && r.response.body.DownloadUrl?
    ensures r.response.status in {200, 400, 500}
    // a body that is not JSON fails
    ensures req.verb != "OPTIONS" && req.body.ExportMalformed? ==> r == Failed(store)
    // 400 exactly for a JSON body without a truthy material id
    ensures req.verb != "OPTIONS" ==> (r.response.status == 400 <==> req.body.ExportJson? && !Truthy(req.body.materialId))
    // with an id, 200 exactly when the lookup finds the one row and the upload succeeds; otherwise 500
    ensures req.verb != "OPTIONS" && req.body.ExportJson? && Truthy(req.body.materialId) ==>
              (r.response.status == 200 <==> lookupOk && Lookup(store, req.body.materialId.value).Some? && storage.uploadOk)
  {
    if req.verb == "OPTIONS" then ExportResult(ExportResponse(200, NoBody), store, None)
    else if req.body.ExportMalformed? then Failed(store)
    else if !Truthy(req.body.materialId) then
      ExportResult(ExportResponse(400, ExportError("Missing materialId")), store, None)
    else
      var id := req.body.materialId.value;
      var found := Lookup(store, id);
      if !lookupOk || found.None? then Failed(store)
      else
        var m := found.value;
        var path := UploadPath(m);
        var file := Render(m);
        if !storage.uploadOk then Failed(store)
        else
          var url := storage.publicUrl(path);
          var written := store.(materials := UpdateWhere(store.materials, WithId(m.id), RecordExport(path, url)));
          ExportResult(ExportResponse(200, DownloadUrl(url)), written, Some(Upload(path, file)))
  }

  /** Without a material id the answer is 400 whatever the database holds, and nothing is read or written. */
  lemma MissingIdReadsNothing(req: ExportRequest, s1: Store, s2: Store, ok1: bool, ok2: bool, st1: Storage, st2: Storage)
    requires req.verb != "OPTIONS" && req.body.ExportJson? && !Truthy(req.body.materialId)
    ensures HandleExport(req, s1, ok1, st1).response == ExportResponse(400, ExportError("Missing materialId"))
    ensures HandleExport(req, s1, ok1, st1).response == HandleExport(req, s2, ok2, st2).response
    ensures HandleExport(req, s1, ok1, st1).store == s1 && HandleExport(req, s1, ok1, st1).upload.None?
  {
  }

  /**
   * A successful export of material `id` uploads `<course>/<id><ext>`,
   * with `.pptx` exactly for slides, and records `exports/` plus that path
   * and the public URL on that row alone.
   */
  lemma ExportSuccess(req: ExportRequest, store: Store, lookupOk: bool, storage: Storage)
    requires req.verb != "OPTIONS"
    requires HandleExport(req, store, lookupOk, storage).response.status == 200
    ensures req.body.ExportJson? && Truthy(req.body.materialId) && Lookup(store, req.body.materialId.value).Some?
    ensures var r := HandleExport(req, store, lookupOk, storage);
            var id := req.body.materialId.value;
            var m := Lookup(store, id).value;
            var path := m.courseId + "/" + id + Extension(m.materialType);
            && r.upload == Some(Upload(path, Render(m)))
            && r.response.body == DownloadUrl(storage.publicUrl(path))
            && r.store.courses == store.courses && r.store.pipelines == store.pipelines
            && |r.store.materials| == |store.materials|
            && forall k :: 0 <= k < |store.materials| ==>
                 r.store.materials[k] ==
                   if store.materials[k].id == id
                   then store.materials[k].(filePath := Some("exports/" + path), downloadUrl := Some(storage.publicUrl(path)))
                   else store.materials[k]
  {
    var id := req.body.materialId.value;
    var m := Lookup(store, id).value;
    var path := UploadPath(m);
    var url := storage.publicUrl(path);
    var written := store.(materials := UpdateWhere(store.materials, WithId(m.id), RecordExport(path, url)));
    assert HandleExport(req, store, lookupOk, storage)
        == ExportResult(ExportResponse(200, DownloadUrl(url)), written, Some(Upload(path, Render(m))));
    ExportRowsWritten(store.materials, id, path, url);
  }

  /** The update of a successful export touches the rows with the exported id and nothing else. */
  lemma ExportRowsWritten(rows: seq<Material>, id: string, path: string, url: string)
    ensures var w := UpdateWhere(rows, WithId(id), RecordExport(path, url));
            && |w| == |rows|
            && forall k :: 0 <= k < |rows| ==>
                 w[k] == if rows[k].id == id
                         then rows[k].(filePath := Some("exports/" + path), downloadUrl := Some(url))
                         else rows[k]
  {
    assert Bucket + "/" + path == "exports/" + path;
  }
}

=== FILE: generation.dfy ===
/**
 * The `generate-course-materials` edge function: one request generates every
 * active generation step in `step_order`, rendering each step's prompt
 * template, calling the text-generation model and recording the material row
 * as generating, then completed or failed. A failing step never stops the
 * loop, and once the loop is over the pipeline and the course are marked
 * completed whatever the steps' outcomes.
 *
 * The model call is an oracle: `oracle(i, prompt)` is the reply to the
 * prompt of the `i`-th step.
 */
module Generation {
  import opened Wrappers
  import opened Text
  import opened Query
  import opened Records

  // ---------------------------------------------------------------------------
  // Inputs

  /** The JSON body of the request, or a body that is not JSON, with the parser's error message. */
  datatype RequestBody = Json(courseId: Option<string>) | Malformed(parseError: string)

  datatype Request = Request(verb: string, body: RequestBody)

  /**
   * What the handler meets outside the request: the model key from the
   * environment, and the message the database gives a `.single()` read that
   * selects no row or several.
   */
  datatype Env = Env(geminiApiKey: Option<string>, notSingleError: string)

  /** A row of `generation_steps`; `dependencies` is nullable in the schema. */
  datatype GenerationStep = GenerationStep(
    stepName: string,
    stepOrder: int,
    displayName: string,
    materialType: string,
    dependencies: Option<seq<string>>,
    template: string)

  /** The answer to the active-steps query (already filtered and ordered by the database). */
  datatype StepsQuery = StepsRows(rows: seq<GenerationStep>) | StepsError(message: string)

  /** The parts of a model reply the handler inspects. */
  datatype Part = Part(text: Option<string>)
  datatype Content = Content(parts: Option<seq<Part>>)
  datatype Candidate = Candidate(content: Option<Content>)

  /** What `fetch` to the model endpoint yields. */
  datatype Reply =
    | NetworkFailure
    | NotOk(status: int, body: string)
    | Unparseable
    | Payload(candidates: seq<Candidate>)

  /** The model, as a function of the step index and the rendered prompt. */
  type Oracle = (nat, string) -> Reply

  // ---------------------------------------------------------------------------
  // Outputs

  /** Why one step failed; every one of these is caught inside the loop. */
  datatype StepFailure =
    | NullDependencies
    | Transport
    | ApiError(status: int, body: string)
    | BadJson
    | InvalidResponse
    | MissingParts
    | TextUndefined

  datatype StepOutcome = Succeeded(text: string) | StepFailed(failure: StepFailure)

  /** Why the whole request failed; these reach the outer `catch`. */
  datatype Failure =
    | BodyNotJson(parseError: string)
    | MissingCourseId
    | MissingApiKey
    | CourseLookupFailed(dbError: string)
    | StepsLookupFailed(message: string)

  datatype ResponseBody = NoBody | Generated(message: string) | ErrorBody(failure: Failure)

  datatype Response = Response(status: int, body: ResponseBody)

  /** The response, the database after the request, and each step's outcome (what the loop logs). */
  datatype HandlerResult = HandlerResult(response: Response, store: Store, outcomes: seq<StepOutcome>)

  /**
   * `error.message`: every error the handler meets is an `Error`, so the
   * `'Unknown error'` fallback is never taken. The handler's own errors carry
   * fixed texts; the parser's and the database's carry their own.
   */
  function FailureMessage(f: Failure): string {
    match f
    case BodyNotJson(m) => m
    case MissingCourseId => "Course ID is required"
    case MissingApiKey => "Gemini API key not configured"
    case CourseLookupFailed(m) => m
    case StepsLookupFailed(m) => m
  }

  const SuccessMessage := "Course materials generated successfully"

  // ---------------------------------------------------------------------------
  // Prompt rendering

  /** The six course placeholders, in the order they are replaced. */
  const FieldTokens: seq<string> :=
    ["{subject}", "{duration}", "{level}", "{environment}", "{tone}", "{language}"]

  /** The course values substituted for `FieldTokens`, position by position. */
  function FieldValues(c: Course): seq<string> {
    [c.subject, c.duration, c.level, c.environment, c.tone, c.language]
  }

  predicate DollarFreeCourse(c: Course) {
    forall k :: 0 <= k < |FieldValues(c)| ==> NoDollar(FieldValues(c)[k])
  }

  /** Characters a dependency name may use so that `new RegExp` reads its placeholder literally. */
  predicate NameChar(c: char) {
    ('a' <= c <= 'z') || ('A' <= c <= 'Z') || ('0' <= c <= '9') || c == '_'
  }

  /** Property names every plain JavaScript object inherits. */
  const InheritedNames: set<string> := {
    "constructor", "hasOwnProperty", "isPrototypeOf", "propertyIsEnumerable",
    "toLocaleString", "toString", "valueOf", "__proto__", "__defineGetter__",
    "__defineSetter__", "__lookupGetter__", "__lookupSetter__"}

  /**
   * A dependency name whose placeholder is a literal regular expression and
   * whose lookup in `generatedContent` cannot hit an inherited property.
   */
  predicate PlainName(d: string) {
    |d| > 0 && (forall k :: 0 <= k < |d| ==> NameChar(d[k])) && d !in InheritedNames
  }

  predicate PlainNames(deps: seq<string>) {
    forall k :: 0 <= k < |deps| ==> PlainName(deps[k])
  }

  /** Every step's dependency list, where present, holds plain names. */
  predicate PlainSteps(steps: seq<GenerationStep>) {
    forall k :: 0 <= k < |steps| && steps[k].dependencies.Some? ==> PlainNames(steps[k].dependencies.value)
  }

  predicate DollarFreeMap(generated: map<string, string>) {
    forall k :: k in generated ==> NoDollar(generated[k])
  }

  /** The placeholder for a dependency's content. */
  function DepToken(d: string): string {
    "{" + d + "_content}"
  }

  /** `generatedContent[d]` is truthy: `d` was generated with non-empty text in this run. */
  predicate Available(generated: map<string, string>, d: string) {
    d in generated && generated[d] != ""
  }

  /** Replaces each token of `pats` by the value at the same position, one after another. */
  function ReplaceEach(s: string, pats: seq<string>, reps: seq<string>): string
    requires |pats| == |reps|
    requires forall k :: 0 <= k < |pats| ==> IsToken(pats[k]) && NoDollar(reps[k])
    decreases |pats|
  {
    if |pats| == 0 then s
    else
      assert IsToken(pats[0]) && NoDollar(reps[0]);
      ReplaceEach(ReplaceAll(s, pats[0], reps[0]), pats[1..], reps[1..])
  }

  lemma FieldTokensAreTokens()
    ensures forall k :: 0 <= k < |FieldTokens| ==> IsToken(FieldTokens[k]) && '_' !in FieldTokens[k]
  {
  }

  /** The course substitution: six global replacements in a fixed order. */
  function RenderCourseFields(template: string, c: Course): string
    requires DollarFreeCourse(c)
  {
    FieldTokensAreTokens();
    ReplaceEach(template, FieldTokens, FieldValues(c))
  }

  lemma DepTokenIsToken(d: string)
    requires PlainName(d)
    ensures IsToken(DepToken(d)) && '_' in DepToken(d)
  {
    var t := DepToken(d);
    assert t[|t| - 9..] == "_content}";
    forall i | 0 < i < |t| - 1
      ensures t[i] != '{' && t[i] != '}'
    {
      if i <= |d| {
        assert t[i] == d[i - 1];
      } else {
        assert t[i] == "_content}"[i - |d| - 1];
      }
    }
    assert t[|d| + 1] == '_';
  }

  lemma DepTokenInjective(d: string, e: string)
    ensures DepToken(d) == DepToken(e) ==> d == e
  {
    if DepToken(d) == DepToken(e) {
      assert |d| == |e|;
      forall k | 0 <= k < |d|
        ensures d[k] == e[k]
      {
        assert DepToken(d)[k + 1] == d[k];
        assert DepToken(e)[k + 1] == e[k];
      }
    }
  }

  /** The dependency loop: each available dependency's placeholder is replaced by its content. */
  function SubstituteDeps(prompt: string, deps: seq<string>, generated: map<string, string>): string
    requires PlainNames(deps) && DollarFreeMap(generated)
    decreases |deps|
  {
    if |deps| == 0 then prompt
    else
      var d := deps[0];
      DepTokenIsToken(d);
      var p := if Available(generated, d) then ReplaceAll(prompt, DepToken(d), generated[d]) else prompt;
      SubstituteDeps(p, deps[1..], generated)
  }

  /** The prompt sent for a step whose dependency list is present. */
  function RenderPrompt(template: string, c: Course, deps: seq<string>, generated: map<string, string>): string
    requires DollarFreeCourse(c) && PlainNames(deps) && DollarFreeMap(generated)
  {
    SubstituteDeps(RenderCourseFields(template, c), deps, generated)
  }

  // ---------------------------------------------------------------------------
  // Properties of rendering

  /** A template in which no course placeholder occurs is returned unchanged. */
  lemma {:induction false} ReplaceEachAbsent(s: string, pats: seq<string>, reps: seq<string>)
    requires |pats| == |reps|
    requires forall k :: 0 <= k < |pats| ==> IsToken(pats[k]) && NoDollar(reps[k])
    requires forall k :: 0 <= k < |pats| ==> !Occurs(s, pats[k])
    ensures ReplaceEach(s, pats, reps) == s
    decreases |pats|
  {
    if |pats| > 0 {
      ReplaceAllAbsent(s, pats[0], reps[0]);
      ReplaceEachAbsent(s, pats[1..], reps[1..]);
    }
  }

  /** A token that is not one of `pats` passes through the replacements verbatim. */
  lemma {:induction false} ReplaceEachKeepsToken(a: string, tok: string, b: string, pats: seq<string>, reps: seq<string>)
    requires |pats| == |reps| && IsToken(tok)
    requires forall k :: 0 <= k < |pats| ==> IsToken(pats[k]) && NoDollar(reps[k]) && pats[k] != tok
    ensures ReplaceEach(a + tok + b, pats, reps) == ReplaceEach(a, pats, reps) + tok + ReplaceEach(b, pats, reps)
    decreases |pats|
  {
    if |pats| > 0 {
      ReplaceKeepsOtherToken(a, tok, b, pats[0], reps[0]);
      ReplaceEachKeepsToken(ReplaceAll(a, pats[0], reps[0]), tok, ReplaceAll(b, pats[0], reps[0]), pats[1..], reps[1..]);
    }
  }

  /** Rendering the course fields of a template with no course placeholder changes nothing. */
  lemma NoPlaceholderUnchanged(template: string, c: Course)
    requires DollarFreeCourse(c)
    requires forall k :: 0 <= k < |FieldTokens| ==> !Occurs(template, FieldTokens[k])
    ensures RenderCourseFields(template, c) == template
  {
    FieldTokensAreTokens();
    ReplaceEachAbsent(template, FieldTokens, FieldValues(c));
  }

  /**
   * Each course placeholder is replaced at every occurrence: a template made of
   * `{subject}`-free pieces joined by `{subject}` gets the subject between the pieces.
   */
  lemma SubjectReplacedEverywhere(pieces: seq<string>, c: Course)
    requires DollarFreeCourse(c) && |pieces| >= 1
    requires forall k :: 0 <= k < |pieces| ==> !Occurs(pieces[k], "{subject}")
    ensures RenderCourseFields(Join(pieces, "{subject}"), c)
         == ReplaceEach(Join(pieces, c.subject), FieldTokens[1..], FieldValues(c)[1..])
  {
    FieldTokensAreTokens();
    assert FieldValues(c)[0] == c.subject;
    ReplaceTokenEverywhere(pieces, "{subject}", c.subject);
  }

  /** Substituting dependencies keeps a token that is no available dependency's placeholder. */
  lemma {:induction false} SubstituteDepsKeepsToken(a: string, tok: string, b: string, deps: seq<string>, generated: map<string, string>)
    requires PlainNames(deps) && DollarFreeMap(generated) && IsToken(tok)
    requires forall k :: 0 <= k < |deps| && Available(generated, deps[k]) ==> DepToken(deps[k]) != tok
    ensures SubstituteDeps(a + tok + b, deps, generated)
         == SubstituteDeps(a, deps, generated) + tok + SubstituteDeps(b, deps, generated)
    decreases |deps|
  {
    if |deps| > 0 {
      var d := deps[0];
      DepTokenIsToken(d);
      if Available(generated, d) {
        ReplaceKeepsOtherToken(a, tok, b, DepToken(d), generated[d]);
        SubstituteDepsKeepsToken(ReplaceAll(a, DepToken(d), generated[d]), tok,
                                 ReplaceAll(b, DepToken(d), generated[d]), deps[1..], generated);
      } else {
        SubstituteDepsKeepsToken(a, tok, b, deps[1..], generated);
      }
    }
  }

  /** Without any available dependency the dependency loop leaves the prompt as it is. */
  lemma {:induction false} SubstituteDepsNoneAvailable(prompt: string, deps: seq<string>, generated: map<string, string>)
    requires PlainNames(deps) && DollarFreeMap(generated)
    requires forall k :: 0 <= k < |deps| ==> !Available(generated, deps[k])
    ensures SubstituteDeps(prompt, deps, generated) == prompt
    decreases |deps|
  {
    if |deps| > 0 {
      SubstituteDepsNoneAvailable(prompt, deps[1..], generated);
    }
  }

  /** Text without an opening brace holds no placeholder, so the dependency loop leaves it alone. */
  lemma {:induction false} SubstituteDepsBraceFree(s: string, deps: seq<string>, generated: map<string, string>)
    requires PlainNames(deps) && DollarFreeMap(generated) && BraceFree(s)
    ensures SubstituteDeps(s, deps, generated) == s
    decreases |deps|
  {
    if |deps| > 0 {
      var d := deps[0];
      DepTokenIsToken(d);
      if Available(generated, d) {
        NoTokenInBraceFree(s, DepToken(d));
        ReplaceAllAbsent(s, DepToken(d), generated[d]);
      }
      SubstituteDepsBraceFree(s, deps[1..], generated);
    }
  }

  /** Joining three brace-free strings gives a brace-free string. */
  lemma BraceFreeConcat(a: string, m: string, b: string)
    requires BraceFree(a) && BraceFree(m) && BraceFree(b)
    ensures BraceFree(a + m + b)
  {
    var s := a + m + b;
    forall i | 0 <= i < |s|
      ensures s[i] != '{'
    {
      if i < |a| { assert s[i] == a[i]; }
      else if i < |a| + |m| { assert s[i] == m[i - |a|]; }
      else { assert s[i] == b[i - |a| - |m|]; }
    }
  }

  /**
   * The placeholder of a listed dependency that was generated earlier with
   * non-empty text is replaced by that text. (Brace-free surroundings and
   * generated texts keep other placeholders out of the picture.)
   */
  lemma {:induction false} AvailableDependencyFilled(a: string, d: string, b: string, deps: seq<string>, generated: map<string, string>)
    requires PlainNames(deps) && DollarFreeMap(generated)
    requires d in deps && Available(generated, d)
    requires BraceFree(a) && BraceFree(b)
    requires forall n :: n in generated ==> BraceFree(generated[n])
    ensures SubstituteDeps(a + DepToken(d) + b, deps, generated) == a + generated[d] + b
    decreases |deps|
  {
    var e := deps[0];
    var tok := DepToken(d);
    assert PlainName(d);
    DepTokenIsToken(d);
    DepTokenIsToken(e);
    NoTokenInBraceFree(a, tok);
    NoTokenInBraceFree(b, tok);
    if e == d {
      assert Join([a, b], tok) == a + tok + b;
      assert Join([a, b], generated[d]) == a + generated[d] + b;
      ReplaceTokenEverywhere([a, b], tok, generated[d]);
      BraceFreeConcat(a, generated[d], b);
      SubstituteDepsBraceFree(a + generated[d] + b, deps[1..], generated);
    } else {
      if Available(generated, e) {
        DepTokenInjective(e, d);
        ReplaceKeepsOtherToken(a, tok, b, DepToken(e), generated[e]);
        NoTokenInBraceFree(a, DepToken(e));
        NoTokenInBraceFree(b, DepToken(e));
        ReplaceAllAbsent(a, DepToken(e), generated[e]);
        ReplaceAllAbsent(b, DepToken(e), generated[e]);
      }
      assert d in deps[1..];
      AvailableDependencyFilled(a, d, b, deps[1..], generated);
    }
  }

  /**
   * Any brace token that is neither a course placeholder nor the placeholder
   * of an available dependency (for instance `{title}`) is left verbatim by
   * the whole rendering.
   */
  lemma UnknownTokenVerbatim(a: string, tok: string, b: string, c: Course, deps: seq<string>, generated: map<string, string>)
    requires DollarFreeCourse(c) && PlainNames(deps) && DollarFreeMap(generated) && IsToken(tok)
    requires tok !in FieldTokens
    requires forall k :: 0 <= k < |deps| && Available(generated, deps[k]) ==> DepToken(deps[k]) != tok
    ensures RenderPrompt(a + tok + b, c, deps, generated)
         == RenderPrompt(a, c, deps, generated) + tok + RenderPrompt(b, c, deps, generated)
  {
    FieldTokensAreTokens();
    ReplaceEachKeepsToken(a, tok, b, FieldTokens, FieldValues(c));
    SubstituteDepsKeepsToken(RenderCourseFields(a, c), tok, RenderCourseFields(b, c), deps, generated);
  }

  /**
   * The placeholder of a dependency that has not been generated (with
   * non-empty text) earlier in the run stays in the prompt verbatim.
   */
  lemma PendingDependencyVerbatim(a: string, d: string, b: string, c: Course, deps: seq<string>, generated: map<string, string>)
    requires DollarFreeCourse(c) && PlainNames(deps) && DollarFreeMap(generated) && PlainName(d)
    requires !Available(generated, d)
    ensures RenderPrompt(a + DepToken(d) + b, c, deps, generated)
         == RenderPrompt(a, c, deps, generated) + DepToken(d) + RenderPrompt(b, c, deps, generated)
  {
    DepTokenIsToken(d);
    FieldTokensAreTokens();
    assert DepToken(d) !in FieldTokens;
    forall k | 0 <= k < |deps| && Available(generated, deps[k])
      ensures DepToken(deps[k]) != DepToken(d)
    {
      DepTokenInjective(deps[k], d);
    }
    UnknownTokenVerbatim(a, DepToken(d), b, c, deps, generated);
  }

  // ---------------------------------------------------------------------------
  // Progress

  /**
   * `Math.round(((i + 1) / n) * 100)` for the `k = i + 1`-th of `n` steps:
   * the integer nearest to `100 k / n`, halves rounded up.
   */
  function Progress(k: int, n: int): (p: int)
    requires 1 <= k <= n
    ensures n * (2 * p - 1) <= 200 * k < n * (2 * p + 1)
  {
    (200 * k + n) / (2 * n)
  }

  lemma MulMonotone(n: int, a: int, b: int)
    requires n >= 0 && a <= b
    ensures n * a <= n * b
  {
    assert n * b == n * a + n * (b - a);
  }

  lemma MulCancel(n: int, a: int, b: int)
    requires n > 0
    ensures n * a < n * b ==> a < b
  {
    if a >= b {
      MulMonotone(n, b, a);
    }
  }

  /** The progress value lies in 0..100, is 100 at the last step, and is at least 1 for up to 200 steps. */
  lemma ProgressBounds(k: int, n: int)
    requires 1 <= k <= n
    ensures 0 <= Progress(k, n) <= 100
    ensures k == n ==> Progress(k, n) == 100
    ensures n <= 200 ==> Progress(k, n) >= 1
  {
    var p := Progress(k, n);
    MulCancel(n, 0, 2 * p + 1);
    MulMonotone(n, 0, 0);
    MulMonotone(200, k, n);
    MulCancel(n, 2 * p - 1, 201);
    MulCancel(n, 200, 2 * p + 1);
    MulCancel(n, 1, 2 * p + 1);
  }

  /** Later steps never report a smaller progress value. */
  lemma ProgressMonotone(k1: int, k2: int, n: int)
    requires 1 <= k1 <= k2 <= n
    ensures Progress(k1, n) <= Progress(k2, n)
  {
    var p1, p2 := Progress(k1, n), Progress(k2, n);
    MulCancel(n, 2 * p1 - 1, 2 * p2 + 1);
  }

  /** With more than 200 steps the first step reports 0 percent. */
  lemma ProgressCanBeZero()
    ensures Progress(1, 201) == 0
  {
  }

  /** The eight seeded steps report 13, 25, 38, 50, 63, 75, 88 and 100 percent. */
  lemma ProgressOfEightSteps()
    ensures [Progress(1, 8), Progress(2, 8), Progress(3, 8), Progress(4, 8),
             Progress(5, 8), Progress(6, 8), Progress(7, 8), Progress(8, 8)]
         == [13, 25, 38, 50, 63, 75, 88, 100]
  {
  }

  // ---------------------------------------------------------------------------
  // One step

  /** How the handler reads a reply (lines 172-185). */
  function ReadReply(reply: Reply): (o: StepOutcome)
    ensures o.Succeeded? <==>
              reply.Payload? && |reply.candidates| > 0 && reply.candidates[0].content.Some?
              && reply.candidates[0].content.value.parts.Some?
              && |reply.candidates[0].content.value.parts.value| > 0
              && reply.candidates[0].content.value.parts.value[0].text.Some?
    ensures o.Succeeded? ==> o.text == reply.candidates[0].content.value.parts.value[0].text.value
  {
    match reply
    case NetworkFailure => StepFailed(Transport)
    case NotOk(status, body) => StepFailed(ApiError(status, body))
    case Unparseable => StepFailed(BadJson)
    case Payload(cs) =>
      if |cs| == 0 || cs[0].content.None? then StepFailed(InvalidResponse)
      else
        var parts := cs[0].content.value.parts;
        if parts.None? || |parts.value| == 0 then StepFailed(MissingParts)
        else if parts.value[0].text.None? then StepFailed(TextUndefined)
        else Succeeded(parts.value[0].text.value)
  }

  /** The model never returns text containing `$` (see `NoDollar`). */
  ghost predicate DollarFreeOracle(oracle: Oracle) {
    forall i: nat, p: string :: ReadReply(oracle(i, p)).Succeeded? ==> NoDollar(ReadReply(oracle(i, p)).text)
  }

  /** The rows `.eq('course_id', courseId).eq('material_type', t)` selects. */
  predicate StepRow(courseId: string, t: string, m: Material) {
    m.courseId == courseId && m.materialType == t
  }

  /** Lines 97-110: record the step's progress and mark its material generating. */
  function BeginStep(store: Store, courseId: string, step: GenerationStep, k: int, n: int): (s: Store)
    requires 1 <= k <= n
    ensures s.courses == store.courses
    ensures |s.pipelines| == |store.pipelines| && |s.materials| == |store.materials|
    // the step's rows only change status, to generating; other rows are untouched
    ensures forall j :: 0 <= j < |store.materials| ==>
              var m, m' := store.materials[j], s.materials[j];
              if StepRow(courseId, step.materialType, m)
              then m'.status == MaterialStatus.Generating && m' == m.(status := m'.status)
              else m' == m
    // the course's pipelines move to this step's order and progress; others are untouched
    ensures forall j :: 0 <= j < |store.pipelines| ==>
              var p, p' := store.pipelines[j], s.pipelines[j];
              if p.courseId == courseId
              then p'.currentStep == step.stepOrder && p'.progressPercent == Progress(k, n)
                   && p' == p.(currentStep := p'.currentStep, progressPercent := p'.progressPercent)
              else p' == p
  {
    var pipelines := UpdateWhere(store.pipelines, PipelineOf(courseId),
                                 (p: Pipeline) => p.(currentStep := step.stepOrder, progressPercent := Progress(k, n)));
    var materials := UpdateWhere(store.materials, (m: Material) => StepRow(courseId, step.materialType, m),
                                 (m: Material) => m.(status := MaterialStatus.Generating));
    store.(pipelines := pipelines, materials := materials)
  }

  /** Lines 191-212: store the text and mark completed, or mark failed. */
  function FinishStep(store: Store, courseId: string, step: GenerationStep, outcome: StepOutcome): (s: Store)
    ensures s.courses == store.courses && s.pipelines == store.pipelines
    ensures |s.materials| == |store.materials|
    // the step's rows end completed with the text or failed with their content kept; other rows are untouched
    ensures forall j :: 0 <= j < |store.materials| ==>
              var m, m' := store.materials[j], s.materials[j];
              if StepRow(courseId, step.materialType, m)
              then && (m'.status == MaterialStatus.Completed <==> outcome.Succeeded?)
                   && (m'.status == MaterialStatus.Failed <==> outcome.StepFailed?)
                   && m'.content == (if outcome.Succeeded? then Some(outcome.text) else m.content)
                   && m' == m.(status := m'.status, content := m'.content)
              else m' == m
  {
    var materials := UpdateWhere(store.materials, (m: Material) => StepRow(courseId, step.materialType, m),
                                 (m: Material) =>
                                   if outcome.Succeeded? then m.(content := Some(outcome.text), status := MaterialStatus.Completed)
                                   else m.(status := MaterialStatus.Failed));
    store.(materials := materials)
  }

  /** The state the loop carries: the database, `generatedContent`, and each step's outcome so far. */
  datatype RunState = RunState(store: Store, generated: map<string, string>, outcomes: seq<StepOutcome>)

  /** The outcome of step `i` given the content generated before it. */
  function Attempt(i: nat, step: GenerationStep, c: Course, generated: map<string, string>, oracle: Oracle): (o: StepOutcome)
    requires DollarFreeCourse(c) && DollarFreeMap(generated)
    requires step.dependencies.Some? ==> PlainNames(step.dependencies.value)
    // `step.dependencies.forEach` on null throws before the model is called
    ensures step.dependencies.None? ==> o == StepFailed(NullDependencies)
    // otherwise the outcome is the model's reply to the step's own rendered prompt
    ensures step.dependencies.Some? ==>
              o == ReadReply(oracle(i, RenderPrompt(step.template, c, step.dependencies.value, generated)))
    ensures o.Succeeded? ==> step.dependencies.Some?
  {
    if step.dependencies.None? then StepFailed(NullDependencies)
    else ReadReply(oracle(i, RenderPrompt(step.template, c, step.dependencies.value, generated)))
  }

  /** `generatedContent` after a step: set on success, `undefined` when the text was missing. */
  function Record(generated: map<string, string>, name: string, outcome: StepOutcome): map<string, string> {
    match outcome
    case Succeeded(t) => generated[name := t]
    case StepFailed(TextUndefined) => generated - {name}
    case StepFailed(_) => generated
  }

  /** One iteration of the loop body, including its `catch`. */
  function StepRun(st: RunState, courseId: string, c: Course, steps: seq<GenerationStep>, i: nat, oracle: Oracle): (r: RunState)
    requires i < |steps|
    requires DollarFreeCourse(c) && DollarFreeMap(st.generated) && PlainSteps(steps) && DollarFreeOracle(oracle)
    ensures r.store.courses == st.store.courses
    ensures |r.store.pipelines| == |st.store.pipelines| && |r.store.materials| == |st.store.materials|
    ensures r.outcomes == st.outcomes + [Attempt(i, steps[i], c, st.generated, oracle)]
    ensures DollarFreeMap(r.generated)
  {
    var step := steps[i];
    var outcome := Attempt(i, step, c, st.generated, oracle);
    var begun := BeginStep(st.store, courseId, step, i + 1, |steps|);
    RunState(FinishStep(begun, courseId, step, outcome), Record(st.generated, step.stepName, outcome), st.outcomes + [outcome])
  }

  /**
   * What one iteration writes: the step's own rows end completed with the
   * text, or failed with their content untouched; no other row changes; the
   * course's pipelines record the step's order and progress.
   */
  lemma StepRunWrites(st: RunState, courseId: string, c: Course, steps: seq<GenerationStep>, i: nat, oracle: Oracle)
    requires i < |steps|
    requires DollarFreeCourse(c) && DollarFreeMap(st.generated) && PlainSteps(steps) && DollarFreeOracle(oracle)
    // the step's own rows end completed with the text, or failed with their content untouched
    ensures forall j :: 0 <= j < |st.store.materials| && StepRow(courseId, steps[i].materialType, st.store.materials[j]) ==>
              var m, m' := st.store.materials[j], StepRun(st, courseId, c, steps, i, oracle).store.materials[j];
              var o := Attempt(i, steps[i], c, st.generated, oracle);
              && (m'.status == MaterialStatus.Completed <==> o.Succeeded?)
              && (m'.status == MaterialStatus.Failed <==> o.StepFailed?)
              && m'.content == (if o.Succeeded? then Some(o.text) else m.content)
              && m' == m.(status := m'.status, content := m'.content)
    // every other material row is untouched
    ensures forall j :: 0 <= j < |st.store.materials| && !StepRow(courseId, steps[i].materialType, st.store.materials[j]) ==>
              StepRun(st, courseId, c, steps, i, oracle).store.materials[j] == st.store.materials[j]
    // the course's pipeline rows record this step; the others are untouched
    ensures forall j :: 0 <= j < |st.store.pipelines| ==>
              var p, p' := st.store.pipelines[j], StepRun(st, courseId, c, steps, i, oracle).store.pipelines[j];
              if p.courseId == courseId
              then p' == p.(currentStep := steps[i].stepOrder, progressPercent := Progress(i + 1, |steps|))
              else p' == p
  {
  }

  /** The material status a step leaves its rows in between its two writes. */
  lemma BeginStepMarksGenerating(store: Store, courseId: string, step: GenerationStep, k: int, n: int, j: int)
    requires 1 <= k <= n && 0 <= j < |store.materials|
    ensures var m' := BeginStep(store, courseId, step, k, n).materials[j];
            StepRow(courseId, step.materialType, store.materials[j]) ==> m'.status == MaterialStatus.Generating
  {
  }

  // ---------------------------------------------------------------------------
  // The loop

  /** Some step among the first `j` has the row's course and material type. */
  predicate TouchedBefore(courseId: string, steps: seq<GenerationStep>, j: int, m: Material)
    requires j <= |steps|
  {
    exists i :: 0 <= i < j && StepRow(courseId, steps[i].materialType, m)
  }

  /** The state after the first `j` iterations of the loop over `steps`, starting from `store`. */
  function Run(store: Store, courseId: string, c: Course, steps: seq<GenerationStep>, j: nat, oracle: Oracle): (st: RunState)
    requires j <= |steps|
    requires DollarFreeCourse(c) && PlainSteps(steps) && DollarFreeOracle(oracle)
    ensures |st.outcomes| == j
    ensures st.store.courses == store.courses
    ensures |st.store.pipelines| == |store.pipelines| && |st.store.materials| == |store.materials|
    ensures DollarFreeMap(st.generated)
    decreases j
  {
    if j == 0 then RunState(store, map[], [])
    else StepRun(Run(store, courseId, c, steps, j - 1, oracle), courseId, c, steps, j - 1, oracle)
  }

  /** Every entry of `st.generated` is the text some step among the first `j` produced under its own name. */
  predicate GeneratedSound(st: RunState, steps: seq<GenerationStep>, j: nat)
    requires j <= |steps| && |st.outcomes| == j
  {
    forall name :: name in st.generated ==>
      exists i :: 0 <= i < j && steps[i].stepName == name && st.outcomes[i] == Succeeded(st.generated[name])
  }

  /** generatedContent holds only text produced earlier in this run, under the producing step's name. */
  lemma {:induction false} RunGeneratedSound(store: Store, courseId: string, c: Course, steps: seq<GenerationStep>, j: nat, oracle: Oracle)
    requires j <= |steps|
    requires DollarFreeCourse(c) && PlainSteps(steps) && DollarFreeOracle(oracle)
    ensures GeneratedSound(Run(store, courseId, c, steps, j, oracle), steps, j)
  {
    RunRecorded(store, courseId, c, steps, j, oracle);
    RecordedSound(steps, Run(store, courseId, c, steps, j, oracle).outcomes);
  }

  /** `name`'s entry in `g` is the text of a success recorded under that name. */
  predicate RecordedEntry(steps: seq<GenerationStep>, outs: seq<StepOutcome>, g: map<string, string>, name: string)
    requires |outs| <= |steps| && name in g
  {
    exists i :: 0 <= i < |outs| && steps[i].stepName == name && outs[i] == Succeeded(g[name])
  }

  /** Every entry of a recorded map is the text of a success recorded under that name. */
  lemma {:induction false} RecordedSound(steps: seq<GenerationStep>, outs: seq<StepOutcome>)
    requires |outs| <= |steps|
    ensures forall name :: name in Recorded(steps, outs) ==> RecordedEntry(steps, outs, Recorded(steps, outs), name)
    decreases |outs|
  {
    if outs != [] {
      var n := |outs| - 1;
      var prev, g := Recorded(steps, outs[..n]), Recorded(steps, outs);
      RecordedSound(steps, outs[..n]);
      forall name | name in g
        ensures RecordedEntry(steps, outs, g, name)
      {
        if name == steps[n].stepName && outs[n].Succeeded? {
          assert outs[n] == Succeeded(g[name]);
        } else {
          RecordKeepsOrDrops(prev, steps[n].stepName, outs[n], name);
          assert RecordedEntry(steps, outs[..n], prev, name);
          var i :| 0 <= i < n && steps[i].stepName == name && outs[..n][i] == Succeeded(prev[name]);
          assert outs[i] == Succeeded(g[name]);
        }
      }
    }
  }

  /** An entry after recording is the new success under its name, or an entry that was already there. */
  lemma RecordKeepsOrDrops(generated: map<string, string>, name: string, o: StepOutcome, other: string)
    requires other in Record(generated, name, o)
    requires !(other == name && o.Succeeded?)
    ensures other in generated && Record(generated, name, o)[other] == generated[other]
  {
  }

  /**
   * The converse: a step that succeeded leaves its text in `generatedContent`
   * under its name for as long as no later step has the same name.
   */
  lemma {:induction false} RunGeneratedComplete(store: Store, courseId: string, c: Course, steps: seq<GenerationStep>, i: nat, j: nat, oracle: Oracle)
    requires i < j <= |steps|
    requires DollarFreeCourse(c) && PlainSteps(steps) && DollarFreeOracle(oracle)
    requires Run(store, courseId, c, steps, j, oracle).outcomes[i].Succeeded?
    requires forall l :: i < l < j ==> steps[l].stepName != steps[i].stepName
    ensures var st := Run(store, courseId, c, steps, j, oracle);
            steps[i].stepName in st.generated && st.generated[steps[i].stepName] == st.outcomes[i].text
  {
    RunRecorded(store, courseId, c, steps, j, oracle);
    RecordedComplete(steps, Run(store, courseId, c, steps, j, oracle).outcomes, i);
  }

  /** The content map built by recording the given outcomes of the first steps in order. */
  function Recorded(steps: seq<GenerationStep>, outs: seq<StepOutcome>): map<string, string>
    requires |outs| <= |steps|
    decreases |outs|
  {
    if outs == [] then map[]
    else Record(Recorded(steps, outs[..|outs| - 1]), steps[|outs| - 1].stepName, outs[|outs| - 1])
  }

  /** The loop's `generatedContent` is exactly the outcomes recorded in order. */
  lemma {:induction false} RunRecorded(store: Store, courseId: string, c: Course, steps: seq<GenerationStep>, j: nat, oracle: Oracle)
    requires j <= |steps|
    requires DollarFreeCourse(c) && PlainSteps(steps) && DollarFreeOracle(oracle)
    ensures var st := Run(store, courseId, c, steps, j, oracle); st.generated == Recorded(steps, st.outcomes)
    decreases j
  {
    if j > 0 {
      var prev, st := Run(store, courseId, c, steps, j - 1, oracle), Run(store, courseId, c, steps, j, oracle);
      RunStepRecords(store, courseId, c, steps, j, oracle);
      RunRecorded(store, courseId, c, steps, j - 1, oracle);
      RecordedStep(steps, prev, st, j);
    }
  }

  /** The induction step of `RunRecorded`, for any two states one recorded outcome apart. */
  lemma RecordedStep(steps: seq<GenerationStep>, prev: RunState, st: RunState, j: nat)
    requires 0 < j <= |steps| && |prev.outcomes| == j - 1 && |st.outcomes| == j
    requires prev.generated == Recorded(steps, prev.outcomes)
    requires st.generated == Record(prev.generated, steps[j - 1].stepName, st.outcomes[j - 1])
    requires st.outcomes[..j - 1] == prev.outcomes
    ensures st.generated == Recorded(steps, st.outcomes)
  {
  }

  /** The `j`-th iteration records its own outcome and keeps the earlier ones. */
  lemma RunStepRecords(store: Store, courseId: string, c: Course, steps: seq<GenerationStep>, j: nat, oracle: Oracle)
    requires 0 < j <= |steps|
    requires DollarFreeCourse(c) && PlainSteps(steps) && DollarFreeOracle(oracle)
    ensures var prev, st := Run(store, courseId, c, steps, j - 1, oracle), Run(store, courseId, c, steps, j, oracle);
            st.generated == Record(prev.generated, steps[j - 1].stepName, st.outcomes[j - 1]) &&
            st.outcomes[..j - 1] == prev.outcomes
  {
  }

  /** A recorded success survives every later outcome recorded under another name. */
  lemma {:induction false} RecordedComplete(steps: seq<GenerationStep>, outs: seq<StepOutcome>, i: nat)
    requires i < |outs| <= |steps| && outs[i].Succeeded?
    requires forall l :: i < l < |outs| ==> steps[l].stepName != steps[i].stepName
    ensures steps[i].stepName in Recorded(steps, outs) && Recorded(steps, outs)[steps[i].stepName] == outs[i].text
    decreases |outs|
  {
    var n := |outs| - 1;
    if i < n {
      RecordedComplete(steps, outs[..n], i);
      RecordKeepsOthers(Recorded(steps, outs[..n]), steps[n].stepName, outs[n], steps[i].stepName);
    }
  }

  /** Recording one step's outcome leaves the entries of other names as they were. */
  lemma RecordKeepsOthers(generated: map<string, string>, name: string, o: StepOutcome, other: string)
    requires other != name
    ensures other in Record(generated, name, o) <==> other in generated
    ensures other in generated ==> Record(generated, name, o)[other] == generated[other]
  {
  }

  /** No row of another course, or of a material type no step has reached, is written. */
  lemma {:induction false} RunLeavesOtherRows(store: Store, courseId: string, c: Course, steps: seq<GenerationStep>, j: nat, oracle: Oracle, r: nat)
    requires j <= |steps| && r < |store.materials|
    requires DollarFreeCourse(c) && PlainSteps(steps) && DollarFreeOracle(oracle)
    requires !TouchedBefore(courseId, steps, j, store.materials[r])
    ensures Run(store, courseId, c, steps, j, oracle).store.materials[r] == store.materials[r]
    decreases j
  {
    if j > 0 {
      var prev := Run(store, courseId, c, steps, j - 1, oracle);
      assert Run(store, courseId, c, steps, j, oracle) == StepRun(prev, courseId, c, steps, j - 1, oracle);
      RunLeavesOtherRows(store, courseId, c, steps, j - 1, oracle, r);
      assert !StepRow(courseId, steps[j - 1].materialType, store.materials[r]);
      StepRunWrites(prev, courseId, c, steps, j - 1, oracle);
    }
  }

  /** Other courses' pipelines are untouched; this course's pipeline shows the latest step and its progress. */
  lemma {:induction false} RunPipelines(store: Store, courseId: string, c: Course, steps: seq<GenerationStep>, j: nat, oracle: Oracle)
    requires j <= |steps|
    requires DollarFreeCourse(c) && PlainSteps(steps) && DollarFreeOracle(oracle)
    ensures var st := Run(store, courseId, c, steps, j, oracle);
            forall r :: 0 <= r < |store.pipelines| ==>
              var p, p' := store.pipelines[r], st.store.pipelines[r];
              if p.courseId != courseId || j == 0 then p' == p
              else p' == p.(currentStep := steps[j - 1].stepOrder, progressPercent := Progress(j, |steps|))
    decreases j
  {
    if j > 0 {
      var prev := Run(store, courseId, c, steps, j - 1, oracle);
      assert Run(store, courseId, c, steps, j, oracle) == StepRun(prev, courseId, c, steps, j - 1, oracle);
      RunPipelines(store, courseId, c, steps, j - 1, oracle);
      StepRunWrites(prev, courseId, c, steps, j - 1, oracle);
    }
  }

  /** An outcome, once recorded, is never revised by later iterations. */
  lemma {:induction false} OutcomeStable(store: Store, courseId: string, c: Course, steps: seq<GenerationStep>, i: nat, j: nat, oracle: Oracle)
    requires i < j <= |steps|
    requires DollarFreeCourse(c) && PlainSteps(steps) && DollarFreeOracle(oracle)
    ensures Run(store, courseId, c, steps, j, oracle).outcomes[i] == Run(store, courseId, c, steps, i + 1, oracle).outcomes[i]
    decreases j
  {
    if j > i + 1 {
      var prev := Run(store, courseId, c, steps, j - 1, oracle);
      assert Run(store, courseId, c, steps, j, oracle) == StepRun(prev, courseId, c, steps, j - 1, oracle);
      OutcomeStable(store, courseId, c, steps, i, j - 1, oracle);
    }
  }

  /** A row no later step selects keeps the value it had after step `i`. */
  lemma {:induction false} RowStableAfter(store: Store, courseId: string, c: Course, steps: seq<GenerationStep>, r: nat, i: nat, j: nat, oracle: Oracle)
    requires i < j <= |steps| && r < |store.materials|
    requires DollarFreeCourse(c) && PlainSteps(steps) && DollarFreeOracle(oracle)
    requires forall k :: i < k < j ==> !StepRow(courseId, steps[k].materialType, store.materials[r])
    ensures Run(store, courseId, c, steps, j, oracle).store.materials[r] == Run(store, courseId, c, steps, i + 1, oracle).store.materials[r]
    decreases j
  {
    if j > i + 1 {
      RowStableAfter(store, courseId, c, steps, r, i, j - 1, oracle);
      MaterialKeysStable(store, courseId, c, steps, r, j - 1, oracle);
      RunStepKeepsRow(store, courseId, c, steps, r, j, oracle);
    }
  }

  /** The `j`-th iteration leaves a row of another course or material type as it was. */
  lemma RunStepKeepsRow(store: Store, courseId: string, c: Course, steps: seq<GenerationStep>, r: nat, j: nat, oracle: Oracle)
    requires 0 < j <= |steps| && r < |store.materials|
    requires DollarFreeCourse(c) && PlainSteps(steps) && DollarFreeOracle(oracle)
    requires !StepRow(courseId, steps[j - 1].materialType, Run(store, courseId, c, steps, j - 1, oracle).store.materials[r])
    ensures Run(store, courseId, c, steps, j, oracle).store.materials[r] == Run(store, courseId, c, steps, j - 1, oracle).store.materials[r]
  {
    StepRunWrites(Run(store, courseId, c, steps, j - 1, oracle), courseId, c, steps, j - 1, oracle);
  }

  /** Steps only write `status` and `content`, so a row keeps its course and material type. */
  lemma {:induction false} MaterialKeysStable(store: Store, courseId: string, c: Course, steps: seq<GenerationStep>, r: nat, j: nat, oracle: Oracle)
    requires j <= |steps| && r < |store.materials|
    requires DollarFreeCourse(c) && PlainSteps(steps) && DollarFreeOracle(oracle)
    ensures var m := Run(store, courseId, c, steps, j, oracle).store.materials[r];
            m == store.materials[r].(status := m.status, content := m.content)
    decreases j
  {
    if j > 0 {
      var prev := Run(store, courseId, c, steps, j - 1, oracle);
      assert Run(store, courseId, c, steps, j, oracle) == StepRun(prev, courseId, c, steps, j - 1, oracle);
      MaterialKeysStable(store, courseId, c, steps, r, j - 1, oracle);
      StepRunWrites(prev, courseId, c, steps, j - 1, oracle);
    }
  }

  /** No later step produces the same material type as step `i`. */
  predicate LastOfType(steps: seq<GenerationStep>, i: nat)
    requires i < |steps|
  {
    forall l :: i < l < |steps| ==> steps[l].materialType != steps[i].materialType
  }

  /**
   * The last step for a material type decides its row: completed with the
   * generated text exactly when that step's reply carried text, otherwise
   * failed with the content it had before.
   */
  lemma LastStepDecides(store: Store, courseId: string, c: Course, steps: seq<GenerationStep>, r: nat, i: nat, oracle: Oracle)
    requires i < |steps| && r < |store.materials|
    requires DollarFreeCourse(c) && PlainSteps(steps) && DollarFreeOracle(oracle)
    requires StepRow(courseId, steps[i].materialType, store.materials[r])
    requires LastOfType(steps, i)
    ensures var fin := Run(store, courseId, c, steps, |steps|, oracle);
            var m, o := fin.store.materials[r], fin.outcomes[i];
            && (m.status == MaterialStatus.Completed <==> o.Succeeded?)
            && (m.status == MaterialStatus.Failed <==> o.StepFailed?)
            && (o.Succeeded? ==> m.content == Some(o.text))
  {
    var before := Run(store, courseId, c, steps, i, oracle);
    MaterialKeysStable(store, courseId, c, steps, r, i, oracle);
    assert StepRow(courseId, steps[i].materialType, before.store.materials[r]);
    StepRunWrites(before, courseId, c, steps, i, oracle);
    RowStableAfter(store, courseId, c, steps, r, i, |steps|, oracle);
    OutcomeStable(store, courseId, c, steps, i, |steps|, oracle);
  }

  // ---------------------------------------------------------------------------
  // The request handler

  /** Lines 70-82: the pipeline is marked running at step 1 and the course generating. */
  function MarkStarted(store: Store, courseId: string): (s: Store)
    ensures s.materials == store.materials
    ensures |s.courses| == |store.courses| && |s.pipelines| == |store.pipelines|
    ensures forall j :: 0 <= j < |store.courses| ==>
              var c, c' := store.courses[j], s.courses[j];
              if c.id == courseId then c'.status == CourseStatus.Generating && c' == c.(status := c'.status) else c' == c
    ensures forall j :: 0 <= j < |store.pipelines| ==>
              var p, p' := store.pipelines[j], s.pipelines[j];
              if p.courseId == courseId
              then p'.status == PipelineStatus.Running && p'.currentStep == 1
                   && p' == p.(status := p'.status, currentStep := p'.currentStep)
              else p' == p
  {
    store.(
      pipelines := UpdateWhere(store.pipelines, PipelineOf(courseId),
                               (p: Pipeline) => p.(status := PipelineStatus.Running, currentStep := 1)),
      courses := UpdateWhere(store.courses, CourseWithId(courseId),
                             (c: Course) => c.(status := CourseStatus.Generating)))
  }

  /** Lines 220-231: the pipeline is marked completed at 100 percent and the course completed. */
  function MarkFinished(store: Store, courseId: string): (s: Store)
    ensures s.materials == store.materials
    ensures |s.courses| == |store.courses| && |s.pipelines| == |store.pipelines|
    ensures forall j :: 0 <= j < |store.courses| ==>
              var c, c' := store.courses[j], s.courses[j];
              if c.id == courseId then c'.status == CourseStatus.Completed && c' == c.(status := c'.status) else c' == c
    ensures forall j :: 0 <= j < |store.pipelines| ==>
              var p, p' := store.pipelines[j], s.pipelines[j];
              if p.courseId == courseId
              then p'.status == PipelineStatus.Completed && p'.progressPercent == 100
                   && p' == p.(status := p'.status, progressPercent := p'.progressPercent)
              else p' == p
  {
    store.(
      pipelines := UpdateWhere(store.pipelines, PipelineOf(courseId),
                               (p: Pipeline) => p.(status := PipelineStatus.Completed, progressPercent := 100)),
      courses := UpdateWhere(store.courses, CourseWithId(courseId),
                             (c: Course) => c.(status := CourseStatus.Completed)))
  }

  /** The writes the `catch` block would make for a course id it recovered. */
  function MarkFailed(store: Store, courseId: string, f: Failure): (s: Store)
    ensures s.materials == store.materials
    ensures |s.courses| == |store.courses| && |s.pipelines| == |store.pipelines|
    ensures forall j :: 0 <= j < |store.courses| ==>
              var c, c' := store.courses[j], s.courses[j];
              if c.id == courseId then c'.status == CourseStatus.Failed && c' == c.(status := c'.status) else c' == c
    ensures forall j :: 0 <= j < |store.pipelines| ==>
              var p, p' := store.pipelines[j], s.pipelines[j];
              if p.courseId == courseId
              then p'.status == PipelineStatus.Failed && p'.errorMessage == Some(FailureMessage(f))
                   && p' == p.(status := p'.status, errorMessage := p'.errorMessage)
              else p' == p
  {
    store.(
      pipelines := UpdateWhere(store.pipelines, PipelineOf(courseId),
                               (p: Pipeline) => p.(status := PipelineStatus.Failed, errorMessage := Some(FailureMessage(f)))),
      courses := UpdateWhere(store.courses, CourseWithId(courseId),
                             (c: Course) => c.(status := CourseStatus.Failed)))
  }

  /**
   * Line 253: reading the request body again. Once line 35 has consumed it,
   * `req.json()` rejects and `.catch(() => ({}))` yields an object without
   * `courseId`.
   */
  function RereadBody(req: Request, consumed: bool): (b: RequestBody)
    ensures consumed ==> !(b.Json? && Truthy(b.courseId))
    ensures !consumed ==> b == req.body
  {
    if consumed then Json(None) else req.body
  }

  /** Lines 248-287: answer 500 with the error, after the status writes for a recovered course id. */
  function CatchPath(f: Failure, store: Store, reread: RequestBody): (r: HandlerResult)
    ensures r.response == Response(500, ErrorBody(f))
    ensures reread.Json? && Truthy(reread.courseId) ==> r.store == MarkFailed(store, reread.courseId.value, f)
    ensures !(reread.Json? && Truthy(reread.courseId)) ==> r.store == store
  {
    if reread.Json? && Truthy(reread.courseId) then
      HandlerResult(Response(500, ErrorBody(f)), MarkFailed(store, reread.courseId.value, f), [])
    else HandlerResult(Response(500, ErrorBody(f)), store, [])
  }

  /** The data a request needs before the first write, or the reason it fails. */
  datatype Prepared = Ready(courseId: string, course: Course, steps: seq<GenerationStep>) | Refused(failure: Failure)

  /** Lines 35-67: the checks and reads that precede every write. */
  function Prepare(req: Request, env: Env, store: Store, steps: StepsQuery): (p: Prepared)
    ensures p.Ready? ==> p.course in store.courses && p.course.id == p.courseId
    ensures p.Refused? <==>
              || req.body.Malformed?
              || !Truthy(req.body.courseId)
              || !Truthy(env.geminiApiKey)
              || Count(store.courses, CourseWithId(req.body.courseId.value)) != 1
              || steps.StepsError?
  {
    if req.body.Malformed? then Refused(BodyNotJson(req.body.parseError))
    else if !Truthy(req.body.courseId) then Refused(MissingCourseId)
    else if !Truthy(env.geminiApiKey) then Refused(MissingApiKey)
    else
      var courseId := req.body.courseId.value;
      var matching := Filter(store.courses, CourseWithId(courseId));
      FilterLength(store.courses, CourseWithId(courseId));
      var course := Single(matching);
      if course.None? then Refused(CourseLookupFailed(env.notSingleError))
      else if steps.StepsError? then Refused(StepsLookupFailed(steps.message))
      else Ready(courseId, course.value, steps.rows)
  }

  /**
   * The handler's preconditions: the values it substitutes (the requested
   * course's fields and the model's replies) contain no `$`, and dependency
   * names are plain.
   */
  ghost predicate Substitutable(req: Request, env: Env, store: Store, steps: StepsQuery, oracle: Oracle) {
    && (req.verb != "OPTIONS" && Prepare(req, env, store, steps).Ready? ==>
          DollarFreeCourse(Prepare(req, env, store, steps).course))
    && (steps.StepsRows? ==> PlainSteps(steps.rows))
    && DollarFreeOracle(oracle)
  }

  /** The edge function: answers one request and returns the database after its writes. */
  function Handle(req: Request, env: Env, store: Store, steps: StepsQuery, oracle: Oracle): (r: HandlerResult)
    requires Substitutable(req, env, store, steps, oracle)
    // CORS preflight and failures write nothing; a failure answers 500
    ensures req.verb == "OPTIONS" ==> r == HandlerResult(Response(200, NoBody), store, [])
    ensures r.response.status != 200 ==> r.store == store && r.response.body.ErrorBody?
    ensures req.verb != "OPTIONS" ==> (r.response.body.ErrorBody? <==> Prepare(req, env, store, steps).Refused?)
    ensures r.response.body.Generated? ==> r.response.body.message == SuccessMessage && |r.outcomes| == |steps.rows|
    // every refusal reaches the one catch and answers 500 with its own failure
    ensures req.verb != "OPTIONS" && Prepare(req, env, store, steps).Refused? ==>
              r.response == Response(500, ErrorBody(Prepare(req, env, store, steps).failure))
    ensures r.response.status == 200 || r.response.status == 500
  {
    if req.verb == "OPTIONS" then HandlerResult(Response(200, NoBody), store, [])
    else
      match Prepare(req, env, store, steps)
      case Refused(f) => CatchPath(f, store, RereadBody(req, true))
      case Ready(courseId, c, rows) =>
        var run := Run(MarkStarted(store, courseId), courseId, c, rows, |rows|, oracle);
        HandlerResult(Response(200, Generated(SuccessMessage)), MarkFinished(run.store, courseId), run.outcomes)
  }

  /**
   * The database as the page can find it while the function is still running
   * or after its answer was lost: the first `j` steps of a run have been
   * written, and the final writes once all steps have.
   */
  function Interrupted(req: Request, env: Env, store: Store, steps: StepsQuery, oracle: Oracle, j: nat): (s: Store)
    requires Substitutable(req, env, store, steps, oracle)
    ensures req.verb == "OPTIONS" || Prepare(req, env, store, steps).Refused? ==> s == store
    ensures |s.courses| == |store.courses| && |s.pipelines| == |store.pipelines| && |s.materials| == |store.materials|
  {
    if req.verb == "OPTIONS" then store
    else
      match Prepare(req, env, store, steps)
      case Refused(_) => store
      case Ready(courseId, c, rows) =>
        var run := Run(MarkStarted(store, courseId), courseId, c, rows, if j < |rows| then j else |rows|, oracle);
        if j < |rows| then run.store else MarkFinished(run.store, courseId)
  }

  /** Once every step has run, the interrupted database is the one the handler leaves. */
  lemma InterruptedAfterAllSteps(req: Request, env: Env, store: Store, steps: StepsQuery, oracle: Oracle, j: nat)
    requires Substitutable(req, env, store, steps, oracle)
    requires steps.StepsRows? ==> j >= |steps.rows|
    ensures Interrupted(req, env, store, steps, oracle, j) == Handle(req, env, store, steps, oracle).store
  {
  }

  /**
   * While the run is under way the course is generating and its pipelines
   * are running; after the last step both are completed. Ids, course ids and
   * `waiting_for_approval` never change.
   */
  lemma InterruptedStatus(req: Request, env: Env, store: Store, steps: StepsQuery, oracle: Oracle, j: nat)
    requires Substitutable(req, env, store, steps, oracle)
    requires req.verb != "OPTIONS" && Prepare(req, env, store, steps).Ready?
    ensures var s := Interrupted(req, env, store, steps, oracle, j);
            var id, running := req.body.courseId.value, j < |steps.rows|;
            && (forall k :: 0 <= k < |store.courses| ==>
                  && s.courses[k].id == store.courses[k].id
                  && (store.courses[k].id == id ==>
                        s.courses[k].status == if running then CourseStatus.Generating else CourseStatus.Completed))
            && (forall k :: 0 <= k < |store.pipelines| ==>
                  && s.pipelines[k].courseId == store.pipelines[k].courseId
                  && s.pipelines[k].waitingForApproval == store.pipelines[k].waitingForApproval
                  && (store.pipelines[k].courseId == id ==>
                        s.pipelines[k].status == if running then PipelineStatus.Running else PipelineStatus.Completed))
  {
    var pr := Prepare(req, env, store, steps);
    var id := pr.courseId;
    var n := if j < |pr.steps| then j else |pr.steps|;
    var started := MarkStarted(store, id);
    RunPipelines(started, id, pr.course, pr.steps, n, oracle);
  }

  // ---------------------------------------------------------------------------
  // Properties of the handler

  /** A body without a truthy `courseId` is refused with the handler's own message and no write. */
  lemma MissingCourseIdRefused(req: Request, env: Env, store: Store, steps: StepsQuery, oracle: Oracle)
    requires Substitutable(req, env, store, steps, oracle)
    requires req.verb != "OPTIONS" && req.body.Json? && !Truthy(req.body.courseId)
    ensures var r := Handle(req, env, store, steps, oracle);
            && r.response == Response(500, ErrorBody(MissingCourseId))
            && FailureMessage(r.response.body.failure) == "Course ID is required"
            && r.store == store
  {
  }

  /** Without the model key nothing is read or written, whatever the course. */
  lemma MissingKeyRefused(req: Request, env: Env, store: Store, steps: StepsQuery, oracle: Oracle)
    requires Substitutable(req, env, store, steps, oracle)
    requires req.verb != "OPTIONS" && req.body.Json? && Truthy(req.body.courseId) && !Truthy(env.geminiApiKey)
    ensures var r := Handle(req, env, store, steps, oracle);
            && r.response == Response(500, ErrorBody(MissingApiKey))
            && FailureMessage(r.response.body.failure) == "Gemini API key not configured"
            && r.store == store
  {
  }

  /**
   * The failure path's status writes never happen: the body it re-reads has
   * already been consumed, so no course id is recovered.
   */
  lemma CatchPathWritesNothing(req: Request, f: Failure, store: Store)
    ensures CatchPath(f, store, RereadBody(req, true)).store == store
    ensures req.body.Json? && Truthy(req.body.courseId) ==>
              CatchPath(f, store, RereadBody(req, false)).store == MarkFailed(store, req.body.courseId.value, f)
  {
  }

  /**
   * A successful request leaves this course completed and every one of its
   * pipeline rows completed at 100 percent, at the last step's order (or step
   * 1 when there are no steps); every other course and pipeline is untouched.
   */
  lemma SuccessCompletesCourse(req: Request, env: Env, store: Store, steps: StepsQuery, oracle: Oracle)
    requires Substitutable(req, env, store, steps, oracle)
    requires req.verb != "OPTIONS" && Prepare(req, env, store, steps).Ready?
    ensures var r := Handle(req, env, store, steps, oracle);
            var id := req.body.courseId.value;
            && r.response == Response(200, Generated(SuccessMessage))
            && |r.store.courses| == |store.courses|
            && (forall k :: 0 <= k < |store.courses| ==>
                  r.store.courses[k] == if store.courses[k].id == id
                                        then store.courses[k].(status := CourseStatus.Completed)
                                        else store.courses[k])
            && |r.store.pipelines| == |store.pipelines|
            && (forall k :: 0 <= k < |store.pipelines| ==>
                  var p, p' := store.pipelines[k], r.store.pipelines[k];
                  if p.courseId != id then p' == p
                  else p' == p.(status := PipelineStatus.Completed, progressPercent := 100,
                                currentStep := if |steps.rows| == 0 then 1 else steps.rows[|steps.rows| - 1].stepOrder))
  {
    var id := req.body.courseId.value;
    var pr := Prepare(req, env, store, steps);
    var started := MarkStarted(store, id);
    RunPipelines(started, id, pr.course, pr.steps, |pr.steps|, oracle);
  }

  /**
   * A successful request writes no material row of another course nor of a
   * type no step produces, and leaves each row of a produced type as the last
   * step of that type decided: completed with its text, or failed.
   */
  lemma SuccessMaterialRows(req: Request, env: Env, store: Store, steps: StepsQuery, oracle: Oracle, k: nat)
    requires Substitutable(req, env, store, steps, oracle)
    requires req.verb != "OPTIONS" && Prepare(req, env, store, steps).Ready?
    requires k < |store.materials|
    ensures var r := Handle(req, env, store, steps, oracle);
            var id, rows, m := req.body.courseId.value, steps.rows, store.materials[k];
            && |r.outcomes| == |rows|
            && |r.store.materials| == |store.materials|
            && (!TouchedBefore(id, rows, |rows|, m) ==> r.store.materials[k] == m)
            && (forall i :: 0 <= i < |rows| && StepRow(id, rows[i].materialType, m) && LastOfType(rows, i) ==>
                    && (r.store.materials[k].status == MaterialStatus.Completed <==> r.outcomes[i].Succeeded?)
                    && (r.store.materials[k].status == MaterialStatus.Failed <==> r.outcomes[i].StepFailed?)
                    && (r.outcomes[i].Succeeded? ==> r.store.materials[k].content == Some(r.outcomes[i].text)))
  {
    var id := req.body.courseId.value;
    var pr := Prepare(req, env, store, steps);
    var started := MarkStarted(store, id);
    assert started.materials == store.materials;
    if !TouchedBefore(id, pr.steps, |pr.steps|, store.materials[k]) {
      RunLeavesOtherRows(started, id, pr.course, pr.steps, |pr.steps|, oracle, k);
    }
    forall i | 0 <= i < |pr.steps| && StepRow(id, pr.steps[i].materialType, store.materials[k]) && LastOfType(pr.steps, i)
      ensures var fin := Run(started, id, pr.course, pr.steps, |pr.steps|, oracle);
              var m, o := fin.store.materials[k], fin.outcomes[i];
              && (m.status == MaterialStatus.Completed <==> o.Succeeded?)
              && (m.status == MaterialStatus.Failed <==> o.StepFailed?)
              && (o.Succeeded? ==> m.content == Some(o.text))
    {
      LastStepDecides(started, id, pr.course, pr.steps, k, i, oracle);
    }
  }
}

=== FILE: material_editor.dfy ===
/**
 * The editor of one material: the text it opens with, which of its actions
 * are available, and its version history (`material_versions`), loaded
 * newest first and at most five rows at a time. A save numbers the new
 * version after the loaded history, so the numbers stop growing at six.
 */
module MaterialEditor {
  import opened Wrappers
  import opened Text
  import opened Query
  import opened Records

  /** A row of `material_versions`. */
  datatype Version = Version(materialId: string, content: string, versionNumber: int)

  /** The most versions one load shows. */
  const HistoryLimit := 5

  // ---------------------------------------------------------------------------
  // The edited text and the available actions

  /** `approved_content || content`: edits take precedence over the generated text. */
  function EffectiveContent(m: Material): (r: Option<string>)
    ensures Truthy(m.approvedContent) ==> r == m.approvedContent
    ensures !Truthy(m.approvedContent) ==> r == m.content
  {
    if Truthy(m.approvedContent) then m.approvedContent else m.content
  }

  /**
   * The text the editor shows once it has opened `m`: the effective content
   * when there is generated content, otherwise the empty text.
   */
  function InitialEditText(m: Material): (t: string)
    ensures Truthy(m.content) ==> Some(t) == EffectiveContent(m)
    ensures !Truthy(m.content) ==> t == ""
  {
    var initial := OrElse(m.content, "");
    if Truthy(m.content) then OrElse(m.approvedContent, m.content.value) else initial
  }

  /** What the editor lets the user do. */
  datatype Actions = Actions(canEdit: bool, canSave: bool, canApproveReject: bool, canGenerateNext: bool)

  /**
   * Lines 219-261: the text area is locked while the material generates; save
   * needs an idle editor and text that differs from the effective content;
   * approve and reject need generated content still pending review; the next
   * material can be requested when the viewer allows it and no run is going.
   */
  function AvailableActions(m: Material, edit: string, saving: bool, canProceedToNext: bool, isGenerating: bool): (a: Actions)
    ensures a.canEdit <==> m.status != MaterialStatus.Generating
    ensures a.canSave <==> !saving && Some(edit) != EffectiveContent(m)
    ensures a.canApproveReject <==> Truthy(m.content) && m.approval == Approval.Pending
    ensures a.canGenerateNext <==> canProceedToNext && !isGenerating
  {
    Actions(
      m.status != MaterialStatus.Generating,
      !(saving || Some(edit) == EffectiveContent(m)),
      Truthy(m.content) && m.approval == Approval.Pending,
      canProceedToNext && !isGenerating)
  }

  /**
   * An editor just opened on generated content has nothing to save; one
   * opened on a row with edits but no generated content starts empty and
   * can save at once.
   */
  lemma OpenedEditorState(m: Material, canProceedToNext: bool, isGenerating: bool)
    ensures Truthy(m.content) ==>
              !AvailableActions(m, InitialEditText(m), false, canProceedToNext, isGenerating).canSave
    ensures !Truthy(m.content) && Truthy(m.approvedContent) ==>
              AvailableActions(m, InitialEditText(m), false, canProceedToNext, isGenerating).canSave
  {
  }

  // ---------------------------------------------------------------------------
  // Version history

  /** The rows of `table` that belong to material `id`. */
  function VersionsOf(table: seq<Version>, id: string): seq<Version> {
    Filter(table, BelongsTo(id))
  }

  /** `.eq('material_id', id)`. */
  function BelongsTo(id: string): Version -> bool {
    (v: Version) => v.materialId == id
  }

  /** How many versions material `id` has. */
  function VersionCount(table: seq<Version>, id: string): nat {
    Count(table, BelongsTo(id))
  }

  /** At most `HistoryLimit`. */
  function Capped(n: int): int {
    if n <= HistoryLimit then n else HistoryLimit
  }

  /** Newest first: `.order('version_number', { ascending: false })` as an ascending sort on the negated number. */
  function NewestFirst(vs: seq<Version>): (r: seq<Version>)
    ensures |r| == |vs| && multiset(r) == multiset(vs)
    ensures forall i, j :: 0 <= i < j < |r| ==> r[i].versionNumber >= r[j].versionNumber
  {
    var r := SortBy(vs, (v: Version) => -v.versionNumber);
    assert forall i, j :: 0 <= i < j < |r| ==> -r[i].versionNumber <= -r[j].versionNumber;
    r
  }

  /**
   * `loadVersions`: the material's five highest-numbered versions, highest
   * first. A failed query yields no data, which the editor shows as no
   * versions.
   */
  function LoadVersions(table: seq<Version>, id: string, ok: bool): (vs: seq<Version>)
    ensures !ok ==> vs == []
    ensures ok ==> vs <= NewestFirst(VersionsOf(table, id))
    ensures ok ==> |vs| == if |VersionsOf(table, id)| <= HistoryLimit then |VersionsOf(table, id)| else HistoryLimit
    ensures forall i, j :: 0 <= i < j < |vs| ==> vs[i].versionNumber >= vs[j].versionNumber
  {
    if !ok then [] else Limit(NewestFirst(VersionsOf(table, id)), HistoryLimit)
  }

  /** Every loaded version is a row of the table that belongs to the material. */
  lemma LoadedBelong(table: seq<Version>, id: string, ok: bool)
    ensures var vs := LoadVersions(table, id, ok);
            forall k :: 0 <= k < |vs| ==> vs[k] in table && vs[k].materialId == id
  {
    var vs := LoadVersions(table, id, ok);
    var mine := VersionsOf(table, id);
    forall k | 0 <= k < |vs| ensures vs[k] in table && vs[k].materialId == id {
      assert vs[k] in multiset(NewestFirst(mine));
      assert vs[k] in mine;
    }
  }

  /** The versions a load leaves out are no newer than any it shows. */
  lemma LoadedAreNewest(table: seq<Version>, id: string)
    ensures var vs := LoadVersions(table, id, true);
            forall v, k :: v in VersionsOf(table, id) && v !in vs && 0 <= k < |vs| ==>
              v.versionNumber <= vs[k].versionNumber
  {
    var mine := VersionsOf(table, id);
    var sorted := NewestFirst(mine);
    var vs := LoadVersions(table, id, true);
    forall v, k | v in mine && v !in vs && 0 <= k < |vs| ensures v.versionNumber <= vs[k].versionNumber {
      assert v in multiset(sorted);
      var j :| 0 <= j < |sorted| && sorted[j] == v;
      assert j >= |vs|;
      assert vs[k] == sorted[k];
    }
  }

  /** `versions.length + 1`: the number a save gives its new version. */
  function NextVersionNumber(loaded: seq<Version>): (n: int)
    ensures n >= 1
  {
    |loaded| + 1
  }

  /** Whether the material's `onSave` and the version insert succeed. */
  datatype SaveOutcome = SaveOutcome(saveOk: bool, insertOk: bool)

  /**
   * `handleSave`: the material is saved first; only a save that did not throw
   * is followed by the version insert, whose own error is not checked.
   */
  function HandleSave(m: Material, edit: string, loaded: seq<Version>, table: seq<Version>, o: SaveOutcome): (r: seq<Version>)
    ensures !o.saveOk || !o.insertOk ==> r == table
    ensures o.saveOk && o.insertOk ==> r == table + [Version(m.id, edit, NextVersionNumber(loaded))]
  {
    if o.saveOk && o.insertOk then table + [Version(m.id, edit, NextVersionNumber(loaded))] else table
  }

  /** The number the next save gets, from the table as it is: one more than the versions it has, capped at six. */
  lemma NextNumberFromTable(table: seq<Version>, id: string)
    ensures NextVersionNumber(LoadVersions(table, id, true)) == Capped(VersionCount(table, id)) + 1
  {
    FilterLength(table, BelongsTo(id));
  }

  /**
   * One successful save, after which the editor reloads the history: the
   * new version is numbered one past the capped count of the material's
   * versions (see `SaveOnceIsHandleSave`).
   */
  function SaveOnce(m: Material, edit: string, table: seq<Version>): (r: seq<Version>)
    ensures VersionCount(r, m.id) == VersionCount(table, m.id) + 1
  {
    var v := Version(m.id, edit, Capped(VersionCount(table, m.id)) + 1);
    CountAppend(table, v, BelongsTo(m.id));
    table + [v]
  }

  /** `SaveOnce` is `handleSave` with both writes succeeding, numbered from the versions a load shows. */
  lemma SaveOnceIsHandleSave(m: Material, edit: string, table: seq<Version>)
    ensures SaveOnce(m, edit, table) == HandleSave(m, edit, LoadVersions(table, m.id, true), table, SaveOutcome(true, true))
  {
    NextNumberFromTable(table, m.id);
  }

  /** The table after saving each of `edits` in turn. */
  function SaveAll(m: Material, edits: seq<string>, table: seq<Version>): (r: seq<Version>)
    ensures |r| == |table| + |edits|
    decreases |edits|
  {
    if |edits| == 0 then table else SaveAll(m, edits[1..], SaveOnce(m, edits[0], table))
  }

  /** Later saves only append to the table. */
  lemma {:induction false} PrefixKept(m: Material, edits: seq<string>, table: seq<Version>, i: nat)
    requires i < |table|
    ensures SaveAll(m, edits, table)[i] == table[i]
    decreases |edits|
  {
    if |edits| > 0 {
      PrefixKept(m, edits[1..], SaveOnce(m, edits[0], table), i);
    }
  }

  /**
   * Saving a material that already has `n` versions: the `k`-th further save
   * is numbered `min(n + k, 5) + 1`, so numbers never exceed six and every
   * save from the sixth on repeats six.
   */
  lemma {:induction false} SaveNumbering(m: Material, edits: seq<string>, table: seq<Version>, k: nat)
    requires k < |edits|
    ensures SaveAll(m, edits, table)[|table| + k] == Version(m.id, edits[k], Capped(VersionCount(table, m.id) + k) + 1)
    decreases k
  {
    if k == 0 {
      FirstSaveNumber(m, edits, table);
    } else {
      var n := VersionCount(table, m.id);
      var next := SaveOnce(m, edits[0], table);
      assert |next| == |table| + 1 && VersionCount(next, m.id) == n + 1;
      SaveAllStep(m, edits, table);
      SaveNumbering(m, edits[1..], next, k - 1);
      assert edits[1..][k - 1] == edits[k];
      assert SaveAll(m, edits, table)[|table| + k] == SaveAll(m, edits[1..], next)[|next| + (k - 1)];
    }
  }

  lemma SaveAllStep(m: Material, edits: seq<string>, table: seq<Version>)
    requires |edits| > 0
    ensures SaveAll(m, edits, table) == SaveAll(m, edits[1..], SaveOnce(m, edits[0], table))
  {
  }

  /** The first of several saves is numbered from the table it starts with. */
  lemma FirstSaveNumber(m: Material, edits: seq<string>, table: seq<Version>)
    requires |edits| > 0
    ensures SaveAll(m, edits, table)[|table|] == Version(m.id, edits[0], Capped(VersionCount(table, m.id)) + 1)
  {
    var next := SaveOnce(m, edits[0], table);
    SaveAllStep(m, edits, table);
    PrefixKept(m, edits[1..], next, |table|);
  }

  /** Five or more versions: two saves in a row both insert version six. */
  lemma VersionNumbersRepeat(m: Material, a: string, b: string, table: seq<Version>)
    requires VersionCount(table, m.id) >= HistoryLimit
    ensures var r := SaveAll(m, [a, b], table);
            r[|table|].versionNumber == r[|table| + 1].versionNumber == HistoryLimit + 1
  {
    SaveNumbering(m, [a, b], table, 0);
    SaveNumbering(m, [a, b], table, 1);
  }
}

=== FILE: materials_viewer.dfy ===
/**
 * The course page: what it loads, the review actions it performs on a
 * material row (save an edit, approve, reject), starting generation, and the
 * predicates that decide which controls it shows.
 *
 * Each review action writes one row and then reloads the page's data; a
 * write error is thrown to the editor, which reports it, and nothing is
 * reloaded.
 */
module MaterialsViewer {
  import opened Wrappers
  import opened Text
  import opened Query
  import opened Records
  import Generation
  import MaterialEditor
  import CourseBuilder

  /** The component's state. */
  datatype View = View(
    courseId: string,
    course: Option<Course>,
    materials: seq<Material>,
    pipeline: Option<Pipeline>,
    loading: bool,
    editing: Option<Material>,
    generationStarted: bool)

  /** The state before the first load. */
  function InitialView(courseId: string): View {
    View(courseId, None, [], None, true, None, false)
  }

  // ---------------------------------------------------------------------------
  // Loading

  /** Whether each of the three reads reaches the database. */
  datatype Reads = Reads(courseOk: bool, materialsOk: bool, pipelineOk: bool)

  function StepOrderKey(m: Material): int {
    m.stepOrder
  }

  /**
   * `loadData`: the course and its pipeline by `.single()` and its materials
   * by step order. Any error leaves the loaded data as it was; loading ends
   * either way.
   */
  function LoadData(v: View, store: Store, access: Reads): (r: View)
    ensures r.courseId == v.courseId && !r.loading
    ensures r.editing == v.editing && r.generationStarted == v.generationStarted
    ensures r.course != v.course ==> r.course.Some? && r.course.value.id == v.courseId && r.course.value in store.courses
    ensures SortedBy(r.materials, StepOrderKey) || r.materials == v.materials
    ensures r.materials == v.materials ||
            multiset(r.materials) == multiset(Filter(store.materials, OfCourse(v.courseId)))
    // all three reads succeed and both `.single()` calls find exactly one row
    ensures var course := Single(Filter(store.courses, CourseWithId(v.courseId)));
            var pipeline := Single(Filter(store.pipelines, PipelineOf(v.courseId)));
            if access.courseOk && access.materialsOk && access.pipelineOk && course.Some? && pipeline.Some? then
              && r.course == course && r.pipeline == pipeline
              && r.materials == SortBy(Filter(store.materials, OfCourse(v.courseId)), StepOrderKey)
            else r == v.(loading := false)
  {
    var course := Single(Filter(store.courses, CourseWithId(v.courseId)));
    var materials := SortBy(Filter(store.materials, OfCourse(v.courseId)), StepOrderKey);
    var pipeline := Single(Filter(store.pipelines, PipelineOf(v.courseId)));
    if !access.courseOk || course.None? || !access.materialsOk || !access.pipelineOk || pipeline.None? then
      v.(loading := false)
    else
      v.(course := course, materials := materials, pipeline := pipeline, loading := false)
  }

  // ---------------------------------------------------------------------------
  // Review actions on one row

  /** Lines 217-220: the edit becomes `approved_content`, stamped with `now`. */
  function SaveEdit(m: Material, content: string, now: string): (r: Material)
    ensures r.approvedContent == Some(content) && r.editedAt == Some(now)
    ensures r.(approvedContent := m.approvedContent, editedAt := m.editedAt) == m
  {
    m.(approvedContent := Some(content), editedAt := Some(now))
  }

  /** Lines 231-233: the row is approved. */
  function Approve(m: Material): (r: Material)
    ensures r.approval == Approval.Approved
    ensures r.(approval := m.approval) == m
  {
    m.(approval := Approval.Approved)
  }

  /** Lines 245-248: the row is rejected and back to pending. */
  function Reject(m: Material): (r: Material)
    ensures r.approval == Approval.Rejected && r.status == MaterialStatus.Pending
    ensures r.(approval := m.approval, status := m.status) == m
  {
    m.(approval := Approval.Rejected, status := MaterialStatus.Pending)
  }

  /** `.update(f).eq('id', id)` on `course_materials`. */
  function UpdateMaterial(store: Store, id: string, f: Material -> Material): (s: Store)
    ensures s.courses == store.courses && s.pipelines == store.pipelines
    ensures |s.materials| == |store.materials|
    ensures forall k :: 0 <= k < |store.materials| ==>
              s.materials[k] == if store.materials[k].id == id then f(store.materials[k]) else store.materials[k]
  {
    store.(materials := UpdateWhere(store.materials, (m: Material) => m.id == id, f))
  }

  /** The three review actions of the editor. */
  datatype Review = SaveAs(content: string, now: string) | ApproveIt | RejectIt

  function ReviewUpdate(a: Review): Material -> Material {
    match a
    case SaveAs(content, now) => (m: Material) => SaveEdit(m, content, now)
    case ApproveIt => Approve
    case RejectIt => Reject
  }

  /**
   * `handleMaterialSave` / `handleMaterialApprove` / `handleMaterialReject`:
   * a failed write changes nothing; a successful one reloads, and approve and
   * reject also close the editor.
   */
  function ReviewMaterial(v: View, store: Store, id: string, a: Review, writeOk: bool, access: Reads): (r: (View, Store))
    ensures !writeOk ==> r == (v, store)
    ensures writeOk ==> r.1 == UpdateMaterial(store, id, ReviewUpdate(a))
    ensures writeOk ==> r.0.editing == if a.SaveAs? then v.editing else None
    ensures writeOk ==> r.0.(editing := v.editing) == LoadData(v, r.1, access)
  {
    if !writeOk then (v, store)
    else
      var s := UpdateMaterial(store, id, ReviewUpdate(a));
      var loaded := LoadData(v, s, access);
      if a.SaveAs? then (loaded, s) else (loaded.(editing := None), s)
  }

  /**
   * A saved non-empty edit becomes the text the editor treats as current;
   * saving the empty text falls back to the generated content. The generated
   * content and both statuses are kept.
   */
  lemma SaveBecomesEffective(m: Material, content: string, now: string)
    ensures var r := SaveEdit(m, content, now);
            && (content != "" ==> MaterialEditor.EffectiveContent(r) == Some(content))
            && (content == "" ==> MaterialEditor.EffectiveContent(r) == m.content)
            && r.content == m.content && r.status == m.status && r.approval == m.approval
  {
  }

  /**
   * Approval and rejection both end the review: neither action is offered
   * again for that row, and the editor cannot save while its text matches.
   */
  lemma ReviewEndsReview(m: Material, edit: string, canProceed: bool, isGenerating: bool)
    ensures !MaterialEditor.AvailableActions(Approve(m), edit, false, canProceed, isGenerating).canApproveReject
    ensures !MaterialEditor.AvailableActions(Reject(m), edit, false, canProceed, isGenerating).canApproveReject
  {
  }

  /**
   * A rejected row stays rejected through a whole generation run: the run
   * only writes `status` and `content`, so review is never offered for it
   * again.
   */
  lemma RejectionSurvivesGeneration(req: Generation.Request, env: Generation.Env, store: Store,
                                    steps: Generation.StepsQuery, oracle: Generation.Oracle, k: nat)
    requires Generation.Substitutable(req, env, store, steps, oracle)
    requires k < |store.materials| && store.materials[k].approval == Approval.Rejected
    ensures var r := Generation.Handle(req, env, store, steps, oracle);
            k < |r.store.materials| && r.store.materials[k].approval == Approval.Rejected
  {
    var r := Generation.Handle(req, env, store, steps, oracle);
    if req.verb != "OPTIONS" && Generation.Prepare(req, env, store, steps).Ready? {
      var pr := Generation.Prepare(req, env, store, steps);
      var id := req.body.courseId.value;
      var started := Generation.MarkStarted(store, id);
      assert started.materials == store.materials;
      Generation.MaterialKeysStable(started, id, pr.course, pr.steps, k, |pr.steps|, oracle);
    }
  }

  // ---------------------------------------------------------------------------
  // Starting generation

  /**
   * How the invocation ends for the page: the request never reached the
   * function; the function's answer arrived; or the function ran its first
   * `stepsDone` steps (all of them when `stepsDone` is at least the number of
   * steps) but its answer was lost, as with a relay error or the platform's
   * time limit, and `invoke` reports an error.
   */
  datatype Delivery = NotDelivered | Answered | AnswerLost(stepsDone: nat)

  /**
   * `startGeneration`: the flag is raised, the generation function is
   * invoked with the course id, and the flag is lowered again when the call
   * reports an error (the request or the answer was lost, or the function
   * answered non-2xx).
   */
  function StartGeneration(v: View, store: Store, d: Delivery, env: Generation.Env,
                           steps: Generation.StepsQuery, oracle: Generation.Oracle): (r: (View, Store))
    requires Generation.Substitutable(StartRequest(v.courseId), env, store, steps, oracle)
    ensures d.NotDelivered? ==> r == (v.(generationStarted := false), store)
    ensures d.Answered? ==> r.1 == Generation.Handle(StartRequest(v.courseId), env, store, steps, oracle).store
    ensures d.AnswerLost? ==> r.1 == Generation.Interrupted(StartRequest(v.courseId), env, store, steps, oracle, d.stepsDone)
    ensures r.0 == v.(generationStarted := r.0.generationStarted)
    ensures r.0.generationStarted <==>
              d.Answered? && Generation.Handle(StartRequest(v.courseId), env, store, steps, oracle).response.status == 200
  {
    match d
    case NotDelivered => (v.(generationStarted := false), store)
    case AnswerLost(j) =>
      (v.(generationStarted := false), Generation.Interrupted(StartRequest(v.courseId), env, store, steps, oracle, j))
    case Answered =>
      var answer := Generation.Handle(StartRequest(v.courseId), env, store, steps, oracle);
      (v.(generationStarted := answer.response.status == 200), answer.store)
  }

  /**
   * The request `supabase.functions.invoke` sends. `generateNextMaterial`
   * also sends `continueGeneration: true`, which the function never reads,
   * so it sends the same request.
   */
  function StartRequest(courseId: string): Generation.Request {
    Generation.Request("POST", Generation.Json(Some(courseId)))
  }

  // ---------------------------------------------------------------------------
  // Derived predicates (lines 270-274)

  predicate CanStartGeneration(v: View) {
    v.course.Some? && v.course.value.status == CourseStatus.Draft && !v.generationStarted
  }

  predicate IsInProgress(v: View) {
    v.pipeline.Some? && (v.pipeline.value.status == PipelineStatus.Running || v.pipeline.value.waitingForApproval)
  }

  /** The loaded material the pipeline points at. */
  function CurrentMaterial(v: View): (r: Option<Material>)
    ensures r.Some? <==> v.pipeline.Some? && v.pipeline.value.currentMaterialId.Some? &&
                         exists k :: 0 <= k < |v.materials| && v.materials[k].id == v.pipeline.value.currentMaterialId.value
    ensures r.Some? ==> r.value in v.materials && Some(r.value.id) == v.pipeline.value.currentMaterialId
  {
    if v.pipeline.None? || v.pipeline.value.currentMaterialId.None? then None
    else
      var id := v.pipeline.value.currentMaterialId.value;
      Find(v.materials, (m: Material) => m.id == id)
  }

  /** `(currentMaterial?.step_order || 0) + 1`: the order after the current one, or 1. */
  function NextOrder(v: View): int {
    var current := CurrentMaterial(v);
    (if current.Some? then current.value.stepOrder else 0) + 1
  }

  /** The first loaded material at `NextOrder`. */
  function NextMaterial(v: View): (r: Option<Material>)
    ensures r.Some? <==> exists k :: 0 <= k < |v.materials| && v.materials[k].stepOrder == NextOrder(v)
    ensures r.Some? ==> r.value in v.materials && r.value.stepOrder == NextOrder(v)
  {
    var target := NextOrder(v);
    Find(v.materials, (m: Material) => m.stepOrder == target)
  }

  predicate CanProceedToNext(v: View) {
    var current := CurrentMaterial(v);
    current.Some? && current.value.approval == Approval.Approved && NextMaterial(v).Some?
  }

  /**
   * Proceeding needs an approved current material and a loaded material one
   * step further on; so at the last step of the plan there is nowhere to go.
   */
  lemma CanProceedExactly(v: View)
    ensures CanProceedToNext(v) <==>
              && CurrentMaterial(v).Some?
              && CurrentMaterial(v).value.approval == Approval.Approved
              && exists k :: 0 <= k < |v.materials| && v.materials[k].stepOrder == CurrentMaterial(v).value.stepOrder + 1
    ensures (&& CurrentMaterial(v).Some?
             && (forall k :: 0 <= k < |v.materials| ==> v.materials[k].stepOrder <= 8)
             && CurrentMaterial(v).value.stepOrder == 8) ==> !CanProceedToNext(v)
  {
  }

  /** A failed start brings the start button back for a draft course; a successful one removes it. */
  lemma StartGenerationGate(v: View, store: Store, d: Delivery, env: Generation.Env,
                            steps: Generation.StepsQuery, oracle: Generation.Oracle)
    requires Generation.Substitutable(StartRequest(v.courseId), env, store, steps, oracle)
    ensures var r := StartGeneration(v, store, d, env, steps, oracle);
            var ok := d.Answered? && Generation.Handle(StartRequest(v.courseId), env, store, steps, oracle).response.status == 200;
            && (ok ==> !CanStartGeneration(r.0))
            && (!ok ==> (CanStartGeneration(r.0) <==> v.course.Some? && v.course.value.status == CourseStatus.Draft))
  {
  }

  /**
   * When the answer is lost after the function started, the flag is lowered,
   * but the run's writes reload the page (it listens for changes to the
   * course's materials and pipeline): the course is no longer a draft, so the
   * start button does not come back, and while steps remain the run shows as
   * in progress.
   */
  lemma LostAnswerShowsRun(v: View, store: Store, j: nat, env: Generation.Env,
                           steps: Generation.StepsQuery, oracle: Generation.Oracle, p0: Pipeline)
    requires Generation.Substitutable(StartRequest(v.courseId), env, store, steps, oracle)
    requires Generation.Prepare(StartRequest(v.courseId), env, store, steps).Ready?
    requires Filter(store.pipelines, PipelineOf(v.courseId)) == [p0]
    ensures var r := StartGeneration(v, store, AnswerLost(j), env, steps, oracle);
            var w := LoadData(r.0, r.1, Reads(true, true, true));
            && !r.0.generationStarted
            && w.course.Some? && w.pipeline.Some?
            && !CanStartGeneration(w)
            && (j < |steps.rows| ==> IsInProgress(w))
            // after the last step only a pipeline already waiting for approval shows as in progress
            && (j >= |steps.rows| ==>
                  (IsInProgress(w) <==> p0.waitingForApproval))
  {
    var req := StartRequest(v.courseId);
    var s := Generation.Interrupted(req, env, store, steps, oracle, j);
    var running := j < |steps.rows|;
    assert StartGeneration(v, store, AnswerLost(j), env, steps, oracle) == (v.(generationStarted := false), s);
    Generation.InterruptedStatus(req, env, store, steps, oracle, j);
    ReloadSeesStatus(v.(generationStarted := false), store, s, p0,
                     if running then CourseStatus.Generating else CourseStatus.Completed,
                     if running then PipelineStatus.Running else PipelineStatus.Completed);
  }

  /**
   * A reload after writes that keep every row's key and set the course's
   * and its pipeline's status finds the one course and the one pipeline, in
   * those statuses.
   */
  lemma ReloadSeesStatus(v: View, store: Store, s: Store, p0: Pipeline, cs: CourseStatus, ps: PipelineStatus)
    requires Count(store.courses, CourseWithId(v.courseId)) == 1
    requires Filter(store.pipelines, PipelineOf(v.courseId)) == [p0]
    requires |s.courses| == |store.courses| && |s.pipelines| == |store.pipelines|
    requires forall k :: 0 <= k < |store.courses| ==>
               && s.courses[k].id == store.courses[k].id
               && (store.courses[k].id == v.courseId ==> s.courses[k].status == cs)
    requires forall k :: 0 <= k < |store.pipelines| ==>
               && s.pipelines[k].courseId == store.pipelines[k].courseId
               && s.pipelines[k].waitingForApproval == store.pipelines[k].waitingForApproval
               && (store.pipelines[k].courseId == v.courseId ==> s.pipelines[k].status == ps)
    ensures var w := LoadData(v, s, Reads(true, true, true));
            && w.course.Some? && w.course.value.status == cs
            && w.pipeline.Some? && w.pipeline.value.status == ps
            && w.pipeline.value.waitingForApproval == p0.waitingForApproval
  {
    var id := v.courseId;
    CountSameSelection(store.courses, s.courses, CourseWithId(id));
    FilterLength(s.courses, CourseWithId(id));
    FilterLength(store.pipelines, PipelineOf(id));
    CountSameSelection(store.pipelines, s.pipelines, PipelineOf(id));
    FilterLength(s.pipelines, PipelineOf(id));
    var course := Filter(s.courses, CourseWithId(id))[0];
    var pipeline := Filter(s.pipelines, PipelineOf(id))[0];
    assert course in s.courses && course.id == id;
    assert pipeline in s.pipelines && pipeline.courseId == id;
    var k :| 0 <= k < |s.pipelines| && s.pipelines[k] == pipeline;
    assert store.pipelines[k] in Filter(store.pipelines, PipelineOf(id));
  }

  // ---------------------------------------------------------------------------
  // A freshly created course

  /** A submission that created course `courseId` under an id no row used before. */
  predicate FreshSubmission(user: Option<string>, f: CourseBuilder.Form, store: Store, courseId: string,
                            ids: nat -> string, db: CourseBuilder.Inserts)
  {
    && CourseBuilder.Submit(user, f, store, courseId, ids, db).created.Some?
    && (forall k :: 0 <= k < |store.courses| ==> store.courses[k].id != courseId)
    && (forall k :: 0 <= k < |store.pipelines| ==> store.pipelines[k].courseId != courseId)
    && (forall k :: 0 <= k < |store.materials| ==> store.materials[k].courseId != courseId)
  }

  /** The three queries of the page select exactly the rows the submission created. */
  lemma FreshRowsSelected(user: Option<string>, f: CourseBuilder.Form, store: Store, courseId: string,
                          ids: nat -> string, db: CourseBuilder.Inserts)
    requires FreshSubmission(user, f, store, courseId, ids, db)
    ensures var s := CourseBuilder.Submit(user, f, store, courseId, ids, db).store;
            && Filter(s.courses, CourseWithId(courseId)) == [CourseBuilder.NewCourse(courseId, user.value, f)]
            && Filter(s.pipelines, PipelineOf(courseId)) == [CourseBuilder.NewPipeline(courseId)]
            && Filter(s.materials, OfCourse(courseId)) == CourseBuilder.NewMaterials(courseId, ids)
  {
    var ms := CourseBuilder.NewMaterials(courseId, ids);
    FilterSelectsAppended(store.courses, [CourseBuilder.NewCourse(courseId, user.value, f)], CourseWithId(courseId));
    FilterSelectsAppended(store.pipelines, [CourseBuilder.NewPipeline(courseId)], PipelineOf(courseId));
    CourseBuilder.NewMaterialsMatchPipeline(courseId, ids);
    FilterSelectsAppended(store.materials, ms, OfCourse(courseId));
  }

  /**
   * Loading the page of a course just created: generation can be started,
   * nothing is in progress, there is no current material, the next material
   * is the agenda at step 1, and there is no proceeding yet.
   */
  lemma FreshCourseView(user: Option<string>, f: CourseBuilder.Form, store: Store, courseId: string,
                        ids: nat -> string, db: CourseBuilder.Inserts)
    requires FreshSubmission(user, f, store, courseId, ids, db)
    ensures var s := CourseBuilder.Submit(user, f, store, courseId, ids, db).store;
            var v := LoadData(InitialView(courseId), s, Reads(true, true, true));
            && CanStartGeneration(v)
            && !IsInProgress(v)
            && CurrentMaterial(v).None?
            && NextMaterial(v).Some? && NextMaterial(v).value.materialType == "agenda"
            && !CanProceedToNext(v)
  {
    var s := CourseBuilder.Submit(user, f, store, courseId, ids, db).store;
    var ms := CourseBuilder.NewMaterials(courseId, ids);
    FreshRowsSelected(user, f, store, courseId, ids, db);
    var v := LoadData(InitialView(courseId), s, Reads(true, true, true));
    assert v.course == Some(CourseBuilder.NewCourse(courseId, user.value, f));
    assert v.pipeline == Some(CourseBuilder.NewPipeline(courseId));
    assert multiset(v.materials) == multiset(ms);
    CourseBuilder.NewMaterialsMatchPipeline(courseId, ids);
    assert NextOrder(v) == 1;
    assert ms[0] in multiset(v.materials);
    forall k | 0 <= k < |v.materials| && v.materials[k].stepOrder == 1 ensures v.materials[k].materialType == "agenda" {
      assert v.materials[k] in multiset(ms);
    }
  }
}

=== FILE: query.dfy ===
/**
 * Table rows as the database client sees them: selection (`.eq`), ordering
 * (`.order`), `.limit`, `.single()` / `.maybeSingle()`, and `.update(...)`
 * applied to every row a filter selects.
 */
module Query {
  import opened Wrappers

  /** The rows of `s` are in non-decreasing `key` order. */
  ghost predicate SortedBy<T>(s: seq<T>, key: T -> int) {
    forall i, j :: 0 <= i < j < |s| ==> key(s[i]) <= key(s[j])
  }

  /** Inserts `x` before the first row whose key is not smaller. */
  function InsertBy<T>(x: T, s: seq<T>, key: T -> int): (r: seq<T>)
    ensures multiset(r) == multiset(s) + multiset{x}
    ensures |r| == |s| + 1
    decreases |s|
  {
    if |s| == 0 then [x]
    else if key(x) <= key(s[0]) then [x] + s
    else
      assert s == [s[0]] + s[1..];
      [s[0]] + InsertBy(x, s[1..], key)
  }

  /** Inserting into a sorted sequence keeps it sorted. */
  lemma {:induction false} InsertBySorted<T>(x: T, s: seq<T>, key: T -> int)
    requires SortedBy(s, key)
    ensures SortedBy(InsertBy(x, s, key), key)
    decreases |s|
  {
    if |s| > 0 && key(x) > key(s[0]) {
      var t := InsertBy(x, s[1..], key);
      InsertBySorted(x, s[1..], key);
      forall k | 0 <= k < |t|
        ensures key(s[0]) <= key(t[k])
      {
        assert t[k] in multiset(s[1..]) + multiset{x};
        if t[k] != x {
          assert t[k] in s[1..];
          var j :| 0 <= j < |s[1..]| && s[1..][j] == t[k];
          assert s[1..][j] == s[j + 1];
        }
      }
      assert InsertBy(x, s, key) == [s[0]] + t;
    }
  }

  /** Insertion sort by `key`: a sorted permutation of `s`. */
  function SortBy<T>(s: seq<T>, key: T -> int): (r: seq<T>)
    ensures SortedBy(r, key)
    ensures multiset(r) == multiset(s)
    ensures |r| == |s|
    decreases |s|
  {
    if |s| == 0 then []
    else
      assert s == [s[0]] + s[1..];
      var sorted := SortBy(s[1..], key);
      InsertBySorted(s[0], sorted, key);
      InsertBy(s[0], sorted, key)
  }

  /** The rows of `s` that satisfy `p`, in their original order. */
  function Filter<T>(s: seq<T>, p: T -> bool): (r: seq<T>)
    ensures |r| <= |s|
    ensures forall k :: 0 <= k < |r| ==> r[k] in s && p(r[k])
    ensures forall k :: 0 <= k < |s| && p(s[k]) ==> s[k] in r
    decreases |s|
  {
    if |s| == 0 then []
    else if p(s[0]) then [s[0]] + Filter(s[1..], p)
    else Filter(s[1..], p)
  }

  /** How many rows of `s` satisfy `p`. */
  function Count<T>(s: seq<T>, p: T -> bool): nat
    decreases |s|
  {
    if |s| == 0 then 0 else (if p(s[0]) then 1 else 0) + Count(s[1..], p)
  }

  lemma {:induction false} FilterLength<T>(s: seq<T>, p: T -> bool)
    ensures |Filter(s, p)| == Count(s, p)
    decreases |s|
  {
    if |s| > 0 {
      FilterLength(s[1..], p);
    }
  }

  /**
   * Filtering keeps the order: a selected element lands at the position given
   * by the number of selected elements before it.
   */
  lemma {:induction false} FilterPosition<T>(s: seq<T>, p: T -> bool, k: nat)
    requires k < |s| && p(s[k])
    ensures Count(s[..k], p) < |Filter(s, p)| && Filter(s, p)[Count(s[..k], p)] == s[k]
    decreases |s|
  {
    if k > 0 {
      FilterPosition(s[1..], p, k - 1);
      assert s[..k][1..] == s[1..][..k - 1];
    }
  }

  /** Appending a row adds one to the count exactly when the row satisfies `p`. */
  lemma {:induction false} CountAppend<T>(s: seq<T>, x: T, p: T -> bool)
    ensures Count(s + [x], p) == Count(s, p) + (if p(x) then 1 else 0)
    decreases |s|
  {
    if |s| > 0 {
      assert (s + [x])[1..] == s[1..] + [x];
      CountAppend(s[1..], x, p);
    } else {
      assert (s + [x])[1..] == [];
    }
  }

  /** Rows that `p` selects at the same positions have the same count. */
  lemma {:induction false} CountSameSelection<T>(a: seq<T>, b: seq<T>, p: T -> bool)
    requires |a| == |b| && forall k :: 0 <= k < |a| ==> (p(a[k]) <==> p(b[k]))
    ensures Count(a, p) == Count(b, p)
    decreases |a|
  {
    if |a| > 0 {
      assert forall k :: 0 <= k < |a| - 1 ==> a[1..][k] == a[k + 1] && b[1..][k] == b[k + 1];
      CountSameSelection(a[1..], b[1..], p);
    }
  }

  /** `.limit(n)`: the first `n` rows, or all of them when there are fewer. */
  function Limit<T>(s: seq<T>, n: nat): (r: seq<T>)
    ensures |r| == if |s| <= n then |s| else n
    ensures r <= s
  {
    if |s| <= n then s else s[..n]
  }

  /** `.single()`: the row when exactly one was selected, otherwise an error (`None`). */
  function Single<T>(rows: seq<T>): (r: Option<T>)
    ensures r.Some? <==> |rows| == 1
    ensures r.Some? ==> r.value == rows[0]
  {
    if |rows| == 1 then Some(rows[0]) else None
  }

  /** `.update(f).eq(...)`: rewrites every row selected by `p` and no other. */
  function UpdateWhere<T>(rows: seq<T>, p: T -> bool, f: T -> T): (r: seq<T>)
    ensures |r| == |rows|
    ensures forall k :: 0 <= k < |rows| ==> r[k] == if p(rows[k]) then f(rows[k]) else rows[k]
  {
    seq(|rows|, k requires 0 <= k < |rows| => if p(rows[k]) then f(rows[k]) else rows[k])
  }

  /** No row before position `k` satisfies `p`. */
  predicate NoneBefore<T>(s: seq<T>, p: T -> bool, k: int)
    requires k <= |s|
  {
    forall l :: 0 <= l < k ==> !p(s[l])
  }

  /** `.find(p)`: the first row satisfying `p`, if any. */
  function Find<T>(s: seq<T>, p: T -> bool): (r: Option<T>)
    ensures r.Some? <==> exists k :: 0 <= k < |s| && p(s[k])
    ensures r.Some? ==> exists k :: 0 <= k < |s| && s[k] == r.value && p(s[k]) && NoneBefore(s, p, k)
    decreases |s|
  {
    if |s| == 0 then None
    else if p(s[0]) then Some(s[0])
    else
      FindShift(s, p);
      Find(s[1..], p)
  }

  /** When the first row does not satisfy `p`, a first match in the tail is a first match in `s`. */
  lemma FindShift<T>(s: seq<T>, p: T -> bool)
    requires |s| > 0 && !p(s[0])
    ensures forall k :: 0 <= k < |s| - 1 && NoneBefore(s[1..], p, k) ==> s[k + 1] == s[1..][k] && NoneBefore(s, p, k + 1)
  {
    forall k | 0 <= k < |s| - 1 && NoneBefore(s[1..], p, k)
      ensures NoneBefore(s, p, k + 1)
    {
      forall l | 0 <= l < k + 1 ensures !p(s[l]) {
        if l > 0 { assert s[l] == s[1..][l - 1]; }
      }
    }
  }

  /** Selecting from two tables' worth of rows selects from each in turn. */
  lemma {:induction false} FilterAppend<T>(s: seq<T>, t: seq<T>, p: T -> bool)
    ensures Filter(s + t, p) == Filter(s, p) + Filter(t, p)
    decreases |s|
  {
    if |s| > 0 {
      assert (s + t)[1..] == s[1..] + t;
      FilterAppend(s[1..], t, p);
    } else {
      assert s + t == t;
    }
  }

  /** A filter no row satisfies selects nothing; one every row satisfies selects everything. */
  lemma {:induction false} FilterNoneOrAll<T>(s: seq<T>, p: T -> bool)
    ensures (forall k :: 0 <= k < |s| ==> !p(s[k])) ==> Filter(s, p) == []
    ensures (forall k :: 0 <= k < |s| ==> p(s[k])) ==> Filter(s, p) == s
    decreases |s|
  {
    if |s| > 0 {
      FilterNoneOrAll(s[1..], p);
      assert s == [s[0]] + s[1..];
    }
  }

  /** Appending rows that all match to rows none of which match: the filter selects exactly the appended rows. */
  lemma FilterSelectsAppended<T>(s: seq<T>, t: seq<T>, p: T -> bool)
    requires forall k :: 0 <= k < |s| ==> !p(s[k])
    requires forall k :: 0 <= k < |t| ==> p(t[k])
    ensures Filter(s + t, p) == t
  {
    FilterAppend(s, t, p);
    FilterNoneOrAll(s, p);
    FilterNoneOrAll(t, p);
  }
}

=== FILE: records.dfy ===
/**
 * The rows of the three tables the course-material workflow reads and writes:
 * `courses`, `course_materials` and `generation_pipelines`. Column names follow
 * the database schema; timestamps other than `edited_at` are not modelled.
 */
module Records {
  import opened Wrappers

  /** `courses.status`. */
  datatype CourseStatus = Draft | Generating | Completed | Failed

  /** `course_materials.status`. */
  datatype MaterialStatus = Pending | Generating | Completed | Failed

  /** `course_materials.approval_status`. */
  datatype Approval = Pending | Approved | Rejected

  /** `generation_pipelines.status`. */
  datatype PipelineStatus = Pending | Running | Completed | Failed

  /** A row of `courses`. The form's enumerations are stored as their text. */
  datatype Course = Course(
    id: string,
    userId: string,
    title: string,
    description: string,
    subject: string,
    duration: string,
    level: string,
    environment: string,
    tone: string,
    language: string,
    status: CourseStatus)

  /** A row of `course_materials`. */
  datatype Material = Material(
    id: string,
    courseId: string,
    materialType: string,
    stepOrder: int,
    title: string,
    content: Option<string>,
    approvedContent: Option<string>,
    approval: Approval,
    status: MaterialStatus,
    editedAt: Option<string>,
    filePath: Option<string>,
    downloadUrl: Option<string>)

  /** A row of `generation_pipelines` (one per course, keyed by `course_id`). */
  datatype Pipeline = Pipeline(
    courseId: string,
    currentStep: int,
    totalSteps: int,
    progressPercent: int,
    status: PipelineStatus,
    errorMessage: Option<string>,
    currentMaterialId: Option<string>,
    waitingForApproval: bool)

  /** The database: the three tables as sequences of rows. */
  datatype Store = Store(courses: seq<Course>, pipelines: seq<Pipeline>, materials: seq<Material>)

  /** `.eq('id', id)` on `courses`. */
  function CourseWithId(id: string): Course -> bool {
    (c: Course) => c.id == id
  }

  /** `.eq('course_id', id)` on `generation_pipelines`. */
  function PipelineOf(id: string): Pipeline -> bool {
    (p: Pipeline) => p.courseId == id
  }

  /** `.eq('course_id', id)` on `course_materials`. */
  function OfCourse(id: string): Material -> bool {
    (m: Material) => m.courseId == id
  }

  /**
   * The `approval_status` a new material row receives. The creating insert
   * does not set the column; its default lives in the database schema.
   */
  const DefaultApproval: Approval := Approval.Pending
}

=== FILE: text.dfy ===
/**
 * The JavaScript string operations the course-material code relies on, over
 * `string` (a sequence of characters):
 *  - `s.replace(/lit/g, rep)` with a literal pattern        -> ReplaceAll
 *  - `s.split(lit)` and `parts.join(sep)`                    -> Split, Join
 *  - `s.trim()` and the `\s` character class                 -> Trim, IsSpace
 *  - `s.substring(0, n)`                                     -> Prefix
 *  - truthiness of a nullable string and `a || b`            -> Truthy, OrElse
 */
module Text {
  import opened Wrappers

  /** JavaScript truthiness of a nullable string: `null` and `""` are falsy. */
  predicate Truthy(s: Option<string>) {
    s.Some? && s.value != ""
  }

  /** `s || fallback` for a nullable string. */
  function OrElse(s: Option<string>, fallback: string): (r: string)
    ensures Truthy(s) ==> r == s.value
    ensures !Truthy(s) ==> r == fallback
  {
    if Truthy(s) then s.value else fallback
  }

  /** A replacement value that JavaScript's `replace` inserts literally: it has no `$` patterns. */
  predicate NoDollar(s: string) {
    '$' !in s
  }

  // ---------------------------------------------------------------------------
  // Occurrences of a literal pattern

  /** `pat` occurs in `s` starting at index `i`. */
  predicate OccursAt(s: string, pat: string, i: int) {
    0 <= i && i + |pat| <= |s| && s[i..i + |pat|] == pat
  }

  predicate Occurs(s: string, pat: string) {
    exists i :: 0 <= i <= |s| && OccursAt(s, pat, i)
  }

  /** No occurrence of `pat` in `s` starts at an index below `k`. */
  predicate NoOccurrenceBefore(s: string, pat: string, k: int) {
    forall i :: 0 <= i < k ==> !OccursAt(s, pat, i)
  }

  lemma OccursAtStart(s: string, pat: string)
    ensures OccursAt(s, pat, 0) <==> pat <= s
  {
  }

  /** An occurrence inside `t` is one inside `x + t`, shifted by `|x|`. */
  lemma OccursInSuffix(x: string, t: string, pat: string, i: int)
    requires 0 <= i
    ensures OccursAt(x + t, pat, |x| + i) <==> OccursAt(t, pat, i)
  {
    if |x| + i + |pat| <= |x + t| {
      assert (x + t)[|x| + i..|x| + i + |pat|] == t[i..i + |pat|];
    }
  }

  /** The `k`-th character of an occurrence is the `k`-th character of the pattern. */
  lemma CharOfOccurrence(s: string, pat: string, i: int, k: int)
    ensures OccursAt(s, pat, i) && 0 <= k < |pat| ==> s[i + k] == pat[k]
  {
    if OccursAt(s, pat, i) && 0 <= k < |pat| {
      assert s[i..i + |pat|][k] == s[i + k];
    }
  }

  // ---------------------------------------------------------------------------
  // Global literal replacement, split and join

  /**
   * `s.replace(/pat/g, rep)` for a pattern without regular-expression
   * metacharacters: scan left to right, replace each match and resume after it.
   */
  function ReplaceAll(s: string, pat: string, rep: string): (r: string)
    requires |pat| > 0 && NoDollar(rep)
    // replacing with text free of `$` brings no `$` in
    ensures NoDollar(s) ==> NoDollar(r)
    // a replacement as long as the pattern keeps the length
    ensures |rep| == |pat| ==> |r| == |s|
    decreases |s|
  {
    if |s| == 0 then ""
    else if pat <= s then rep + ReplaceAll(s[|pat|..], pat, rep)
    else [s[0]] + ReplaceAll(s[1..], pat, rep)
  }

  /** `s.split(pat)` for a non-empty literal `pat`. */
  function Split(s: string, pat: string): (r: seq<string>)
    requires |pat| > 0
    ensures |r| >= 1
    ensures r[0] <= s
    decreases |s|
  {
    if |s| == 0 then [""]
    else if pat <= s then [""] + Split(s[|pat|..], pat)
    else
      var t := Split(s[1..], pat);
      [[s[0]] + t[0]] + t[1..]
  }

  /** `parts.join(sep)`; the empty array joins to `""`. */
  function Join(parts: seq<string>, sep: string): string
    decreases |parts|
  {
    if |parts| == 0 then ""
    else if |parts| == 1 then parts[0]
    else parts[0] + sep + Join(parts[1..], sep)
  }

  lemma JoinConsHead(c: char, p: string, rest: seq<string>, sep: string)
    ensures Join([[c] + p] + rest, sep) == [c] + Join([p] + rest, sep)
  {
    if |rest| > 0 {
      assert ([[c] + p] + rest)[1..] == rest;
      assert ([p] + rest)[1..] == rest;
    }
  }

  lemma JoinCons(p: string, rest: seq<string>, sep: string)
    requires |rest| > 0
    ensures Join([p] + rest, sep) == p + sep + Join(rest, sep)
  {
    assert ([p] + rest)[1..] == rest;
  }

  /** Global replacement is splitting on the pattern and joining with the replacement. */
  lemma {:induction false} ReplaceAllIsSplitJoin(s: string, pat: string, rep: string)
    requires |pat| > 0 && NoDollar(rep)
    ensures ReplaceAll(s, pat, rep) == Join(Split(s, pat), rep)
    decreases |s|
  {
    if |s| == 0 {
    } else if pat <= s {
      ReplaceAllIsSplitJoin(s[|pat|..], pat, rep);
      ReplaceSplitAtMatch(s, pat, rep);
    } else {
      ReplaceAllIsSplitJoin(s[1..], pat, rep);
      ReplaceSplitPastChar(s, pat, rep);
    }
  }

  /** The step of `ReplaceAllIsSplitJoin` at a leading occurrence of the pattern. */
  lemma ReplaceSplitAtMatch(s: string, pat: string, rep: string)
    requires |pat| > 0 && NoDollar(rep) && |s| > 0 && pat <= s
    requires ReplaceAll(s[|pat|..], pat, rep) == Join(Split(s[|pat|..], pat), rep)
    ensures ReplaceAll(s, pat, rep) == Join(Split(s, pat), rep)
  {
    var rest := s[|pat|..];
    assert ReplaceAll(s, pat, rep) == rep + ReplaceAll(rest, pat, rep);
    assert Split(s, pat) == [""] + Split(rest, pat);
    JoinCons("", Split(rest, pat), rep);
    assert "" + rep == rep;
  }

  /** The step of `ReplaceAllIsSplitJoin` past a leading character that starts no match. */
  lemma ReplaceSplitPastChar(s: string, pat: string, rep: string)
    requires |pat| > 0 && NoDollar(rep) && |s| > 0 && !(pat <= s)
    requires ReplaceAll(s[1..], pat, rep) == Join(Split(s[1..], pat), rep)
    ensures ReplaceAll(s, pat, rep) == Join(Split(s, pat), rep)
  {
    var t := Split(s[1..], pat);
    assert Split(s, pat) == [[s[0]] + t[0]] + t[1..];
    assert t == [t[0]] + t[1..];
    JoinConsHead(s[0], t[0], t[1..], rep);
  }

  /** Joining the pieces of a split with the pattern itself gives back the string. */
  lemma {:induction false} SplitJoinRoundTrip(s: string, pat: string)
    requires |pat| > 0
    ensures Join(Split(s, pat), pat) == s
    decreases |s|
  {
    if |s| == 0 {
    } else if pat <= s {
      var rest := s[|pat|..];
      assert s == pat + rest;
      SplitJoinRoundTrip(rest, pat);
      SplitJoinAtMatch(rest, pat);
    } else {
      var rest := s[1..];
      assert s == [s[0]] + rest;
      SplitJoinRoundTrip(rest, pat);
      SplitJoinPastChar(s[0], rest, pat);
    }
  }

  /** The round-trip step past a leading occurrence of the pattern. */
  lemma SplitJoinAtMatch(r: string, pat: string)
    requires |pat| > 0
    requires Join(Split(r, pat), pat) == r
    ensures Join(Split(pat + r, pat), pat) == pat + r
  {
    var s := pat + r;
    assert s[|pat|..] == r;
    var t := Split(r, pat);
    assert Split(s, pat) == [""] + t;
    JoinCons("", t, pat);
    assert "" + pat + r == s;
  }

  /** The round-trip step past a leading character that starts no occurrence. */
  lemma SplitJoinPastChar(c: char, r: string, pat: string)
    requires |pat| > 0 && !(pat <= [c] + r)
    requires Join(Split(r, pat), pat) == r
    ensures Join(Split([c] + r, pat), pat) == [c] + r
  {
    var s := [c] + r;
    assert s[1..] == r;
    var t := Split(r, pat);
    assert Split(s, pat) == [[c] + t[0]] + t[1..];
    assert [t[0]] + t[1..] == t;
    JoinConsHead(c, t[0], t[1..], pat);
  }

  /** Every occurrence of `pat` is split on: no piece of `Split(s, pat)` contains `pat`. */
  lemma {:induction false} SplitPiecesFree(s: string, pat: string)
    requires |pat| > 0
    ensures forall k :: 0 <= k < |Split(s, pat)| ==> !Occurs(Split(s, pat)[k], pat)
    decreases |s|
  {
    if |s| == 0 {
      assert forall i :: !OccursAt("", pat, i);
    } else if pat <= s {
      var rest := s[|pat|..];
      assert s == pat + rest;
      SplitPiecesFree(rest, pat);
      PiecesFreeAtMatch(rest, pat);
    } else {
      var rest := s[1..];
      assert s == [s[0]] + rest;
      SplitPiecesFree(rest, pat);
      PiecesFreePastChar(s[0], rest, pat);
    }
  }

  /** The induction step of `SplitPiecesFree` at an occurrence: the pieces are `""` and those of the rest. */
  lemma PiecesFreeAtMatch(r: string, pat: string)
    requires |pat| > 0
    requires forall k :: 0 <= k < |Split(r, pat)| ==> !Occurs(Split(r, pat)[k], pat)
    ensures forall k :: 0 <= k < |Split(pat + r, pat)| ==> !Occurs(Split(pat + r, pat)[k], pat)
  {
    var s := pat + r;
    assert pat <= s && s[|pat|..] == r;
    assert Split(s, pat) == [""] + Split(r, pat);
    assert forall i :: !OccursAt("", pat, i);
  }

  /** The induction step of `SplitPiecesFree` past a character that starts no occurrence. */
  lemma PiecesFreePastChar(c: char, r: string, pat: string)
    requires |pat| > 0 && !(pat <= [c] + r)
    requires forall k :: 0 <= k < |Split(r, pat)| ==> !Occurs(Split(r, pat)[k], pat)
    ensures forall k :: 0 <= k < |Split([c] + r, pat)| ==> !Occurs(Split([c] + r, pat)[k], pat)
  {
    var s := [c] + r;
    var t := Split(r, pat);
    assert s[1..] == r;
    assert Split(s, pat) == [[c] + t[0]] + t[1..];
    var head := [c] + t[0];
    assert head <= s;
    forall i | 0 <= i <= |head|
      ensures !OccursAt(head, pat, i)
    {
      if i == 0 {
        OccursAtStart(head, pat);
        OccursAtStart(s, pat);
      } else {
        OccursInSuffix([c], t[0], pat, i - 1);
      }
    }
    assert !Occurs(t[0], pat);
  }

  /** A string without the pattern is left unchanged by global replacement. */
  lemma {:induction false} ReplaceAllAbsent(s: string, pat: string, rep: string)
    requires |pat| > 0 && NoDollar(rep)
    requires !Occurs(s, pat)
    ensures ReplaceAll(s, pat, rep) == s
    decreases |s|
  {
    if |s| > 0 {
      assert !OccursAt(s, pat, 0);
      assert !(pat <= s);
      forall i | OccursAt(s[1..], pat, i)
        ensures false
      {
        assert s[i + 1..i + 1 + |pat|] == s[1..][i..i + |pat|];
        assert OccursAt(s, pat, i + 1);
      }
      ReplaceAllAbsent(s[1..], pat, rep);
      assert s == [s[0]] + s[1..];
    }
  }

  /**
   * Replacement distributes over a concatenation when no occurrence of the
   * pattern straddles the seam.
   */
  lemma {:induction false} ReplaceAllConcat(x: string, y: string, pat: string, rep: string)
    requires |pat| > 0 && NoDollar(rep)
    requires forall i :: 0 <= i < |x| < i + |pat| ==> !OccursAt(x + y, pat, i)
    ensures ReplaceAll(x + y, pat, rep) == ReplaceAll(x, pat, rep) + ReplaceAll(y, pat, rep)
    decreases |x|
  {
    var s := x + y;
    if |x| == 0 {
      assert s == y;
    } else if pat <= s {
      assert OccursAt(s, pat, 0);
      assert |pat| <= |x|;
      assert pat <= x by { assert x[..|pat|] == s[..|pat|]; }
      var x' := x[|pat|..];
      assert s == pat + (x' + y);
      forall i | 0 <= i < |x'| < i + |pat|
        ensures !OccursAt(x' + y, pat, i)
      {
        OccursInSuffix(pat, x' + y, pat, i);
      }
      ReplaceAllConcat(x', y, pat, rep);
    } else {
      assert !(pat <= x);
      var x' := x[1..];
      assert s == [s[0]] + (x' + y);
      forall i | 0 <= i < |x'| < i + |pat|
        ensures !OccursAt(x' + y, pat, i)
      {
        OccursInSuffix([s[0]], x' + y, pat, i);
      }
      ReplaceAllConcat(x', y, pat, rep);
      assert s[0] == x[0];
    }
  }

  /**
   * Splitting `a + pat + b` where no occurrence of `pat` starts inside `a`
   * yields `a` followed by the pieces of `b`.
   */
  lemma {:induction false} SplitAtFirst(a: string, pat: string, b: string)
    requires |pat| > 0
    requires NoOccurrenceBefore(a + pat + b, pat, |a|)
    ensures Split(a + pat + b, pat) == [a] + Split(b, pat)
    decreases |a|
  {
    var s := a + pat + b;
    if |a| == 0 {
      assert s == pat + b;
      assert s[|pat|..] == b;
    } else {
      assert !OccursAt(s, pat, 0);
      assert !(pat <= s);
      assert s == [s[0]] + (a[1..] + pat + b);
      forall i | 0 <= i < |a[1..]|
        ensures !OccursAt(a[1..] + pat + b, pat, i)
      {
        OccursInSuffix([s[0]], a[1..] + pat + b, pat, i);
      }
      SplitAtFirst(a[1..], pat, b);
      assert [s[0]] + a[1..] == a;
    }
  }

  // ---------------------------------------------------------------------------
  // Brace tokens: `{name}` placeholders

  /** `{name}` where `name` contains no brace. */
  predicate IsToken(t: string) {
    && |t| >= 2
    && t[0] == '{'
    && t[|t| - 1] == '}'
    && forall i :: 0 < i < |t| - 1 ==> t[i] != '{' && t[i] != '}'
  }

  /** Text without an opening brace. */
  predicate BraceFree(s: string) {
    forall i :: 0 <= i < |s| ==> s[i] != '{'
  }

  /** A brace token cannot occur in text without an opening brace. */
  lemma NoTokenInBraceFree(s: string, tok: string)
    requires IsToken(tok) && BraceFree(s)
    ensures !Occurs(s, tok)
  {
    forall i | 0 <= i <= |s| && OccursAt(s, tok, i)
      ensures false
    {
      CharOfOccurrence(s, tok, i, 0);
    }
  }

  /**
   * Two brace tokens occurring in one string either do not overlap or are the
   * same token at the same place.
   */
  lemma TokensDoNotOverlap(s: string, p: string, i: int, q: string, j: int)
    requires IsToken(p) && IsToken(q)
    requires OccursAt(s, p, i) && OccursAt(s, q, j)
    requires i <= j < i + |p|
    ensures i == j && p == q
  {
    CharOfOccurrence(s, p, i, j - i);
    CharOfOccurrence(s, q, j, 0);
    CharOfOccurrence(s, p, i, |p| - 1);
    CharOfOccurrence(s, q, j, |p| - 1);
    CharOfOccurrence(s, q, j, |q| - 1);
    CharOfOccurrence(s, p, i, |q| - 1);
    assert p == s[i..i + |p|];
  }

  /** A token's own text holds no other token. */
  lemma TokenHoldsNoOtherToken(tok: string, pat: string)
    requires IsToken(tok) && IsToken(pat) && tok != pat
    ensures !Occurs(tok, pat)
  {
    forall i | OccursAt(tok, pat, i)
      ensures false
    {
      assert OccursAt(tok, tok, 0);
      TokensDoNotOverlap(tok, tok, 0, pat, i);
    }
  }

  /**
   * Replacing one token leaves every occurrence of a different token verbatim:
   * the text around it is rewritten independently on each side.
   */
  lemma ReplaceKeepsOtherToken(a: string, tok: string, b: string, pat: string, rep: string)
    requires IsToken(tok) && IsToken(pat) && tok != pat && NoDollar(rep)
    ensures ReplaceAll(a + tok + b, pat, rep)
         == ReplaceAll(a, pat, rep) + tok + ReplaceAll(b, pat, rep)
  {
    assert a + tok + b == a + (tok + b);
    SeamBeforeToken(a, tok, b, pat);
    ReplaceAllConcat(a, tok + b, pat, rep);
    ReplacePastToken(tok, b, pat, rep);
  }

  /** Replacing a token `pat` in text that starts with a different token keeps that token. */
  lemma ReplacePastToken(tok: string, b: string, pat: string, rep: string)
    requires IsToken(tok) && IsToken(pat) && tok != pat && NoDollar(rep)
    ensures ReplaceAll(tok + b, pat, rep) == tok + ReplaceAll(b, pat, rep)
  {
    SeamAfterToken(tok, b, pat);
    ReplaceAllConcat(tok, b, pat, rep);
    TokenHoldsNoOtherToken(tok, pat);
    ReplaceAllAbsent(tok, pat, rep);
  }

  /** No occurrence of a token `pat` straddles the start of a different token. */
  lemma SeamBeforeToken(a: string, tok: string, b: string, pat: string)
    requires IsToken(tok) && IsToken(pat) && tok != pat
    ensures forall i :: 0 <= i < |a| < i + |pat| ==> !OccursAt(a + (tok + b), pat, i)
  {
    var s := a + (tok + b);
    assert OccursAt(s, tok, |a|) by { assert s[|a|..|a| + |tok|] == tok; }
    forall i | 0 <= i < |a| < i + |pat| && OccursAt(s, pat, i)
      ensures false
    {
      TokensDoNotOverlap(s, pat, i, tok, |a|);
    }
  }

  /** No occurrence of a token `pat` straddles the end of a different token. */
  lemma SeamAfterToken(tok: string, b: string, pat: string)
    requires IsToken(tok) && IsToken(pat) && tok != pat
    ensures forall i :: 0 <= i < |tok| < i + |pat| ==> !OccursAt(tok + b, pat, i)
  {
    var u := tok + b;
    assert OccursAt(u, tok, 0);
    forall i | 0 <= i < |tok| < i + |pat| && OccursAt(u, pat, i)
      ensures false
    {
      TokensDoNotOverlap(u, tok, 0, pat, i);
    }
  }

  /**
   * Splitting on a token undoes joining with it, provided no piece contains
   * the token: the token's braces rule out occurrences across a seam.
   */
  lemma {:induction false} JoinSplitRoundTrip(parts: seq<string>, pat: string)
    requires IsToken(pat) && |parts| >= 1
    requires forall k :: 0 <= k < |parts| ==> !Occurs(parts[k], pat)
    ensures Split(Join(parts, pat), pat) == parts
    decreases |parts|
  {
    if |parts| == 1 {
      SplitOfTokenFree(parts[0], pat);
    } else {
      var a := parts[0];
      var rest := parts[1..];
      JoinCons(a, rest, pat);
      assert parts == [a] + rest;
      var s := a + pat + Join(rest, pat);
      assert OccursAt(s, pat, |a|) by { assert s[|a|..|a| + |pat|] == pat; }
      forall i | 0 <= i < |a|
        ensures !OccursAt(s, pat, i)
      {
        if OccursAt(s, pat, i) {
          if i + |pat| <= |a| {
            assert a[i..i + |pat|] == s[i..i + |pat|];
            assert OccursAt(a, pat, i);
          } else {
            TokensDoNotOverlap(s, pat, i, pat, |a|);
          }
        }
      }
      SplitAtFirst(a, pat, Join(rest, pat));
      JoinSplitRoundTrip(rest, pat);
    }
  }

  /** A string without the pattern splits into itself alone. */
  lemma {:induction false} SplitOfTokenFree(s: string, pat: string)
    requires |pat| > 0 && !Occurs(s, pat)
    ensures Split(s, pat) == [s]
    decreases |s|
  {
    if |s| > 0 {
      assert !OccursAt(s, pat, 0);
      forall i | OccursAt(s[1..], pat, i)
        ensures false
      {
        assert s[i + 1..i + 1 + |pat|] == s[1..][i..i + |pat|];
        assert OccursAt(s, pat, i + 1);
      }
      SplitOfTokenFree(s[1..], pat);
      assert s == [s[0]] + s[1..];
    }
  }

  /**
   * Every occurrence is replaced and nothing else changes: a string made of
   * token-free pieces separated by the token becomes the same pieces
   * separated by the replacement.
   */
  lemma ReplaceTokenEverywhere(parts: seq<string>, pat: string, rep: string)
    requires IsToken(pat) && NoDollar(rep) && |parts| >= 1
    requires forall k :: 0 <= k < |parts| ==> !Occurs(parts[k], pat)
    ensures ReplaceAll(Join(parts, pat), pat, rep) == Join(parts, rep)
  {
    ReplaceAllIsSplitJoin(Join(parts, pat), pat, rep);
    JoinSplitRoundTrip(parts, pat);
  }

  // ---------------------------------------------------------------------------
  // Whitespace, trim and substring

  /** The characters JavaScript's `\s` and `String.prototype.trim` treat as white space. */
  predicate IsSpace(c: char) {
    || c == ' ' || c == '\t' || c == '\n' || c == '\r'
    || c == '\U{000B}' || c == '\U{000C}' || c == '\U{00A0}' || c == '\U{1680}'
    || ('\U{2000}' <= c <= '\U{200A}')
    || c == '\U{2028}' || c == '\U{2029}' || c == '\U{202F}' || c == '\U{205F}'
    || c == '\U{3000}' || c == '\U{FEFF}'
  }

  /** `s` with its leading white space removed. */
  function TrimStart(s: string): (r: string)
    ensures |r| <= |s| && r == s[|s| - |r|..]
    ensures forall i :: 0 <= i < |s| - |r| ==> IsSpace(s[i])
    ensures r == "" || !IsSpace(r[0])
    decreases |s|
  {
    if |s| > 0 && IsSpace(s[0]) then TrimStart(s[1..]) else s
  }

  /** `s` with its trailing white space removed. */
  function TrimEnd(s: string): (r: string)
    ensures |r| <= |s| && r == s[..|r|]
    ensures forall i :: |r| <= i < |s| ==> IsSpace(s[i])
    ensures r == "" || !IsSpace(r[|r| - 1])
    decreases |s|
  {
    if |s| > 0 && IsSpace(s[|s| - 1]) then TrimEnd(s[..|s| - 1]) else s
  }

  /** `r` is the infix of `s` at index `i`, and only white space lies outside it. */
  predicate TrimmedAt(s: string, r: string, i: int) {
    && 0 <= i && i + |r| <= |s| && r == s[i..i + |r|]
    && (forall k :: 0 <= k < i ==> IsSpace(s[k]))
    && (forall k :: i + |r| <= k < |s| ==> IsSpace(s[k]))
  }

  /** `s.trim()`: the longest infix that neither starts nor ends with white space. */
  function Trim(s: string): (r: string)
    ensures exists i :: TrimmedAt(s, r, i)
    ensures r == "" || (!IsSpace(r[0]) && !IsSpace(r[|r| - 1]))
  {
    var t := TrimStart(s);
    var r := TrimEnd(t);
    var i := |s| - |t|;
    assert TrimmedAt(s, r, i);
    assert r != "" ==> r[0] == t[0];
    r
  }

  /** Trimming twice is trimming once. */
  lemma TrimIdempotent(s: string)
    ensures Trim(Trim(s)) == Trim(s)
  {
    var r := Trim(s);
    if r != "" {
      assert TrimStart(r) == r;
      assert TrimEnd(r) == r;
    }
  }

  /** `s.substring(0, n)` for `n >= 0`. */
  function Prefix(s: string, n: nat): (r: string)
    ensures r <= s
    ensures |r| == if |s| <= n then |s| else n
  {
    if |s| <= n then s else s[..n]
  }
}

=== FILE: wrappers.dfy ===
/** Optional values: the model's stand-in for JavaScript's `null` / `undefined`. */
module Wrappers {

  datatype Option<+T> = None | Some(value: T) {

    /** The contained value, or `default` when there is none. */
    function GetOr(default: T): T {
      match this
      case Some(v) => v
      case None => default
    }
  }
}
